=== FILE: README.md ===
# IG2 physics and rendering core in Dafny

This project models the core of IG2, a small Rust game engine. The
physics side covers:

- the fixed-point world (positions in micrometres, `UNITS_PER_METER = 10^6`);
- the spatial acceleration structure, an AABB tree of rigid bodies;
- the narrow-phase collision tests: separating-axis box/box, sphere/box and sphere/sphere;
- the GJK/EPA helper functions;
- the rigid body (mass, impulses, torque, point velocities);
- the inertia tensor;
- the integer part of the physics tick: gravity, penetration correction, the self-collision skip and integration.

The rendering side covers the mesh pool's buffer bookkeeping: slot and
instance allocation, growth, draw commands. It also covers the graphics
engine's routing of renderables into pools, with its cache of static
meshes, and the mesh loader's vertex interleaving and scaling.

Some conventions the model uses:

- **Integers.** Rust integer operators are written out. `RustDiv` is truncating division, `TruncReal` is an `as i64` cast, and `CeilDiv` and `ISqrt` stand for the float `ceil` and `sqrt` where the operands are integers.
- **Floats.** `f32` values are modelled as mathematical reals.
- **Panics.** A panic (an `unwrap` of `None`, an out-of-bounds index, a failed `assert!`) becomes the `Panic` case of a `Result`.
- **Unknowns.** Rotation matrices, normalisation, hash-map iteration order and the velocity response are passed in as parameters.

Modules:

| module | file |
|---|---|
| `Base` | integer and `Result` helpers |
| `Vectors` | vectors, transforms and metre conversion |
| `SpatialAccelerationStructure` | the AABB tree |
| `Collisions` | the narrow-phase tests and `collides_with` |
| `Gjk` | the GJK/EPA helpers |
| `InertiaTensor` | `moment_of_inertia` |
| `Rigidbody` | the rigid-body trait |
| `PhysicsUpdate` | `do_physics` |
| `MeshPool` | the mesh pool |
| `GraphicsEngine` | the engine |
| `MeshLoading` | the vertex interleaving and scaling in the mesh loader |

## Model

| member | source | states |
|---|---|---|
| Vectors.MetersRoundTrip | src/transform.rs:28-29 | converting micrometres to metres and back gives back every integer position exactly (inverse of `vec3_from_i64vec3`, lines 41-42) |
| Vectors.MicrometreRoundTrip | src/transform.rs:41-42 | converting metres to micrometres and back loses less than one micrometre per component |
| SpatialAccelerationStructure.NewAABB | src/phys/spatial_acceleration_structure.rs:204-209 | the box of a transform is centred on its position and extends the same half-extent on every axis |
| SpatialAccelerationStructure.NewAABBCoversScale | src/phys/spatial_acceleration_structure.rs:206-207 | the half-extent, taken from the largest scale component, is at least every scale component in micrometres |
| SpatialAccelerationStructure.Fit | src/phys/spatial_acceleration_structure.rs:219-226 | growing a box to fit another keeps its centre and gives the least box enclosing both |
| SpatialAccelerationStructure.FitIdempotent | src/phys/spatial_acceleration_structure.rs:219-226 | fitting a box already enclosed changes nothing; fitting twice is fitting once |
| SpatialAccelerationStructure.ContainsStrict | src/phys/spatial_acceleration_structure.rs:228-230 | containment is strict on every face: irreflexive, implies enclosure, transitive |
| SpatialAccelerationStructure.TouchesIffInteriorsMeet | src/phys/spatial_acceleration_structure.rs:232-240 | two proper boxes touch exactly when some point lies strictly inside both |
| SpatialAccelerationStructure.TouchesProperties | src/phys/spatial_acceleration_structure.rs:232-240 | touching is symmetric, boxes sharing only a face do not touch, and a box enclosing a touching box touches too |
| SpatialAccelerationStructure.New | src/phys/spatial_acceleration_structure.rs:28-30 | a new tree is well formed and every query on it is empty |
| SpatialAccelerationStructure.Octant | src/phys/spatial_acceleration_structure.rs:65-87 | the octant index is below 8 and its three bits encode on which side of the node centre the box centre lies on each axis |
| SpatialAccelerationStructure.Backtrace | src/phys/spatial_acceleration_structure.rs:52-95 | the descent path starts at the start node's octant child, stays strictly below an internal start node, and ends at a leaf in the start node's subtree |
| SpatialAccelerationStructure.BacktraceFollowsOctants | src/phys/spatial_acceleration_structure.rs:55-93 | each entry of the descent path is the octant child of the entry before it, chosen by the three centre comparisons, until a leaf, which is pushed once more |
| SpatialAccelerationStructure.InsertLeaf | src/phys/spatial_acceleration_structure.rs:52-95 | the insertion target is a leaf on the descent path |
| SpatialAccelerationStructure.FitAll | src/phys/spatial_acceleration_structure.rs:97-104 | walking back up the path grows exactly the nodes on it to enclose the new box, and leaves the others unchanged |
| SpatialAccelerationStructure.Insert | src/phys/spatial_acceleration_structure.rs:32-107 | insertion keeps the tree well formed, creates the root when the tree is empty and otherwise adds no node |
| SpatialAccelerationStructure.InsertIntoEmpty | src/phys/spatial_acceleration_structure.rs:36-46 | inserting into an empty tree makes a single root leaf holding the object, with the object's box as its box |
| SpatialAccelerationStructure.InsertAppendsToLeaf | src/phys/spatial_acceleration_structure.rs:56-62 | otherwise the object and its box are appended to the chosen leaf and no other node gains an object |
| SpatialAccelerationStructure.InsertFitsBacktrace | src/phys/spatial_acceleration_structure.rs:98-104 | every node on the descent path ends up enclosing the new object's box |
| SpatialAccelerationStructure.InsertRoot | src/phys/spatial_acceleration_structure.rs:98-104 | a root that is a leaf grows to enclose the new box; a root with children is left as it was |
| SpatialAccelerationStructure.InsertPreservesOwnBoxesEnclosed | src/phys/spatial_acceleration_structure.rs:56-104 | if every node encloses the boxes of its own objects before insertion, it does so after |
| SpatialAccelerationStructure.InsertPreservesLocationsAccurate | src/phys/spatial_acceleration_structure.rs:61 | the object-to-node location map stays accurate: each recorded node holds that object |
| SpatialAccelerationStructure.InsertKeepsSingleLeaf | src/phys/spatial_acceleration_structure.rs:32-107 | because splitting never happens, a tree with a single leaf keeps a single node |
| SpatialAccelerationStructure.Remove | src/phys/spatial_acceleration_structure.rs:109-111 | removal leaves the tree unchanged (the source's body is empty) |
| SpatialAccelerationStructure.FirstContaining | src/phys/spatial_acceleration_structure.rs:125-134 | finds the first child that strictly contains the box, or reports that none does |
| SpatialAccelerationStructure.Descend | src/phys/spatial_acceleration_structure.rs:125-134 | the query descends to a node below the start that contains the box, where no child contains it |
| SpatialAccelerationStructure.OwnTouching | src/phys/spatial_acceleration_structure.rs:159-171 | a node's own hits are exactly its objects whose boxes touch the query box |
| SpatialAccelerationStructure.GetTouchingMembership | src/phys/spatial_acceleration_structure.rs:154-172 | an object is reported exactly when some node in the subtree holds it with a box touching the query |
| SpatialAccelerationStructure.ChildrenTouchingMembership | src/phys/spatial_acceleration_structure.rs:154-172 | the hits gathered from children are exactly the hits of their subtrees |
| SpatialAccelerationStructure.QueryAabb | src/phys/spatial_acceleration_structure.rs:122-152 | a query on an empty tree reports nothing |
| SpatialAccelerationStructure.QueryMembership | src/phys/spatial_acceleration_structure.rs:122-152 | an object is reported exactly when it sits below the descended node with a box touching the query box |
| SpatialAccelerationStructure.QuerySingleLeaf | src/phys/spatial_acceleration_structure.rs:122-152 | in a single-leaf tree, the query reports exactly the stored objects whose boxes touch the query |
| SpatialAccelerationStructure.SplitNeverRequested | src/phys/spatial_acceleration_structure.rs:144 | no node of a well-formed tree has more children than the split threshold, so the split warning (a `println!`; no split is done) is never printed |
| Collisions.SignedDistanceAlongNormal | src/gameobjects/collisions.rs:29-31 | a plane's own point has distance zero, and moving along the normal changes the distance linearly |
| Collisions.ScanPlanes | src/gameobjects/collisions.rs:39-53 | the scan succeeds exactly when the vertex is behind every plane, and then keeps the first plane of least penetration |
| Collisions.VertexContact | src/gameobjects/collisions.rs:39-53 | a vertex produces a contact exactly when it is inside all planes |
| Collisions.VertexChoice | src/gameobjects/collisions.rs:39-56 | the chosen plane has the least absolute distance of all planes, and the contact normal is that plane's normal |
| Collisions.PenetrationUnits | src/gameobjects/collisions.rs:57 | penetration converts to non-negative micrometres, truncated, and saturates at `i64::MAX` like the `as i64` cast |
| Collisions.ContactFor | src/gameobjects/collisions.rs:57-60 | every reported contact has a penetration within `0..=i64::MAX` |
| Collisions.SatContacts | src/gameobjects/collisions.rs:34-63 | one contact per vertex inside all planes, in vertex order, and none when no vertex is inside |
| Collisions.InsideIndices | src/gameobjects/collisions.rs:34-63 | the strictly increasing indices of exactly the vertices inside every plane |
| Collisions.SatContactsPositional | src/gameobjects/collisions.rs:34-63 | position by position, the k-th contact is the one for the k-th inside vertex |
| Collisions.SatContactsOnePerInsideVertex | src/gameobjects/collisions.rs:34-63 | the k-th contact is the one for the k-th inside vertex, so every inside vertex contributes exactly one contact and its contact is among the results |
| Collisions.SatNormal | src/gameobjects/collisions.rs:56 | the normal is that of the last inside vertex's plane, or is left as passed in when no vertex is inside |
| Collisions.LastInsideStep | src/gameobjects/collisions.rs:34-63 | the last-inside-vertex rule is what a left-to-right scan keeps |
| Collisions.SatPlaneLoop | src/gameobjects/collisions.rs:34-63 | the loop's contacts are empty exactly when no vertex is inside, the normal is then unchanged, and every penetration is in range |
| Collisions.InsideUnitPlanes | src/gameobjects/collisions.rs:103-110 | the six unit planes bound exactly the cube `[-0.5, 0.5]^3` |
| Collisions.Verts2 | src/gameobjects/collisions.rs:81-88 | the second box's eight corners are the unit corners mapped into the first box's frame |
| Collisions.Planes2 | src/gameobjects/collisions.rs:114-122 | the second box's six face planes are the unit planes mapped into the first box's frame |
| Collisions.CollisionSat | src/gameobjects/collisions.rs:65-158 | box/box reports a collision exactly when some corner of either box lies inside the other, with at most 16 contacts |
| Collisions.SatMerge | src/gameobjects/collisions.rs:136-156 | the contacts of both directions are concatenated; the normal comes from the first direction when it found contacts, else the second's normal negated |
| Collisions.Clamp | src/gameobjects/collisions.rs:591 | clamping lands inside `[-e, e]` and leaves a value already there unchanged |
| Collisions.FaceNormal | src/gameobjects/collisions.rs:603-621 | each of the six faces gives its own outward unit normal, tested in the order +Y, -Y, +X, -X, +Z, -Z, so the normal has at most one non-zero axis; zero exactly when the point is on no face |
| Collisions.FaceNormalIsFirstFace | src/gameobjects/collisions.rs:603-621 | against an independent face-plane test: the normal is the first of the six faces, in test order, whose plane holds the closest point, and zero exactly when no face plane holds it |
| Collisions.RadiusTest | src/gameobjects/collisions.rs:596-601 | comparing the integer squared distance with the truncated squared radius is the same as comparing real values |
| Collisions.SphereBox | src/gameobjects/collisions.rs:583-632 | a sphere and a box collide exactly when the squared gap to the nearest box point is within the squared radius; the one contact lies at that nearest point in world units, its normal is the cube face holding that point turned into the world frame, and its penetration is the integer distance minus the truncated radius |
| Collisions.SphereBoxPenetrationNonPositive | src/gameobjects/collisions.rs:626 | the sphere/box penetration, written `sqrt(d) - r`, is never positive for a collision |
| Collisions.SphereSphereAsWritten | src/gameobjects/collisions.rs:636-650 | the source's sphere/sphere test: truncated threshold and a contact placed away from the other sphere |
| Collisions.SphereSphereAsWrittenMissesOverlap | src/gameobjects/collisions.rs:637 | two overlapping 0.9-scale spheres 0.5 m apart are missed by the source's test and found by the corrected one |
| Collisions.SphereSphereAsWrittenContactOnFarSide | src/gameobjects/collisions.rs:643 | for unit spheres 1 m apart the source places the contact at -0.5 m, outside both spheres, where 0.5 m is intended |
| Collisions.SphereSphere | src/gameobjects/collisions.rs:636-650 | corrected: spheres collide exactly when the centre distance is at most the sum of radii, with one contact |
| Collisions.CorrectedHits | src/gameobjects/collisions.rs:637 | any two equal spheres whose centres are at most a diameter apart, wherever they are, collide in the corrected test |
| Collisions.ContactBetweenCentres | src/gameobjects/collisions.rs:643 | the corrected contact point lies between the two centres on every axis |
| Collisions.CollidesWith | src/gameobjects/collisions.rs:566-655 | the dispatch panics exactly when either shape is convex, and a reported collision has contacts; sphere/sphere goes to the corrected test |
| Collisions.DispatchBranches | src/gameobjects/collisions.rs:566-655 | each pair of shapes is routed to its own test, with sphere/box handled from either side and sphere/sphere to the corrected test |
| Collisions.SphereBoxOrderIrrelevant | src/gameobjects/collisions.rs:571-582 | a sphere and a box give the same result whichever one asks |
| Gjk.BestUpTo | src/gameobjects/collisions.rs:178-189 | after scanning a prefix, holds the first vertex of that prefix with the greatest dot product above the starting bound, or none exactly when no vertex beats it |
| Gjk.BestIndex | src/gameobjects/collisions.rs:178-189 | finds the first vertex with the greatest dot product above the starting bound, or none |
| Gjk.FurthestPoint | src/gameobjects/collisions.rs:178-189 | returns the first vertex maximising the dot product, or the sentinel point `(-1, -1, -1)` when every dot product is at most the starting best of `-10` |
| Gjk.SupportMaximises | src/gameobjects/collisions.rs:191-194 | the support point is a Minkowski-difference point whose projection is at least that of every other difference point |
| Gjk.TriplePointsToward | src/gameobjects/collisions.rs:220-235 | the triple product `(u × v) × u` never points away from `v` |
| Gjk.Line | src/gameobjects/collisions.rs:220-235 | the line case keeps both points or only `a`, by the sign test, with a direction toward the origin |
| Gjk.Triangle | src/gameobjects/collisions.rs:237-281 | the triangle case reduces to one of its edge/vertex outcomes or keeps all three, with a direction toward the origin |
| Gjk.Tetrahedron | src/gameobjects/collisions.rs:283-321 | the tetrahedron encloses the origin exactly when the origin is behind all three tested faces |
| Gjk.NextSimplex | src/gameobjects/collisions.rs:205-218 | dispatch panics outside sizes 2 to 4 and reports enclosure only for an enclosing tetrahedron |
| Gjk.NextSimplexShrinks | src/gameobjects/collisions.rs:205-218 | the next simplex is a non-empty subset of the old one, starts with the newest point and searches toward the origin |
| Gjk.PlaneThrough | src/gameobjects/collisions.rs:334-340 | each face plane has a non-negative distance, passes through the face, and flips the normal when needed |
| Gjk.PlanesUpTo | src/gameobjects/collisions.rs:329-348 | builds one plane per index triple, failing exactly on an out-of-range index |
| Gjk.FacePlanes | src/gameobjects/collisions.rs:329-348 | plane building succeeds exactly when the indices come in triples within the polytope |
| Gjk.Closest | src/gameobjects/collisions.rs:344-347 | the first plane of least distance, or index 0 with `f32::MAX` when none is closer |
| Gjk.GetFaceNormalsAsWritten | src/gameobjects/collisions.rs:323-352 | the source always reports face 0 as the closest, because `1/3` is integer zero |
| Gjk.GetFaceNormals | src/gameobjects/collisions.rs:323-352 | corrected: reports the index of the first face of least distance |
| Gjk.ClosestOfTwo | src/gameobjects/collisions.rs:344-347 | of two planes at distance 2 and 1, the closest is the second |
| Gjk.GetFaceNormalsAsWrittenIgnoresCloser | src/gameobjects/collisions.rs:345 | whenever some later face is closer than face 0, the source still reports 0 and the corrected version does not |
| Gjk.Position | src/gameobjects/collisions.rs:355 | finds the first occurrence of an edge, or none when it is absent |
| Gjk.RemoveAt | src/gameobjects/collisions.rs:358 | removing an index shifts the later edges down by one and keeps the earlier ones |
| Gjk.AddIfUniqueEdgeAsWritten | src/gameobjects/collisions.rs:354-364 | the source searches for the index pair `(b, a)`, removes its first occurrence when found, and otherwise appends the vertex pair `(faces[a], faces[b])` |
| Gjk.AddIfUniqueEdge | src/gameobjects/collisions.rs:354-364 | corrected: a reversed edge already present is removed, otherwise the edge is appended |
| Gjk.AddIfUniqueEdgeKeepsNoReversedPair | src/gameobjects/collisions.rs:354-364 | the corrected edge list never holds an edge together with its reverse |
| Gjk.AddIfUniqueEdgeAsWrittenKeepsShared | src/gameobjects/collisions.rs:355-362 | a concrete polytope where the source keeps a shared edge in both directions and the corrected version cancels it |
| InertiaTensor.BoxComponent | src/phys/inertia_tensor.rs:16 | a box component is non-negative for non-negative mass |
| InertiaTensor.SphereComponent | src/phys/inertia_tensor.rs:12-13 | a sphere component is non-negative for non-negative mass |
| InertiaTensor.MomentOfInertia | src/phys/inertia_tensor.rs:9-22 | convex shapes panic; the tensor is non-negative, equal on all axes for a sphere, and equal on any two axes of equal box size |
| InertiaTensor.SphereUsesOnlyX | src/phys/inertia_tensor.rs:12-13 | a sphere's tensor depends only on the x scale |
| InertiaTensor.BoxComponentLinear | src/phys/inertia_tensor.rs:16 | a box component scales linearly with mass |
| InertiaTensor.SphereComponentLinear | src/phys/inertia_tensor.rs:12-13 | a sphere component scales linearly with mass |
| Rigidbody.MassFactor | src/gameobjects/rigidbody.rs:104-109 | the shape factor is positive: `(4/3)·3.1415` for spheres, 1 otherwise |
| Rigidbody.Mass | src/gameobjects/rigidbody.rs:104-109 | mass is positive for positive density and volume, and zero when either is zero |
| Rigidbody.MassProportionalToDensity | src/gameobjects/rigidbody.rs:104-109 | changing only the density scales the mass by the same ratio |
| Rigidbody.SphereMassRatio | src/gameobjects/rigidbody.rs:106 | a sphere weighs `(4/3)·3.1415` times a box of the same density and scale |
| Rigidbody.SetDensity | src/gameobjects/rigidbody.rs:152-155 | a zero density fails the assertion; otherwise only the density changes |
| Rigidbody.SetDensityGivesMass | src/gameobjects/rigidbody.rs:152-155 | after a successful `set_density`, a body of non-zero volume has non-zero mass |
| Rigidbody.SetVelocity | src/gameobjects/rigidbody.rs:157-159 | only the linear velocity changes, to the given value |
| Rigidbody.SetAngularVelocity | src/gameobjects/rigidbody.rs:161-163 | only the angular velocity changes, to the given value |
| Rigidbody.SetElasticity | src/gameobjects/collisions.rs:396-398 | only the elasticity changes, to the given value |
| Rigidbody.SettersIndependent | src/gameobjects/rigidbody.rs:157-163 | the two setters commute, and writing back the current value is a no-op |
| Rigidbody.Impulse | src/gameobjects/rigidbody.rs:64-71 | the linear velocity changes by force over mass in micrometres; nothing else changes |
| Rigidbody.ImpulseFollowsForce | src/gameobjects/rigidbody.rs:64-71 | for positive mass the velocity change has the force's sign, and a zero force changes nothing |
| Rigidbody.TorqueFromForceAtPos | src/gameobjects/rigidbody.rs:78-92 | angular velocity grows by `(r × F)` divided by the inertia tensor; convex bodies panic; nothing else changes |
| Rigidbody.TorqueAlongArmIsZero | src/gameobjects/rigidbody.rs:78-92 | a force along the lever arm adds no spin |
| Rigidbody.ImpulseAtPos | src/gameobjects/rigidbody.rs:73-76 | the combined impulse panics exactly for convex bodies |
| Rigidbody.ImpulseAtPosSplits | src/gameobjects/rigidbody.rs:73-76 | the combined impulse moves linear velocity as `impulse` alone and angular velocity as the torque alone |
| Rigidbody.LocalVelocityAtPointAsWritten | src/gameobjects/rigidbody.rs:118-122 | as written, `ω × p` scaled by the magnitude of `p`: a body without spin has zero rotational velocity at every point |
| Rigidbody.LocalVelocityAtPoint | src/gameobjects/rigidbody.rs:118-122 | the rotational velocity `ω × p`: zero without spin and at the centre |
| Rigidbody.SpinAxisStill | src/gameobjects/rigidbody.rs:118-122 | points on the spin axis have zero rotational velocity |
| Rigidbody.LocalVelocityAgreesAtUnitDistance | src/gameobjects/rigidbody.rs:118-122 | at distance 1 the as-written and corrected velocities coincide |
| Rigidbody.LocalVelocityAsWrittenDoubles | src/gameobjects/rigidbody.rs:118-122 | spinning at 1 rad/s about z, the point 2 m out on x moves at 2 m/s, while the as-written formula gives 4 m/s |
| Rigidbody.VelocityAtPoint | src/gameobjects/rigidbody.rs:112-116 | point velocity minus the body's velocity is the rotational part `ω × p` |
| Rigidbody.VelocityAtPointWithoutSpin | src/gameobjects/rigidbody.rs:112-122 | without spin every point, and always the centre, moves with the body's velocity |
| PhysicsUpdate.WithGravity | src/phys/physics_update.rs:8-20 | gravity lowers only the y velocity, by 28912 micrometres per tick |
| PhysicsUpdate.GreatestPenetration | src/phys/physics_update.rs:40-45 | the greatest penetration bounds every contact and is 0 or attained |
| PhysicsUpdate.MeanPosition | src/phys/physics_update.rs:65-67 | averaging contact positions panics exactly on an empty contact list (division by zero) |
| PhysicsUpdate.SumOfEqualPositions | src/phys/physics_update.rs:65-66 | n equal contact positions sum to n times that position |
| PhysicsUpdate.MeanOfEqualPositions | src/phys/physics_update.rs:65-67 | the mean of equal positions is that position |
| PhysicsUpdate.Restitution | src/phys/physics_update.rs:70 | the pair's factor is 1 when either body is perfectly inelastic, lies in 1 .. 2 for elasticities in 0 .. 1, and is 1.16 for two bodies at the default elasticity 0.4 |
| PhysicsUpdate.ApplyHit | src/phys/physics_update.rs:37-81 | a hit moves the body out by the normal times the greatest penetration; the new velocities are the response to the moved body, the pair's restitution factor, the normal and the mean contact relative to the moved body; shape, density and scale are kept; empty contacts panic |
| PhysicsUpdate.ShallowContactsDoNotMove | src/phys/physics_update.rs:63 | contacts that do not penetrate leave the position unchanged |
| PhysicsUpdate.ProcessFrom | src/phys/physics_update.rs:28-93 | the loop from any candidate position on panics exactly when some later candidate other than the body itself is convex (or the body is), and every hit keeps the body's shape and density |
| PhysicsUpdate.NoHitsLeaveBody | src/phys/physics_update.rs:28-93 | when every later candidate other than the body itself misses, the loop returns the body unchanged |
| PhysicsUpdate.ProcessCandidates | src/phys/physics_update.rs:28-93 | the whole candidate loop panics exactly when some other candidate (or the body) is convex, and keeps shape and density |
| PhysicsUpdate.ProcessCandidatesNoHits | src/phys/physics_update.rs:28-93 | self-candidates are skipped, so with no real hit the body is unchanged |
| PhysicsUpdate.QueryKnown | src/phys/physics_update.rs:23 | every candidate the tree reports refers to a body in the world |
| PhysicsUpdate.Integrate | src/phys/physics_update.rs:97-101 | position advances by a sixtieth of the velocity (truncating), and angular velocity is damped by 0.99 |
| PhysicsUpdate.IntegrateAxis | src/phys/physics_update.rs:97 | the per-tick step never overshoots the velocity, keeps its sign, and is zero below 60 units |
| PhysicsUpdate.StepBody | src/phys/physics_update.rs:16-105 | one body's step keeps its shape and density |
| PhysicsUpdate.StepAlone | src/phys/physics_update.rs:16-105 | a body whose query finds only itself just falls and integrates |
| PhysicsUpdate.TickFrom | src/phys/physics_update.rs:10-106 | the tick updates bodies in order, leaving earlier bodies as they were stepped, and keeps every shape |
| PhysicsUpdate.Tick | src/phys/physics_update.rs:10-106 | the tick keeps the world's size and every body's shape |
| PhysicsUpdate.TickFromWithoutContacts | src/phys/physics_update.rs:10-106 | with an empty tree each remaining body only falls and integrates |
| PhysicsUpdate.TickWithoutContacts | src/phys/physics_update.rs:10-106 | with an empty tree the tick is gravity plus integration for every body |
| MeshPool.CountFree | src/graphics/meshpool.rs:6-40 | the free-instance count never exceeds the bitmap length |
| MeshPool.CountFreeAppend | src/graphics/meshpool.rs:93-104 | the free count of a concatenation is the sum of the parts |
| MeshPool.CountFreeAllFree | src/graphics/meshpool.rs:93-104 | a fresh all-free bitmap of length n has n free entries |
| MeshPool.CountFreeTakeOne | src/graphics/meshpool.rs:483-486 | taking one free entry lowers the free count by one |
| MeshPool.Resize | src/graphics/meshpool.rs:104 | resizing keeps the existing prefix and fills the rest with the given value |
| MeshPool.ExpandVbo | src/graphics/meshpool.rs:227-235 | vertex growth adds one base capacity of new slots, numbered after the old capacity, and extends the draw commands |
| MeshPool.ExpandVboPreservesValid | src/graphics/meshpool.rs:227-235 | vertex growth keeps the pool consistent and the old draw commands intact |
| MeshPool.ExpandMvbo | src/graphics/meshpool.rs:93-104 | instance growth adds `size` base capacities of free instances and counts them as available |
| MeshPool.ExpandMvboPreservesValid | src/graphics/meshpool.rs:93-104 | instance growth keeps the pool consistent and appends only free entries |
| MeshPool.TakeRun | src/graphics/meshpool.rs:483-486 | taking a run marks exactly that run used and leaves other entries unchanged |
| MeshPool.CountFreeTakeRun | src/graphics/meshpool.rs:483-486 | taking a free run of length `count` lowers the free count by `count` |
| MeshPool.Take | src/graphics/meshpool.rs:407-410 | taking a free run keeps the pool consistent and changes only the instance bitmap and available count |
| MeshPool.FirstFreeRun | src/graphics/meshpool.rs:425-466 | finds the first start of `count` consecutive free instances, or reports that none exists |
| MeshPool.ExpandedHasRun | src/graphics/meshpool.rs:489-492 | after growing by `ceil(count / base)` capacities, a free run of `count` exists |
| MeshPool.GrownTransitive | src/graphics/meshpool.rs:489-492 | repeated growth is growth |
| MeshPool.GrownThenTaken | src/graphics/meshpool.rs:489-492 | growing and then taking a run is taking that run from the original bitmap |
| MeshPool.FindInstanceSlot | src/graphics/meshpool.rs:425-497 | corrected: marks and returns the first free run of `count`, growing when none exists |
| MeshPool.ScanOuter | src/graphics/meshpool.rs:433-466 | the source's outer scan reports only free, increasing entries |
| MeshPool.ScanInner | src/graphics/meshpool.rs:443-460 | the source's inner scan reports only free, increasing entries |
| MeshPool.ScanAsWritten | src/graphics/meshpool.rs:425-466 | the source's whole scan reports only free, increasing entries |
| MeshPool.ScanOuterSingle | src/graphics/meshpool.rs:436-441 | for `count == 1` the source's scan is first fit from the current position |
| MeshPool.ScanAsWrittenSingleIsFirstFit | src/graphics/meshpool.rs:436-441 | for `count == 1` the source's scan agrees with the corrected first fit |
| MeshPool.ScanAsWrittenSkipsEntries | src/graphics/meshpool.rs:443-461 | with four free entries and `count == 2`, the source reports slot 2 and marks entries 0 and 2, not a run |
| MeshPool.InstancesEnd | src/graphics/meshpool.rs:371 | the end of a slot's instance range is non-negative |
| MeshPool.MoreInstances | src/graphics/meshpool.rs:413 | only the chosen draw command's instance count grows, by `count` |
| MeshPool.TryCandidate | src/graphics/meshpool.rs:371-394 | a candidate either takes the run after the slot's instances and adds to its count, or changes nothing but growth |
| MeshPool.ExtendFrom | src/graphics/meshpool.rs:368-418 | extends the first slot holding the mesh whose following run is free; with no such slot, the pool is returned unchanged |
| MeshPool.TryExtendInstanceAsWritten | src/graphics/meshpool.rs:364-419 | the source probes the run from `start + 1` onward while reporting `start` |
| MeshPool.TryExtendInstanceAsWrittenOverlaps | src/graphics/meshpool.rs:372-379 | when the entry right after a slot's instances belongs to another mesh and the next `count` are free, the source still extends and hands back that owned entry as the first new instance |
| MeshPool.TryExtendInstance | src/graphics/meshpool.rs:364-419 | corrected: extends a slot holding the mesh by taking the run starting at its instance end, or leaves the pool as it was |
| MeshPool.UpdateMesh | src/graphics/meshpool.rs:538-561 | writing a mesh into a slot sets that slot's index count, its index offset `slot * meshIndexNbytes` and its base vertex `slot * (meshVertexNbytes / 32)`, and touches no other command |
| MeshPool.UpdateMeshDrawsItsSlot | src/graphics/meshpool.rs:538-558 | when the slot size is a whole number of vertices, the command's base vertex is where the slot's vertices were copied (byte `slot * meshVertexNbytes`), and two slots' commands draw disjoint vertex and index ranges |
| MeshPool.PopSlot | src/graphics/meshpool.rs:512-515 | takes the first free slot, or grows and takes the old capacity |
| MeshPool.AddToNewSlot | src/graphics/meshpool.rs:507-529 | a new slot gets a fresh instance run (from the corrected first-fit search), a draw command for the mesh, and a recorded owner unless the mesh is dynamic |
| MeshPool.AddMesh | src/graphics/meshpool.rs:503-536 | adding a mesh extends an existing instance of it when possible, otherwise opens a new slot; both steps use the corrected helpers; the returned instance is counted from the slot's first instance slot: the old instance count when extending, 0 on a new slot |
| MeshPool.AddMeshWritesTakenInstances | src/graphics/meshpool.rs:503-536 | the `count` instance slots `set_transform` addresses for the new mesh (returned offset plus 0 .. count-1) were free and are now taken; unless a dynamic mesh also extended a static twin, they are exactly the run the call took |
| MeshPool.AddMeshAsWritten | src/graphics/meshpool.rs:530-535 | as written, the extension path returns the absolute instance slot where the new instances begin |
| MeshPool.ExtensionAsWrittenWritesShifted | src/graphics/meshpool.rs:159-162 | as written, `set_transform` adds the slot's first instance slot to that absolute index again, so the first new instance is written outside the run taken whenever the slot begins at or past `count` |
| MeshPool.RemoveMesh | src/graphics/meshpool.rs:563-571 | removal panics on an out-of-range slot; otherwise it zeroes that slot's indices, frees the slot and forgets its owner |
| MeshPool.RemoveMeshPreservesValid | src/graphics/meshpool.rs:563-571 | removal keeps the pool consistent |
| MeshPool.New | src/graphics/meshpool.rs:43-83 | a new pool has all slots and instances free and no draw commands in use |
| GraphicsEngine.NewEngineValid | src/graphics/graphics_engine.rs:45-82 | a new engine is consistent, with the first draw id 1 |
| GraphicsEngine.FirstFitting | src/graphics/graphics_engine.rs:232-254 | finds the first pool whose slots fit the mesh, or none |
| GraphicsEngine.PoolSize | src/graphics/graphics_engine.rs:259-262 | the new pool's slot size is the least power-of-two multiple of the minimum that holds the mesh |
| GraphicsEngine.PoolCapacity | src/graphics/graphics_engine.rs:265 | the base capacity is the least number of slots reaching the target pool size |
| GraphicsEngine.NewPoolFor | src/graphics/graphics_engine.rs:259-267 | a new pool for a mesh is consistent and sized as above |
| GraphicsEngine.NewPoolFitsItsMesh | src/graphics/graphics_engine.rs:233-234 | the pool made for a mesh fits that mesh |
| GraphicsEngine.FillLocations | src/graphics/graphics_engine.rs:237-245 | every listed draw id gets the pool location with its own instance offset; an id without a location panics; others are untouched |
| GraphicsEngine.PlaceInPool | src/graphics/graphics_engine.rs:236-268 | placing a mesh in a pool is the pool's own `add_mesh` (the corrected `MeshPool.AddMesh`) and keeps it consistent |
| GraphicsEngine.PlaceInVec | src/graphics/graphics_engine.rs:227-280 | the mesh goes into the first fitting pool, or a new pool appended at the end; other pools are unchanged |
| GraphicsEngine.PlaceInPools | src/graphics/graphics_engine.rs:219-280 | only the mesh's shader/texture pool list changes, and the location names that key |
| GraphicsEngine.AddMeshToPool | src/graphics/graphics_engine.rs:216-282 | a missing mesh or location panics; otherwise the mesh goes to the first fitting pool of its (shader, texture) vector or to a new pool appended to it, every other pool vector is unchanged, the listed draw ids are relocated and nothing else but pools changes |
| GraphicsEngine.CacheObject | src/graphics/graphics_engine.rs:197-204 | the draw id is appended to the mesh's cache entry; the offset returned is the count before |
| GraphicsEngine.AddRenderableAsWritten | src/graphics/graphics_engine.rs:178-207 | the source never completes `add_renderable` for a dynamic mesh (the re-lock of `LOADED_MESHES`, then the missing location); a static mesh is cached |
| GraphicsEngine.AddRenderable | src/graphics/graphics_engine.rs:178-207 | corrected: a fresh draw id is allocated and recorded; dynamic meshes are placed at once, static ones are cached |
| GraphicsEngine.CachedStaysValid | src/graphics/graphics_engine.rs:194-204 | caching a static renderable keeps the engine consistent |
| GraphicsEngine.DynamicKeepsCache | src/graphics/graphics_engine.rs:206 | placing a dynamic renderable keeps the engine consistent |
| GraphicsEngine.DrainOne | src/graphics/graphics_engine.rs:211-213 | one drained batch panics exactly when its mesh is not loaded; otherwise the pools stay consistent, the batch is placed and the earlier batches and untouched ids keep their locations |
| GraphicsEngine.DrainFinished | src/graphics/graphics_engine.rs:209-214 | after draining, every cached batch sits in its pool and uncached ids keep their locations |
| GraphicsEngine.AddCachedRenderables | src/graphics/graphics_engine.rs:209-214 | flushing the cache places every cached batch, empties the cache, and panics only on an unknown mesh |
| MeshLoading.Interleaved | src/graphics/mesh.rs:103-118 | the interleaved buffer has 8 floats per vertex: 3 position, 3 normal, 2 texture coordinates |
| MeshLoading.Interleave | src/graphics/mesh.rs:103-118 | the loop succeeds exactly when every read is in bounds, and then builds that buffer |
| MeshLoading.InterleaveDefinedIff | src/graphics/mesh.rs:109-114 | the reads stay in bounds exactly when positions come in triples and there are enough normals and texture coordinates |
| MeshLoading.Deinterleave | src/graphics/mesh.rs:102 | splitting a vertex buffer gives back the three attribute arrays |
| MeshLoading.DeinterleaveInterleaved | src/graphics/mesh.rs:102-118 | splitting the interleaved buffer gives back the positions and the used prefixes of normals and texture coordinates |
| MeshLoading.Rescale | src/graphics/mesh.rs:58 | a coordinate within its range maps into `[-0.5, 0.5]`; an empty range gives a non-finite value |
| MeshLoading.Lo | src/graphics/mesh.rs:32-51 | the running minimum starts at 0 and is at most every coordinate of its axis |
| MeshLoading.Hi | src/graphics/mesh.rs:32-51 | the running maximum starts at 0 and is at least every coordinate of its axis |
| MeshLoading.ScaleAsWritten | src/graphics/mesh.rs:55-69 | the source rescales y and z with the x range; non-position floats are untouched |
| MeshLoading.ScaleAsWrittenLeavesBox | src/graphics/mesh.rs:61 | one vertex at (1, 4, 0) has its y rescaled to 3.5, outside `[-0.5, 0.5]` |
| MeshLoading.Scale | src/graphics/mesh.rs:31-75 | corrected: every position coordinate lands in `[-0.5, 0.5]` for its axis range; non-position floats are untouched |
| MeshLoading.ScaleAgreesOnX | src/graphics/mesh.rs:57-58 | the two scalings agree on x, and everywhere when the three ranges coincide |
| MeshLoading.OriginalSize | src/graphics/mesh.rs:73 | the reported size per axis is the non-negative extent of that axis |
| MeshLoading.NonZeroCoordinateHasSize | src/graphics/mesh.rs:73 | a non-zero coordinate gives its axis a positive size and a finite rescaled value |

## Left out

- Rendering: OpenGL calls, buffer mapping and `memcpy`, drawing, shaders, textures, framebuffers, and the setters that write instance data (`set_transform`, `set_rgba`, `set_texture_z`). These are side effects on the GPU; the model keeps only the bookkeeping they index.
- Windowing, input and timing: these are I/O.
- The engine's `update()` loop (`src/graphics/graphics_engine.rs:134-150`): it only drives GL calls.
- Transform float maths (rotation matrices, `normalize`, `magnitude`): these become function parameters (`SatFrame`, `CubeFrame`, `normalize`).
- The velocity response of a hit (`src/phys/physics_update.rs:71-81`): it is float code whose result only feeds `impulse_at_pos`, so it is the `respond` parameter; the elasticity product it uses (line 70) is modelled as `PhysicsUpdate.Restitution` and handed to it.
- The rotation of the transform by the angular velocity (`src/phys/physics_update.rs:102-105`): it is float code.
- The commented-out GJK/EPA driver (`src/gameobjects/collisions.rs:407-562`): it is not compiled.
- The octree split of the spatial structure: the source never splits, it only prints a warning when the test passes, and `SplitNeverRequested` shows the test never passes. The message itself is output.
- `AABB::center` / `update_center` (`src/phys/spatial_acceleration_structure.rs:211-213`): this computes `max.x - min.x/2`, but nothing calls it.
- `count == 0` in `find_instance_slot`: no caller passes it.
- The source's retry recursion after growing in `find_instance_slot`: `ScanAsWritten` models a single pass.
- Integer width: `i64`, `i32` and `usize` overflow is not modelled (positions are micrometres in `i64`), except the saturating `as i64` of `PenetrationUnits`.
- `f32` rounding: reals stand for floats. The float `ceil` of the pool capacity is `CeilDiv`, and the float `sqrt` of the sphere tests is integer `ISqrt` where the source truncates it.
- NaN and infinity: only mesh scaling models them (a zero range gives `NonFinite`). The other places the source can produce them are kept out of the model, by a requires or inside a parameter: `normalize()` of a zero vector in `get_face_normals` (a parameter here), and the divisions by a zero mass or a zero inertia component in `src/gameobjects/rigidbody.rs` (see `Rigidbody.Impulse` and `Rigidbody.TorqueFromForceAtPos` below), and the division by `normal.dot(&normal)` in the velocity response of `src/phys/physics_update.rs:76` (inside the `respond` parameter).
- Rigidbody.Impulse: requires a non-zero mass instead of modelling a float division by zero.
- Rigidbody.TorqueFromForceAtPos: requires an inertia tensor with no zero component instead of modelling float division by zero.
- Rigidbody.LocalVelocityAtPointAsWritten: takes the magnitude `|p|` as a parameter `len` and does not require it to be `|p|` (the predicate `IsLength` states that relation where a lemma needs it), because square roots of reals are not computed.
- Rigidbody.VelocityAtPoint: adds the corrected rotational velocity `ω × p`, not the source's `(ω × p)·|p|`; see the Findings.
- The unused `torque_mag` computation in `torque_from_force_at_pos`: its value is never read.
- `LOADED_MESHES` and the mesh uuid counter: these become a `meshes` map parameter and a mesh id.
- `from_obj` file parsing: this is I/O; only its interleave loop is modelled.
- Hash-map iteration orders: they are parameters (`order`, `orderOf`, `drained`), constrained only to list each key once.
- Collisions.CollidesWith: sphere/sphere pairs go to the corrected `SphereSphere`, not to `SphereSphereAsWritten`, which is what `collides_with` runs (`src/gameobjects/collisions.rs:636-650`). The two disagree on the threshold and the contact point (see Findings). So `Collisions.DispatchBranches` and everything in `PhysicsUpdate` built on `CollidesWith` (`ProcessFrom`, `StepBody`, `Tick`) describe the intended tick for spheres, not the as-written one.
- MeshPool.AddMesh: it uses the corrected `TryExtendInstance` (the probe starts at `start`) and, through `MeshPool.AddToNewSlot`, the corrected first-fit `FindInstanceSlot`, not the as-written `TryExtendInstanceAsWritten` and `ScanAsWritten` that `add_mesh` runs (`src/graphics/meshpool.rs:503-536`). So instance placement in `GraphicsEngine.PlaceInPool`, `PlaceInVec`, `PlaceInPools` and `AddMeshToPool` is the intended one. With four free instance entries and `count == 2`, the source marks entries 0 and 2 and reports 2, while the model takes 0 and 1. It also returns the extension's first instance counted from the slot's first instance slot, not the absolute `start` the source returns (see Findings), and the engine's locations use that offset.
- MeshPool.AddToNewSlot: takes its instance run from the corrected `FindInstanceSlot`; see `MeshPool.AddMesh`.
- GraphicsEngine.PlaceInPools: states the pool-list and location facts; the link to `add_mesh` is stated on `PlaceInPool`.
- The collision normal of `collides_with`: it is passed on without normalisation, as the source does.

## Findings

| source | as written | input that shows it | evidently intended | confidence | as-written member | corrected member |
|---|---|---|---|---|---|---|
| src/gameobjects/collisions.rs:637 | the threshold truncates `(r1 + r2)²` in metres to an integer before scaling to micrometres | two spheres of scale 0.9 whose centres are 0.5 m apart | compare against `((r1 + r2) · 10^6)²` | high, not executed | Collisions.SphereSphereAsWrittenMissesOverlap | Collisions.CorrectedHits |
| src/gameobjects/collisions.rs:643 | the contact is `self.pos - offset`, placing it on the far side of `self` | unit spheres at x = 0 and x = 1 m give contact x = -0.5 m | a point between the centres (x = 0.5 m) | high, not executed | Collisions.SphereSphereAsWrittenContactOnFarSide | Collisions.ContactBetweenCentres |
| src/gameobjects/collisions.rs:345 | `min_triangle = 1/3` is integer division, so the closest face is always 0 | planes at distances 2 and 1 report face 0 | the index of the closest face | high, not executed | Gjk.GetFaceNormalsAsWrittenIgnoresCloser | Gjk.GetFaceNormals |
| src/gameobjects/collisions.rs:355-362 | searches the edge list for the index pair `(b, a)` but stores vertex pairs `(faces[a], faces[b])` | edges `[(0,1)]`, faces `[0,1,2,0,3,1]`, a = 5, b = 3 | search for `(faces[b], faces[a])` | high, not executed | Gjk.AddIfUniqueEdgeAsWrittenKeepsShared | Gjk.AddIfUniqueEdgeKeepsNoReversedPair |
| src/graphics/meshpool.rs:443-461 | with `count > 1` the inner loop advances `slot` and the probe index together, skipping entries | four free instances, `count = 2`: reports 2 and marks entries 0 and 2 | mark and report a contiguous run | high, not executed | MeshPool.ScanAsWrittenSkipsEntries | MeshPool.FindInstanceSlot |
| src/graphics/meshpool.rs:371-379 | probes instances from `start + 1` onward but records the extension at `start` | a static mesh whose instances end at `start`, entry `start` owned by another mesh, the `count` entries after it free | probe and take the run beginning at `start` | medium, not executed | MeshPool.TryExtendInstanceAsWrittenOverlaps | MeshPool.TryExtendInstance |
| src/graphics/meshpool.rs:416 | the extension path of `try_extend_instance` returns the absolute instance slot `start`, `add_mesh` passes it on, the engine adds it to the location's offset (`graphics_engine.rs:243`), and `set_transform` adds the slot's first instance slot to it again (line 161) | a static mesh on a slot whose one instance sits at instance slot 4, extended by one more: `start` is 5 and its transform is written to slot 9 | return the offset from the slot's first instance slot (the old instance count), as the new-slot path's 0 already is | medium, not executed | MeshPool.ExtensionAsWrittenWritesShifted | MeshPool.AddMeshWritesTakenInstances |
| src/graphics/graphics_engine.rs:194-196 | for a dynamic mesh, `add_mesh_to_pool` locks `LOADED_MESHES` again (line 217) while the guard from line 192 is still alive, which deadlocks or panics; past that, it unwraps the renderable's location before it is inserted (line 206, read at 238). The model keeps `LOADED_MESHES` as a plain map, so it shows only the second failure | adding any renderable whose mesh is dynamic | release the lock, insert the location first, then place the mesh | high, not executed | GraphicsEngine.AddRenderableAsWritten | GraphicsEngine.AddRenderable |
| src/graphics/mesh.rs:61-64 | y and z are rescaled with the x range `minx`/`maxx` | one vertex at (1, 4, 0) gets y = 3.5 | each axis rescaled with its own range | high, not executed | MeshLoading.ScaleAsWrittenLeavesBox | MeshLoading.Scale |
| src/gameobjects/rigidbody.rs:118-122 | the rotational velocity `ω × p` is multiplied by the magnitude of `p` again | spin 1 rad/s about z, point (2, 0, 0) m: 4 m/s instead of 2 m/s | `ω × p`, which already grows linearly with the distance | medium, not executed | Rigidbody.LocalVelocityAsWrittenDoubles | Rigidbody.LocalVelocityAtPoint |

=== FILE: base.dfy ===
/** Rust value semantics that every other module relies on: optional values,
    the panic outcome, integer division that truncates toward zero, and the
    `as i64` cast of a float, which also truncates toward zero. */
module Base {

  datatype Option<T> = None | Some(value: T)

  /** Either a returned value or a process abort (`panic!`, a failed `assert!`,
      an out-of-range index or an `unwrap` of nothing). */
  datatype Result<T> = Ok(value: T) | Panic(reason: string)

  /** Micrometres per metre: positions are stored as integer micrometres. */
  const UNITS_PER_METER: int := 1000000

  /** `f32::MAX`, the start value of the running minima in the narrow phase. */
  const F32_MAX: real := 340282346638528859811704183484516925440.0

  /** `i64::MAX`, the value a saturating float-to-integer cast gives for `+inf`. */
  const I64_MAX: int := 0x7fff_ffff_ffff_ffff

  function Abs(x: int): nat
  {
    if x < 0 then -x else x
  }

  function RealAbs(x: real): real
  {
    if x < 0.0 then -x else x
  }

  function Min(a: int, b: int): int
  {
    if a <= b then a else b
  }

  function Max(a: int, b: int): int
  {
    if a >= b then a else b
  }

  /** `f32::min`: the smaller operand (NaN operands are not modelled). */
  function RealMin(a: real, b: real): real
  {
    if a <= b then a else b
  }

  /** `f32::max`: the larger operand (NaN operands are not modelled). */
  function RealMax(a: real, b: real): real
  {
    if a >= b then a else b
  }

  /** Rust's signed `/`: the quotient is rounded toward zero, so the remainder
      takes the sign of the dividend. Dafny's own `/` is Euclidean instead. */
  function RustDiv(a: int, b: int): (q: int)
    requires b != 0
    ensures Abs(a - q * b) < Abs(b)
    ensures a - q * b == 0 || (a - q * b < 0 <==> a < 0)
  {
    var m := Abs(a) / Abs(b);
    var q := if (a < 0) != (b < 0) then -m else m;
    RustDivRemainder(a, b, m, q);
    q
  }

  /** The remainder of the truncating quotient is the Euclidean remainder of
      |a| by |b|, carrying the sign of a. */
  lemma RustDivRemainder(a: int, b: int, m: int, q: int)
    requires b != 0 && m == Abs(a) / Abs(b)
    requires q == if (a < 0) != (b < 0) then -m else m
    ensures a - q * b == (if a < 0 then -(Abs(a) % Abs(b)) else Abs(a) % Abs(b))
  {
    var A: int, B: int := Abs(a), Abs(b);
    assert A == m * B + A % B;
    if a >= 0 && b > 0 {
      assert q * b == m * B;
    } else if a >= 0 {
      assert q * b == (-m) * (-B) == m * B;
    } else if b > 0 {
      assert q * b == (-m) * B == -(m * B);
    } else {
      assert q * b == m * (-B) == -(m * B);
    }
  }

  /** A non-zero multiple of b is at least |b| in magnitude. */
  lemma MultipleAtLeast(k: int, b: int)
    requires k != 0 && b != 0
    ensures Abs(k * b) >= Abs(b)
  {
    if k > 0 {
      if b > 0 { assert k * b >= b; } else { assert k * b <= b; }
    } else {
      if b > 0 { assert k * b <= -b; } else { assert k * b >= -b; }
    }
  }

  /** The two conditions in RustDiv's contract pin the quotient down: any other
      integer with the same remainder properties is the same quotient. */
  lemma RustDivUnique(a: int, b: int, q: int)
    requires b != 0
    requires Abs(a - q * b) < Abs(b)
    requires a - q * b == 0 || (a - q * b < 0 <==> a < 0)
    ensures q == RustDiv(a, b)
  {
    var q0 := RustDiv(a, b);
    var r0 := a - q0 * b;
    var r := a - q * b;
    assert r - r0 == (q0 - q) * b;
    if q != q0 {
      MultipleAtLeast(q0 - q, b);
      // r and r0 are both non-negative (a >= 0) or both non-positive (a < 0),
      // and both are below |b| in magnitude, so they differ by less than |b|.
      assert false;
    }
  }

  /** Truncation is odd-symmetric, which is exactly where it parts from the
      Euclidean division Dafny uses: (-7) / 2 is -3 in Rust and -4 in Dafny. */
  lemma RustDivOdd(a: int, b: int)
    requires b != 0
    ensures RustDiv(-a, b) == -RustDiv(a, b)
    ensures RustDiv(a, -b) == -RustDiv(a, b)
  {
    if a == 0 {
      RustDivUnique(0, b, 0);
      RustDivUnique(0, -b, 0);
    } else {
      var q := RustDiv(a, b);
      var r := a - q * b;
      assert -a - (-q) * b == -r;
      assert a - (-q) * (-b) == r;
      RustDivUnique(-a, b, -q);
      RustDivUnique(a, -b, -q);
    }
  }

  /** On a non-negative dividend and positive divisor both divisions agree. */
  lemma RustDivNonNegative(a: int, b: int)
    requires a >= 0 && b > 0
    ensures RustDiv(a, b) == a / b
  {
  }

  /** `x as i64` for a finite float inside the i64 range: drops the fraction,
      rounding toward zero. */
  function TruncReal(x: real): (n: int)
    ensures x >= 0.0 ==> n as real <= x < n as real + 1.0
    ensures x < 0.0 ==> n as real - 1.0 < x <= n as real
  {
    if x >= 0.0 then x.Floor else -((-x).Floor)
  }

  /** Truncation is monotone, so a larger float never casts to a smaller integer. */
  lemma TruncRealMonotone(x: real, y: real)
    requires x <= y
    ensures TruncReal(x) <= TruncReal(y)
  {
  }

  /** An integral float casts back to the same integer. */
  lemma TruncRealOfInt(n: int)
    ensures TruncReal(n as real) == n
  {
  }

  /** Ceiling of a positive quotient, `f32::ceil(a as f32 / b as f32)` for
      the exactly representable operands the sources pass. */
  function CeilDiv(a: nat, b: nat): (c: nat)
    requires b > 0
    ensures c * b >= a
    ensures c == 0 || (c - 1) * b < a
  {
    (a + b - 1) / b
  }

  /** Integer square root, `(n as f64).sqrt() as i64` for a non-negative `n`
      that f64 represents exactly. */
  function ISqrt(n: nat): (r: nat)
    ensures r * r <= n < (r + 1) * (r + 1)
    decreases n
  {
    if n < 4 then (if n == 0 then 0 else 1)
    else
      var h := ISqrt(n / 4);
      var s := 2 * h;
      ISqrtStep(n, h);
      if (s + 1) * (s + 1) <= n then s + 1 else s
  }

  /** Doubling the root of n/4 lands within one of the root of n. */
  lemma ISqrtStep(n: nat, h: nat)
    requires h * h <= n / 4 < (h + 1) * (h + 1)
    ensures (2 * h) * (2 * h) <= n < (2 * h + 2) * (2 * h + 2)
  {
    var q := n / 4;
    assert n == 4 * q + n % 4;
    assert (2 * h) * (2 * h) == 4 * (h * h);
    assert (2 * h + 2) * (2 * h + 2) == 4 * ((h + 1) * (h + 1));
    assert q + 1 <= (h + 1) * (h + 1);
  }

  /** `order` lists the keys of `m`, each once: one of the orders in which
      iterating or draining a `HashMap` may visit them. */
  predicate IsIterationOrder<K, V>(order: seq<K>, m: map<K, V>)
  {
    (forall j :: 0 <= j < |order| ==> order[j] in m)
    && (forall key :: key in m ==> key in order)
    && (forall i, j :: 0 <= i < j < |order| ==> order[i] != order[j])
  }
}

=== FILE: collisions.dfy ===
/** Narrow-phase decision logic: the separating-plane vertex test, how the
    two SAT directions are merged, the sphere-box and sphere-sphere branches
    and the shape-pair dispatch. Matrix products (inverses, rotations,
    model-to-world maps) are float geometry and enter as function-typed
    fields of the frame records; only the decisions made on their results
    are modelled. */
module Collisions {
  import opened Base
  import opened Vectors

  datatype ColliderType = Sphere | Convex | Box

  /** A contact: world position in micrometres and penetration in micrometres. */
  datatype ContactPoint = ContactPoint(pos: IVec3, penetration: int)

  datatype CollisionInfo = CollisionInfo(normal: Vec3, points: seq<ContactPoint>)

  datatype Plane = Plane(normal: Vec3, pos: Vec3)

  /** `Plane::signed_distance`. */
  function SignedDistance(p: Plane, point: Vec3): real
  {
    Dot(p.normal, Sub(point, p.pos))
  }

  /** The plane's own point is on the plane, and moving a point by `s` along
      the normal changes its signed distance by `s * |normal|^2`. */
  lemma SignedDistanceAlongNormal(p: Plane, point: Vec3, s: real)
    ensures SignedDistance(p, p.pos) == 0.0
    ensures SignedDistance(p, Add(point, Scale(p.normal, s))) ==
            SignedDistance(p, point) + s * Dot(p.normal, p.normal)
  {
  }

  // ---------------------------------------------------------------------
  // The separating-plane loop
  // ---------------------------------------------------------------------

  /** The vertex is on or behind every plane. */
  predicate Inside(planes: seq<Plane>, v: Vec3)
  {
    forall q :: 0 <= q < |planes| ==> SignedDistance(planes[q], v) <= 0.0
  }

  /** The running choice for one vertex: least |distance| and its plane normal. */
  datatype Least = Least(penetration: real, normal: Vec3)

  /** `l` is the choice made at plane q: its distance is strictly below
      every earlier plane's from position k on. */
  predicate FirstLeastAt(planes: seq<Plane>, v: Vec3, k: nat, q: nat, l: Least)
    requires q < |planes|
  {
    l == Least(RealAbs(SignedDistance(planes[q], v)), planes[q].normal) &&
    forall q' :: k <= q' < q ==> RealAbs(SignedDistance(planes[q'], v)) > l.penetration
  }

  /** The inner loop of `sat_plane_loop` from plane k on: gives up on the
      vertex at the first plane it lies in front of, otherwise keeps the
      first plane with strictly the smallest |distance| below `acc`. */
  function ScanPlanes(planes: seq<Plane>, v: Vec3, k: nat, acc: Least): (r: Option<Least>)
    requires k <= |planes|
    ensures r.Some? <==> forall q :: k <= q < |planes| ==> SignedDistance(planes[q], v) <= 0.0
    ensures r.Some? ==> r.value.penetration <= acc.penetration
    ensures r.Some? ==> forall q :: k <= q < |planes| ==> r.value.penetration <= RealAbs(SignedDistance(planes[q], v))
    ensures r.Some? ==>
      (r.value == acc ||
       (r.value.penetration < acc.penetration &&
        exists q :: k <= q < |planes| && FirstLeastAt(planes, v, k, q, r.value)))
    ensures r.Some? && r.value == acc ==>
      forall q :: k <= q < |planes| ==> RealAbs(SignedDistance(planes[q], v)) >= acc.penetration
    decreases |planes| - k
  {
    if k == |planes| then Some(acc)
    else
      var d := SignedDistance(planes[k], v);
      if d <= 0.0 then
        var next := if RealAbs(d) < acc.penetration then Least(RealAbs(d), planes[k].normal) else acc;
        var r := ScanPlanes(planes, v, k + 1, next);
        if r.Some? && r.value != acc && r.value != next then
          var q :| k + 1 <= q < |planes| && FirstLeastAt(planes, v, k + 1, q, r.value);
          assert FirstLeastAt(planes, v, k, q, r.value);
          r
        else if r.Some? && r.value == next && next != acc then
          assert FirstLeastAt(planes, v, k, k, r.value);
          r
        else r
      else None
  }

  /** The choice for one vertex, starting from `f32::MAX` and a zero normal. */
  function VertexContact(planes: seq<Plane>, v: Vec3): (r: Option<Least>)
    ensures r.Some? <==> Inside(planes, v)
  {
    ScanPlanes(planes, v, 0, Least(F32_MAX, ZERO))
  }

  /** A vertex gets a contact iff it is behind every plane; its penetration
      is non-negative and the least |distance|; when some |distance| is below
      `f32::MAX`, the normal is that of the first plane reaching the least. */
  lemma VertexChoice(planes: seq<Plane>, v: Vec3)
    ensures VertexContact(planes, v).Some? <==> Inside(planes, v)
    ensures VertexContact(planes, v).Some? ==>
      var l := VertexContact(planes, v).value;
      0.0 <= l.penetration <= F32_MAX &&
      (forall q :: 0 <= q < |planes| ==> l.penetration <= RealAbs(SignedDistance(planes[q], v))) &&
      ((exists q :: 0 <= q < |planes| && RealAbs(SignedDistance(planes[q], v)) < F32_MAX) ==>
         exists q :: 0 <= q < |planes| && FirstLeastAt(planes, v, 0, q, l))
  {
    var r := VertexContact(planes, v);
    if r.Some? && r.value != Least(F32_MAX, ZERO) {
      var q :| 0 <= q < |planes| && FirstLeastAt(planes, v, 0, q, r.value);
      assert r.value.penetration == RealAbs(SignedDistance(planes[q], v));
    }
  }

  /** `(least * 10^6) as i64`: a float-to-integer cast, which saturates at
      `i64::MAX` (reached by the untouched `f32::MAX` when there are no planes). */
  function PenetrationUnits(least: real): (n: int)
    requires least >= 0.0
    ensures 0 <= n <= I64_MAX
    ensures least * UNITS_PER_METER as real < I64_MAX as real ==> n == TruncReal(least * UNITS_PER_METER as real)
  {
    var scaled := least * UNITS_PER_METER as real;
    if scaled >= I64_MAX as real then I64_MAX else TruncReal(scaled)
  }

  /** The contact recorded for an inside vertex: its world position in
      micrometres plus the object's position, and its penetration. */
  function ContactFor(planes: seq<Plane>, v: Vec3, toWorld: Vec3 -> Vec3, objPos: IVec3): (c: ContactPoint)
    requires Inside(planes, v)
    ensures 0 <= c.penetration <= I64_MAX
  {
    VertexChoice(planes, v);
    var l := VertexContact(planes, v).value;
    ContactPoint(IAdd(FromMeters(toWorld(v)), objPos), PenetrationUnits(l.penetration))
  }

  /** The contacts `sat_plane_loop` pushes: one per vertex behind every
      plane, in vertex order. */
  function SatContacts(verts: seq<Vec3>, planes: seq<Plane>, toWorld: Vec3 -> Vec3, objPos: IVec3): (cs: seq<ContactPoint>)
    ensures |cs| <= |verts|
    ensures cs == [] <==> forall i :: 0 <= i < |verts| ==> !Inside(planes, verts[i])
    ensures forall k :: 0 <= k < |cs| ==>
      exists i :: 0 <= i < |verts| && Inside(planes, verts[i]) && cs[k] == ContactFor(planes, verts[i], toWorld, objPos)
    decreases |verts|
  {
    if |verts| == 0 then []
    else
      var init := verts[..|verts| - 1];
      var v := verts[|verts| - 1];
      var prev := SatContacts(init, planes, toWorld, objPos);
      assert forall i :: 0 <= i < |init| ==> init[i] == verts[i];
      if Inside(planes, v) then prev + [ContactFor(planes, v, toWorld, objPos)] else prev
  }

  /** The indices of the vertices behind every plane, in increasing order. */
  function InsideIndices(planes: seq<Plane>, verts: seq<Vec3>): (ix: seq<nat>)
    ensures forall k :: 0 <= k < |ix| ==> ix[k] < |verts| && Inside(planes, verts[ix[k]])
    ensures forall k, l :: 0 <= k < l < |ix| ==> ix[k] < ix[l]
    ensures forall i :: 0 <= i < |verts| && Inside(planes, verts[i]) ==> i in ix
    decreases |verts|
  {
    if |verts| == 0 then []
    else
      var init := verts[..|verts| - 1];
      assert forall i :: 0 <= i < |init| ==> init[i] == verts[i];
      var prev := InsideIndices(planes, init);
      if Inside(planes, verts[|verts| - 1]) then prev + [|verts| - 1] else prev
  }

  /** `cs` holds, position by position, the contacts of the vertices at `ix`. */
  predicate ContactsOf(cs: seq<ContactPoint>, ix: seq<nat>, verts: seq<Vec3>, planes: seq<Plane>,
                       toWorld: Vec3 -> Vec3, objPos: IVec3)
  {
    |cs| == |ix|
    && forall k :: 0 <= k < |cs| ==>
         ix[k] < |verts| && Inside(planes, verts[ix[k]]) && cs[k] == ContactFor(planes, verts[ix[k]], toWorld, objPos)
  }

  /** The k-th contact of `sat_plane_loop` belongs to the k-th vertex
      behind every plane. */
  lemma {:induction false} SatContactsPositional(verts: seq<Vec3>, planes: seq<Plane>, toWorld: Vec3 -> Vec3, objPos: IVec3)
    ensures ContactsOf(SatContacts(verts, planes, toWorld, objPos), InsideIndices(planes, verts), verts, planes, toWorld, objPos)
    decreases |verts|
  {
    if |verts| > 0 {
      var init := verts[..|verts| - 1];
      var v := verts[|verts| - 1];
      assert forall i :: 0 <= i < |init| ==> init[i] == verts[i];
      SatContactsPositional(init, planes, toWorld, objPos);
      var prevCs := SatContacts(init, planes, toWorld, objPos);
      var prevIx := InsideIndices(planes, init);
      assert ContactsOf(prevCs, prevIx, verts, planes, toWorld, objPos) by {
        forall k | 0 <= k < |prevCs|
          ensures prevIx[k] < |verts| && Inside(planes, verts[prevIx[k]])
          ensures prevCs[k] == ContactFor(planes, verts[prevIx[k]], toWorld, objPos)
        {
          assert init[prevIx[k]] == verts[prevIx[k]];
        }
      }
      if Inside(planes, v) {
        ContactsOfSnoc(prevCs, prevIx, verts, planes, toWorld, objPos);
      }
    }
  }

  /** Appending the last vertex's contact and index keeps the pairing. */
  lemma ContactsOfSnoc(cs: seq<ContactPoint>, ix: seq<nat>, verts: seq<Vec3>, planes: seq<Plane>,
                       toWorld: Vec3 -> Vec3, objPos: IVec3)
    requires |verts| > 0 && Inside(planes, verts[|verts| - 1])
    requires ContactsOf(cs, ix, verts, planes, toWorld, objPos)
    ensures ContactsOf(cs + [ContactFor(planes, verts[|verts| - 1], toWorld, objPos)], ix + [|verts| - 1],
                       verts, planes, toWorld, objPos)
  {
  }

  /** `sat_plane_loop` records one contact per vertex behind every plane,
      in vertex order, and nothing else: the k-th contact belongs to the
      k-th inside vertex, so every inside vertex has its contact. */
  lemma SatContactsOnePerInsideVertex(verts: seq<Vec3>, planes: seq<Plane>, toWorld: Vec3 -> Vec3, objPos: IVec3)
    ensures ContactsOf(SatContacts(verts, planes, toWorld, objPos), InsideIndices(planes, verts), verts, planes, toWorld, objPos)
    ensures forall i :: 0 <= i < |verts| && Inside(planes, verts[i]) ==>
      ContactFor(planes, verts[i], toWorld, objPos) in SatContacts(verts, planes, toWorld, objPos)
  {
    var cs := SatContacts(verts, planes, toWorld, objPos);
    var ix := InsideIndices(planes, verts);
    SatContactsPositional(verts, planes, toWorld, objPos);
    forall i | 0 <= i < |verts| && Inside(planes, verts[i])
      ensures ContactFor(planes, verts[i], toWorld, objPos) in cs
    {
      var k :| 0 <= k < |ix| && ix[k] == i;
      assert cs[k] == ContactFor(planes, verts[i], toWorld, objPos);
    }
  }

  /** Vertex i is behind every plane and no later vertex is. */
  predicate LastInside(planes: seq<Plane>, verts: seq<Vec3>, i: nat)
  {
    i < |verts| && Inside(planes, verts[i]) && forall j :: i < j < |verts| ==> !Inside(planes, verts[j])
  }

  /** The out-parameter normal after the loop: overwritten by every vertex
      behind all planes, so it ends as the last such vertex's choice. */
  function SatNormal(verts: seq<Vec3>, planes: seq<Plane>, normalIn: Vec3): (n: Vec3)
    ensures (forall i :: 0 <= i < |verts| ==> !Inside(planes, verts[i])) ==> n == normalIn
    ensures forall i: nat :: LastInside(planes, verts, i) ==> n == VertexContact(planes, verts[i]).value.normal
    decreases |verts|
  {
    if |verts| == 0 then normalIn
    else
      var init := verts[..|verts| - 1];
      var v := verts[|verts| - 1];
      var prev := SatNormal(init, planes, normalIn);
      LastInsideStep(planes, verts);
      if Inside(planes, v) then VertexContact(planes, v).value.normal else prev
  }

  /** How "last vertex behind every plane" changes when one vertex is added
      at the end. */
  lemma LastInsideStep(planes: seq<Plane>, verts: seq<Vec3>)
    requires |verts| > 0
    ensures var init := verts[..|verts| - 1];
      (forall i :: 0 <= i < |init| ==> init[i] == verts[i]) &&
      (Inside(planes, verts[|verts| - 1]) ==>
        forall i: nat :: LastInside(planes, verts, i) ==> i == |verts| - 1) &&
      (!Inside(planes, verts[|verts| - 1]) ==>
        forall i: nat :: LastInside(planes, verts, i) ==> LastInside(planes, init, i)) &&
      ((forall i :: 0 <= i < |verts| ==> !Inside(planes, verts[i])) ==>
        forall i :: 0 <= i < |init| ==> !Inside(planes, init[i]))
  {
  }

  datatype SatOut = SatOut(normal: Vec3, points: seq<ContactPoint>)

  /** `sat_plane_loop`: the contacts and the final out-parameter normal. */
  function SatPlaneLoop(verts: seq<Vec3>, planes: seq<Plane>, normalIn: Vec3,
                        toWorld: Vec3 -> Vec3, objPos: IVec3): (r: SatOut)
    ensures r.points == [] <==> forall i :: 0 <= i < |verts| ==> !Inside(planes, verts[i])
    ensures r.points == [] ==> r.normal == normalIn
    ensures forall k :: 0 <= k < |r.points| ==> 0 <= r.points[k].penetration <= I64_MAX
  {
    SatOut(SatNormal(verts, planes, normalIn), SatContacts(verts, planes, toWorld, objPos))
  }

  // ---------------------------------------------------------------------
  // collision_SAT
  // ---------------------------------------------------------------------

  /** The corners of the unit cube in the order `verts1` lists them. */
  const UNIT_VERTS: seq<Vec3> := [
    Vec3(-0.5, -0.5, -0.5), Vec3(-0.5, 0.5, -0.5), Vec3(0.5, -0.5, -0.5), Vec3(0.5, 0.5, -0.5),
    Vec3(-0.5, -0.5, 0.5), Vec3(-0.5, 0.5, 0.5), Vec3(0.5, -0.5, 0.5), Vec3(0.5, 0.5, 0.5)]

  /** The six faces of the unit cube: +Y, -Y, +X, -X, +Z, -Z. */
  const UNIT_PLANES: seq<Plane> := [
    Plane(Vec3(0.0, 1.0, 0.0), Vec3(0.0, 0.5, 0.0)),
    Plane(Vec3(0.0, -1.0, 0.0), Vec3(0.0, -0.5, 0.0)),
    Plane(Vec3(1.0, 0.0, 0.0), Vec3(0.5, 0.0, 0.0)),
    Plane(Vec3(-1.0, 0.0, 0.0), Vec3(-0.5, 0.0, 0.0)),
    Plane(Vec3(0.0, 0.0, 1.0), Vec3(0.0, 0.0, 0.5)),
    Plane(Vec3(0.0, 0.0, -1.0), Vec3(0.0, 0.0, -0.5))]

  predicate InUnitCube(p: Vec3)
  {
    -0.5 <= p.x <= 0.5 && -0.5 <= p.y <= 0.5 && -0.5 <= p.z <= 0.5
  }

  /** Being behind all six unit-cube planes is being in the closed unit cube. */
  lemma InsideUnitPlanes(p: Vec3)
    ensures Inside(UNIT_PLANES, p) <==> InUnitCube(p)
  {
    assert SignedDistance(UNIT_PLANES[0], p) == p.y - 0.5;
    assert SignedDistance(UNIT_PLANES[1], p) == -0.5 - p.y;
    assert SignedDistance(UNIT_PLANES[2], p) == p.x - 0.5;
    assert SignedDistance(UNIT_PLANES[3], p) == -0.5 - p.x;
    assert SignedDistance(UNIT_PLANES[4], p) == p.z - 0.5;
    assert SignedDistance(UNIT_PLANES[5], p) == -0.5 - p.z;
  }

  /** The float geometry of a box pair, from obj1's model frame. `corner2`
      maps a point of obj2's unit cube into obj1's model frame; `normal2`
      turns a unit-cube plane normal into obj2's; `toWorld1`/`toWorld2` are
      the two model-to-world maps; `rot1`/`rot2` the two rotation matrices. */
  datatype SatFrame = SatFrame(
    corner2: Vec3 -> Vec3,
    normal2: Vec3 -> Vec3,
    toWorld1: Vec3 -> Vec3,
    toWorld2: Vec3 -> Vec3,
    rot1: Vec3 -> Vec3,
    rot2: Vec3 -> Vec3)

  /** `verts2`: obj2's corners, x outermost, then y, then z. */
  function Verts2(f: SatFrame): (vs: seq<Vec3>)
    ensures |vs| == 8
    ensures forall i :: 0 <= i < 8 ==>
      vs[i] == f.corner2(Vec3(if i / 4 == 0 then -0.5 else 0.5,
                              if (i / 2) % 2 == 0 then -0.5 else 0.5,
                              if i % 2 == 0 then -0.5 else 0.5))
  {
    seq(8, i requires 0 <= i < 8 =>
      f.corner2(Vec3(if i / 4 == 0 then -0.5 else 0.5,
                     if (i / 2) % 2 == 0 then -0.5 else 0.5,
                     if i % 2 == 0 then -0.5 else 0.5)))
  }

  /** `planes2`: the unit-cube planes carried into obj1's frame. */
  function Planes2(f: SatFrame): (ps: seq<Plane>)
    ensures |ps| == 6
    ensures forall i :: 0 <= i < 6 ==>
      ps[i] == Plane(f.normal2(UNIT_PLANES[i].normal), f.corner2(UNIT_PLANES[i].pos))
  {
    seq(6, i requires 0 <= i < 6 => Plane(f.normal2(UNIT_PLANES[i].normal), f.corner2(UNIT_PLANES[i].pos)))
  }

  /** `collision_SAT`: obj1's corners against obj2's planes, obj2's corners
      against the unit cube, then the merge. */
  function CollisionSat(obj1: Transform, obj2: Transform, f: SatFrame): (r: Option<CollisionInfo>)
    ensures r.None? <==>
      (forall i :: 0 <= i < 8 ==> !Inside(Planes2(f), UNIT_VERTS[i])) &&
      (forall i :: 0 <= i < 8 ==> !InUnitCube(Verts2(f)[i]))
    ensures r.Some? ==> 0 < |r.value.points| <= 16
  {
    var s1 := SatPlaneLoop(UNIT_VERTS, Planes2(f), ZERO, f.toWorld1, obj1.pos);
    var s2 := SatPlaneLoop(Verts2(f), UNIT_PLANES, ZERO, f.toWorld2, obj2.pos);
    assert forall i :: 0 <= i < 8 ==> (Inside(UNIT_PLANES, Verts2(f)[i]) <==> InUnitCube(Verts2(f)[i])) by {
      forall i | 0 <= i < 8 { InsideUnitPlanes(Verts2(f)[i]); }
    }
    SatMerge(s1, s2, f)
  }

  /** The merge at the end of `collision_SAT`. */
  function SatMerge(s1: SatOut, s2: SatOut, f: SatFrame): (r: Option<CollisionInfo>)
    ensures r.None? <==> s1.points == [] && s2.points == []
    ensures r.Some? ==> r.value.points == s1.points + s2.points
    ensures r.Some? && s1.points != [] ==> r.value.normal == f.rot1(s1.normal)
    ensures r.Some? && s1.points == [] ==> r.value.normal == f.rot2(Neg(s2.normal))
  {
    if |s1.points| + |s2.points| == 0 then None
    else
      var normal := if |s1.points| == 0 then f.rot2(Neg(s2.normal)) else f.rot1(s1.normal);
      Some(CollisionInfo(normal, s1.points + s2.points))
  }

  // ---------------------------------------------------------------------
  // Sphere-box
  // ---------------------------------------------------------------------

  /** `(-e).max(p).min(e)`. */
  function Clamp(p: real, e: real): (c: real)
    ensures e >= 0.0 ==> -e <= c <= e
    ensures e >= 0.0 ==> (c == p <==> -e <= p <= e)
  {
    RealMin(RealMax(-e, p), e)
  }

  /** The face normal of the closest point: the first saturated face in the
      order +Y, -Y, +X, -X, +Z, -Z, or zero when none is. */
  function FaceNormal(closest: Vec3, extents: Vec3): (n: Vec3)
    ensures closest.y == extents.y ==> n == Vec3(0.0, 1.0, 0.0)
    ensures closest.y != extents.y && closest.y == -extents.y ==> n == Vec3(0.0, -1.0, 0.0)
    ensures (closest.y != extents.y && closest.y != -extents.y && closest.x == extents.x) ==>
      n == Vec3(1.0, 0.0, 0.0)
    ensures (closest.y != extents.y && closest.y != -extents.y && closest.x != extents.x &&
      closest.x == -extents.x) ==> n == Vec3(-1.0, 0.0, 0.0)
    ensures (closest.y != extents.y && closest.y != -extents.y && closest.x != extents.x &&
      closest.x != -extents.x && closest.z == extents.z) ==> n == Vec3(0.0, 0.0, 1.0)
    ensures (closest.y != extents.y && closest.y != -extents.y && closest.x != extents.x &&
      closest.x != -extents.x && closest.z != extents.z && closest.z == -extents.z) ==> n == Vec3(0.0, 0.0, -1.0)
    ensures n.x != 0.0 ==> n.z == 0.0
    ensures n == ZERO <==>
      closest.y != extents.y && closest.y != -extents.y && closest.x != extents.x &&
      closest.x != -extents.x && closest.z != extents.z && closest.z != -extents.z
    ensures n.x != 0.0 ==> closest.y != extents.y && closest.y != -extents.y
    ensures n.z != 0.0 ==> closest.y != extents.y && closest.y != -extents.y &&
                           closest.x != extents.x && closest.x != -extents.x
    ensures (n.x == 0.0 && n.z == 0.0) || n.y == 0.0
  {
    if closest.y == extents.y then Vec3(0.0, 1.0, 0.0)
    else if closest.y == -extents.y then Vec3(0.0, -1.0, 0.0)
    else if closest.x == extents.x then Vec3(1.0, 0.0, 0.0)
    else if closest.x == -extents.x then Vec3(-1.0, 0.0, 0.0)
    else if closest.z == extents.z then Vec3(0.0, 0.0, 1.0)
    else if closest.z == -extents.z then Vec3(0.0, 0.0, -1.0)
    else ZERO
  }

  /** The six faces of the box, as outward unit normals, in the order the
      source tests them. */
  const FACES: seq<Vec3> := [Vec3(0.0, 1.0, 0.0), Vec3(0.0, -1.0, 0.0), Vec3(1.0, 0.0, 0.0),
                             Vec3(-1.0, 0.0, 0.0), Vec3(0.0, 0.0, 1.0), Vec3(0.0, 0.0, -1.0)]

  /** `p` lies in the plane of the face with outward unit normal `f` of a
      box with these half-extents. */
  predicate OnFace(p: Vec3, extents: Vec3, f: Vec3)
  {
    (f.x != 0.0 ==> p.x == f.x * extents.x) &&
    (f.y != 0.0 ==> p.y == f.y * extents.y) &&
    (f.z != 0.0 ==> p.z == f.z * extents.z)
  }

  /** The face normal is the first face, in test order, whose plane holds
      the closest point, and zero exactly when no face plane holds it. */
  lemma FaceNormalIsFirstFace(closest: Vec3, extents: Vec3)
    ensures var n := FaceNormal(closest, extents);
      (n == ZERO <==> forall k :: 0 <= k < |FACES| ==> !OnFace(closest, extents, FACES[k]))
    ensures var n := FaceNormal(closest, extents);
      n != ZERO ==> exists k :: (0 <= k < |FACES| && n == FACES[k] && OnFace(closest, extents, n) &&
        forall j :: 0 <= j < k ==> !OnFace(closest, extents, FACES[j]))
  {
    var n := FaceNormal(closest, extents);
    var k := FirstFaceIndex(closest, extents);
    if k < |FACES| {
      assert n == FACES[k];
    }
  }

  /** The index of the first face whose plane holds `p`, or 6 for none. */
  function FirstFaceIndex(p: Vec3, extents: Vec3): (k: nat)
    ensures k <= |FACES|
    ensures k < |FACES| ==> OnFace(p, extents, FACES[k])
    ensures forall j :: 0 <= j < k && j < |FACES| ==> !OnFace(p, extents, FACES[j])
  {
    if p.y == extents.y then 0
    else if p.y == -extents.y then 1
    else if p.x == extents.x then 2
    else if p.x == -extents.x then 3
    else if p.z == extents.z then 4
    else if p.z == -extents.z then 5
    else 6
  }

  /** The float geometry of a sphere-box pair: the sphere centre in the
      cube's unrotated frame (metres, relative to the cube) and the map back
      out of that frame (applied to points and, as written, to the normal). */
  datatype CubeFrame = CubeFrame(spherePos: Vec3, fromCube: Vec3 -> Vec3)

  /** `x as i64` compared against an integer: for a non-negative float,
      n <= trunc(x) holds exactly when n <= x. */
  lemma LeTrunc(n: int, x: real)
    requires x >= 0.0
    ensures n <= TruncReal(x) <==> n as real <= x
  {
  }

  /** `(r.powf(2.0) as f64 * 10^12) as i64`: the squared radius in
      micrometres, cast to an integer. */
  function RadiusThreshold(radius: real): int
  {
    TruncReal(radius * radius * (UNITS_PER_METER as real * UNITS_PER_METER as real))
  }

  /** The threshold admits a squared integer distance exactly when that
      distance is within the radius. */
  lemma RadiusTest(dsq: int, radius: real)
    ensures dsq <= RadiusThreshold(radius) <==> dsq as real <= Sq(radius * UNITS_PER_METER as real)
  {
    var u := UNITS_PER_METER as real;
    assert radius * radius * (u * u) == (radius * u) * (radius * u);
    LeTrunc(dsq, radius * radius * (u * u));
  }

  function Sq(x: real): real
  {
    x * x
  }

  /** The squared distance, in micrometres, between the sphere centre and
      the closest point of the cube, both cast to integers first. */
  function SquaredGap(cube: Transform, f: CubeFrame): (dsq: nat)
  {
    var v := ISub(FromMeters(f.spherePos), FromMeters(ClosestOnCube(cube, f)));
    IDotSelfNonNegative(v);
    IDot(v, v)
  }

  /** The sphere's radius (half its x scale) in micrometres. */
  function RadiusUnits(sphere: Transform): real
  {
    sphere.scl.x / 2.0 * UNITS_PER_METER as real
  }

  /** The sphere-box branch, with the roles already sorted out. */
  function SphereBox(sphere: Transform, cube: Transform, f: CubeFrame): (r: Option<CollisionInfo>)
    ensures r.Some? ==> |r.value.points| == 1
    ensures r.Some? <==>
      SquaredGap(cube, f) as real <= Sq(sphere.scl.x / 2.0 * UNITS_PER_METER as real)
    ensures r.Some? ==> r.value.normal == f.fromCube(FaceNormal(ClosestOnCube(cube, f), Scale(cube.scl, 0.5)))
    ensures r.Some? ==> r.value.points[0].pos == IAdd(FromMeters(f.fromCube(ClosestOnCube(cube, f))), cube.pos)
    ensures r.Some? ==> r.value.points[0].penetration == ISqrt(SquaredGap(cube, f)) - TruncReal(RadiusUnits(sphere))
  {
    var extents := Scale(cube.scl, 0.5);
    var closest := ClosestOnCube(cube, f);
    var radius := sphere.scl.x / 2.0;
    var minDsq := RadiusThreshold(radius);
    var dsq := SquaredGap(cube, f);
    RadiusTest(dsq, radius);
    if minDsq >= dsq then
      var hitpos := IAdd(FromMeters(f.fromCube(closest)), cube.pos);
      Some(CollisionInfo(f.fromCube(FaceNormal(closest, extents)),
                         [ContactPoint(hitpos, ISqrt(dsq) - TruncReal(RadiusUnits(sphere)))]))
    else None
  }

  /** The point of the cube (half-extents `scl / 2`) closest to the sphere centre. */
  function ClosestOnCube(cube: Transform, f: CubeFrame): Vec3
  {
    var e := Scale(cube.scl, 0.5);
    Vec3(Clamp(f.spherePos.x, e.x), Clamp(f.spherePos.y, e.y), Clamp(f.spherePos.z, e.z))
  }

  /** A sphere-box contact never reports positive penetration: the distance
      is at most the radius, so `sqrt(d^2) as i64 - (r * 10^6) as i64 <= 0`. */
  lemma SphereBoxPenetrationNonPositive(sphere: Transform, cube: Transform, f: CubeFrame)
    requires sphere.scl.x >= 0.0
    requires SphereBox(sphere, cube, f).Some?
    ensures SphereBox(sphere, cube, f).value.points[0].penetration <= 0
  {
    var ru := RadiusUnits(sphere);
    var dsq := SquaredGap(cube, f);
    assert dsq as real <= Sq(ru);
    RootBelow(dsq, ru);
  }

  /** If n <= x^2 for a non-negative x then the integer root of n is at
      most the truncation of x. */
  lemma RootBelow(n: nat, x: real)
    requires x >= 0.0 && n as real <= x * x
    ensures ISqrt(n) <= TruncReal(x)
  {
    SquareBelowTrunc(n, ISqrt(n), x);
  }

  lemma SquareBelowTrunc(n: nat, s: nat, x: real)
    requires x >= 0.0 && n as real <= x * x
    requires s * s <= n
    ensures s <= TruncReal(x)
  {
    var t := TruncReal(x);
    if s > t {
      assert x < (t + 1) as real <= s as real;
      SquareStrict(s as real, x);
      IntSquareReal(s);
      assert false;
    }
  }

  lemma IntSquareReal(s: int)
    ensures (s * s) as real == s as real * s as real
  {
  }

  lemma SquareStrict(a: real, b: real)
    requires 0.0 <= b < a
    ensures b * b < a * a
  {
    assert a * a - b * b == (a - b) * (a + b);
    ProductPositive(a - b, a + b);
  }

  lemma ProductPositive(p: real, q: real)
    requires p > 0.0 && q > 0.0
    ensures p * q > 0.0
  {
  }

  // ---------------------------------------------------------------------
  // Sphere-sphere
  // ---------------------------------------------------------------------

  /** The squared distance between two centres, in micrometres squared. */
  function CentreGap(self: Transform, other: Transform): (dsq: nat)
  {
    var v := ISub(self.pos, other.pos);
    IDotSelfNonNegative(v);
    IDot(v, v)
  }

  /** The sphere-sphere branch as written: the squared radius sum is cast to
      an integer in metres BEFORE it is scaled to micrometres, the
      penetration subtracts the truncated radius sum likewise, and the
      contact point is `self.pos + v * r1` with `v = self.pos - other.pos`
      taken as metres and not normalised. */
  function SphereSphereAsWritten(self: Transform, other: Transform): (r: Option<CollisionInfo>)
    ensures r.Some? ==> |r.value.points| == 1 && r.value.normal == ToMeters(ISub(self.pos, other.pos))
    ensures r.Some? ==> r.value.points[0].pos == FarSideContact(self.pos, other.pos, self.scl.x / 2.0)
    ensures r.Some? <==>
      CentreGap(self, other) <= TruncReal(Sq(self.scl.x / 2.0 + other.scl.x / 2.0)) * (UNITS_PER_METER * UNITS_PER_METER)
  {
    var r1 := self.scl.x / 2.0;
    var rsum := r1 + other.scl.x / 2.0;
    var minDsq := TruncReal(Sq(rsum)) * (UNITS_PER_METER * UNITS_PER_METER);
    var v := ISub(self.pos, other.pos);
    var dsq := CentreGap(self, other);
    if minDsq >= dsq then
      var point := FarSideContact(self.pos, other.pos, r1);
      Some(CollisionInfo(ToMeters(v), [ContactPoint(point, ISqrt(dsq) - TruncReal(rsum) * UNITS_PER_METER)]))
    else None
  }

  /** Two spheres of diameter 0.9 m (radius 0.45 m each) with centres 0.5 m
      apart overlap by 0.4 m, but the as-written test sees a threshold of 0. */
  lemma SphereSphereAsWrittenMissesOverlap(a: Transform, b: Transform)
    requires a == Transform(IVec3(0, 0, 0), Vec3(0.9, 0.9, 0.9))
    requires b == Transform(IVec3(500000, 0, 0), Vec3(0.9, 0.9, 0.9))
    ensures SphereSphereAsWritten(a, b).None? && SphereSphere(a, b).Some?
  {
    AsWrittenMisses(a, b);
    assert CentreGap(a, b) == 250000000000;
    CorrectedHits(a, b, 0.81);
  }

  lemma AsWrittenMisses(a: Transform, b: Transform)
    requires a == Transform(IVec3(0, 0, 0), Vec3(0.9, 0.9, 0.9))
    requires b == Transform(IVec3(500000, 0, 0), Vec3(0.9, 0.9, 0.9))
    ensures SphereSphereAsWritten(a, b).None?
  {
    assert CentreGap(a, b) == 250000000000;
    assert Sq(0.9 / 2.0 + 0.9 / 2.0) == 0.81;
    assert TruncReal(0.81) == 0;
  }

  /** Equal spheres of diameter `s` (with `s2 == s * s`) whose centres are
      at most `s` apart, wherever they are: the corrected test reports the
      overlap. */
  lemma CorrectedHits(a: Transform, b: Transform, s2: real)
    requires a.scl.x == b.scl.x >= 0.0 && s2 == a.scl.x * a.scl.x
    requires CentreGap(a, b) as real <= s2 * 1000000000000.0
    ensures SphereSphere(a, b).Some?
  {
    var u := UNITS_PER_METER as real;
    assert (a.scl.x / 2.0 + b.scl.x / 2.0) * u == a.scl.x * u;
    assert Sq(a.scl.x * u) == s2 * 1000000000000.0;
  }

  /** The as-written contact point: `self + v * r1` with `v = self - other`
      read as metres. */
  function FarSideContact(self: IVec3, other: IVec3, r1: real): IVec3
  {
    IAdd(FromMeters(Scale(ToMeters(ISub(self, other)), r1)), self)
  }

  /** Two unit spheres 1 m apart touch at the midpoint of their centres and
      both versions report the hit; the as-written contact point lies 0.5 m
      on the far side of the first sphere, the corrected one at the midpoint. */
  lemma SphereSphereAsWrittenContactOnFarSide(a: Transform, b: Transform)
    requires a == Transform(IVec3(0, 0, 0), Vec3(1.0, 1.0, 1.0))
    requires b == Transform(IVec3(1000000, 0, 0), Vec3(1.0, 1.0, 1.0))
    ensures SphereSphereAsWritten(a, b).Some? && SphereSphere(a, b).Some?
    ensures SphereSphereAsWritten(a, b).value.points[0].pos == IVec3(-500000, 0, 0)
    ensures SphereSphere(a, b).value.points[0].pos == IVec3(500000, 0, 0)
  {
    AsWrittenFarSide(a, b);
    CorrectedMidpoint(a, b);
  }

  lemma AsWrittenFarSide(a: Transform, b: Transform)
    requires a == Transform(IVec3(0, 0, 0), Vec3(1.0, 1.0, 1.0))
    requires b == Transform(IVec3(1000000, 0, 0), Vec3(1.0, 1.0, 1.0))
    ensures SphereSphereAsWritten(a, b).Some?
    ensures SphereSphereAsWritten(a, b).value.points[0].pos == IVec3(-500000, 0, 0)
  {
    AsWrittenTouches(a, b);
    FarSideExample(a.pos, b.pos, a.scl.x / 2.0);
  }

  lemma CorrectedMidpoint(a: Transform, b: Transform)
    requires a == Transform(IVec3(0, 0, 0), Vec3(1.0, 1.0, 1.0))
    requires b == Transform(IVec3(1000000, 0, 0), Vec3(1.0, 1.0, 1.0))
    ensures SphereSphere(a, b).Some?
    ensures SphereSphere(a, b).value.points[0].pos == IVec3(500000, 0, 0)
  {
    UnitSpheresHit(a, b);
    MidpointExample(a.pos, b.pos, a.scl.x / 2.0, b.scl.x / 2.0);
  }

  lemma UnitSpheresHit(a: Transform, b: Transform)
    requires a == Transform(IVec3(0, 0, 0), Vec3(1.0, 1.0, 1.0))
    requires b == Transform(IVec3(1000000, 0, 0), Vec3(1.0, 1.0, 1.0))
    ensures SphereSphere(a, b).Some?
  {
    assert CentreGap(a, b) == 1000000000000;
    CorrectedHits(a, b, 1.0);
  }

  lemma AsWrittenTouches(a: Transform, b: Transform)
    requires a == Transform(IVec3(0, 0, 0), Vec3(1.0, 1.0, 1.0))
    requires b == Transform(IVec3(1000000, 0, 0), Vec3(1.0, 1.0, 1.0))
    ensures SphereSphereAsWritten(a, b).Some?
  {
    assert CentreGap(a, b) == 1000000000000;
    assert Sq(1.0 / 2.0 + 1.0 / 2.0) == 1.0;
    assert TruncReal(1.0) == 1;
  }

  lemma FarSideExample(p: IVec3, q: IVec3, r1: real)
    requires p == IVec3(0, 0, 0) && q == IVec3(1000000, 0, 0) && r1 == 0.5
    ensures FarSideContact(p, q, r1) == IVec3(-500000, 0, 0)
  {
    var m := Scale(ToMeters(ISub(p, q)), r1);
    assert m.x * UNITS_PER_METER as real == (-500000) as real;
    assert m.y * UNITS_PER_METER as real == 0 as real;
    assert m.z * UNITS_PER_METER as real == 0 as real;
    TruncRealOfInt(-500000);
    TruncRealOfInt(0);
  }

  lemma MidpointExample(p: IVec3, q: IVec3, r1: real, r2: real)
    requires p == IVec3(0, 0, 0) && q == IVec3(1000000, 0, 0) && r1 == 0.5 && r2 == 0.5
    ensures ContactBetween(p, q, r1, r2) == IVec3(500000, 0, 0)
  {
    var w := ToMeters(ISub(q, p));
    OneMetreOnX(ISub(q, p));
    HalfMetreOnX(w, r1 / (r1 + r2));
  }

  lemma OneMetreOnX(d: IVec3)
    requires d == IVec3(1000000, 0, 0)
    ensures ToMeters(d) == Vec3(1.0, 0.0, 0.0)
  {
  }

  lemma HalfMetreOnX(w: Vec3, t: real)
    requires w == Vec3(1.0, 0.0, 0.0) && t == 0.5
    ensures FromMeters(Scale(w, t)) == IVec3(500000, 0, 0)
  {
    var m := Scale(w, t);
    assert m == Vec3(0.5, 0.0, 0.0);
    TruncRealOfInt(500000);
    TruncRealOfInt(0);
  }

  /** The point on the segment from `self` to `other`, `r1 / (r1 + r2)` of
      the way along: the touching point when the spheres just touch. */
  function ContactBetween(self: IVec3, other: IVec3, r1: real, r2: real): IVec3
  {
    if r1 + r2 == 0.0 then self
    else IAdd(self, FromMeters(Scale(ToMeters(ISub(other, self)), r1 / (r1 + r2))))
  }

  /** The sphere-sphere branch as evidently intended: the radius sum is
      scaled to micrometres before the cast, as the sphere-box branch does,
      and the contact lies between the centres. */
  function SphereSphere(self: Transform, other: Transform): (r: Option<CollisionInfo>)
    ensures r.Some? ==> |r.value.points| == 1 && r.value.normal == ToMeters(ISub(self.pos, other.pos))
    ensures r.Some? ==> r.value.points[0].pos == ContactBetween(self.pos, other.pos, self.scl.x / 2.0, other.scl.x / 2.0)
    ensures r.Some? <==> CentreGap(self, other) as real <= Sq((self.scl.x / 2.0 + other.scl.x / 2.0) * UNITS_PER_METER as real)
  {
    var r1 := self.scl.x / 2.0;
    var r2 := other.scl.x / 2.0;
    var minDsq := RadiusThreshold(r1 + r2);
    var v := ISub(self.pos, other.pos);
    var dsq := CentreGap(self, other);
    RadiusTest(dsq, r1 + r2);
    if minDsq >= dsq then
      var point := ContactBetween(self.pos, other.pos, r1, r2);
      Some(CollisionInfo(ToMeters(v), [ContactPoint(point, ISqrt(dsq) - TruncReal((r1 + r2) * UNITS_PER_METER as real))]))
    else None
  }

  /** `p` lies between `a` and `b` on every axis. */
  predicate Between(p: IVec3, a: IVec3, b: IVec3)
  {
    Min(a.x, b.x) <= p.x <= Max(a.x, b.x) &&
    Min(a.y, b.y) <= p.y <= Max(a.y, b.y) &&
    Min(a.z, b.z) <= p.z <= Max(a.z, b.z)
  }

  /** Truncating `t * d` micrometres for `0 <= t <= 1` stays within `[0, d]`
      (or `[d, 0]`); `x` is the fraction in metres. */
  lemma TruncFraction(d: int, t: real, x: real)
    requires 0.0 <= t <= 1.0
    requires x == d as real / UNITS_PER_METER as real * t
    ensures Min(0, d) <= TruncReal(x * UNITS_PER_METER as real) <= Max(0, d)
  {
    var u := UNITS_PER_METER as real;
    var dr := d as real;
    var y := dr / u;
    assert y * u == dr;
    Regroup(y, t, u, dr);
    FractionOf(dr, t, x * u);
    TruncBetween(d, x * u);
  }

  /** A float between 0 and `d` truncates to an integer between 0 and `d`. */
  lemma TruncBetween(d: int, x: real)
    requires d >= 0 ==> 0.0 <= x <= d as real
    requires d < 0 ==> d as real <= x <= 0.0
    ensures Min(0, d) <= TruncReal(x) <= Max(0, d)
  {
    TruncRealOfInt(d);
    TruncRealOfInt(0);
    if d >= 0 {
      TruncRealMonotone(0.0, x);
      TruncRealMonotone(x, d as real);
    } else {
      TruncRealMonotone(x, 0.0);
      TruncRealMonotone(d as real, x);
    }
  }

  /** Dividing by `u` and later multiplying by it again cancels. */
  lemma Regroup(y: real, t: real, u: real, d: real)
    requires y * u == d
    ensures y * t * u == d * t
  {
    calc {
      y * t * u;
      (y * u) * t;
      d * t;
    }
  }

  /** A fraction `p = a * t` of `a` lies between 0 and `a`. */
  lemma FractionOf(a: real, t: real, p: real)
    requires 0.0 <= t <= 1.0 && p == a * t
    ensures a >= 0.0 ==> 0.0 <= p <= a
    ensures a < 0.0 ==> a <= p <= 0.0
  {
    assert a - p == a * (1.0 - t);
  }

  /** One axis of the offset: `a + trunc(t * (b - a))` lies between `a` and `b`. */
  lemma AxisFraction(a: int, b: int, t: real, x: real, o: int)
    requires 0.0 <= t <= 1.0
    requires x == (b - a) as real / UNITS_PER_METER as real * t
    requires o == TruncReal(x * UNITS_PER_METER as real)
    ensures Min(a, b) <= a + o <= Max(a, b)
  {
    TruncFraction(b - a, t, x);
  }

  /** The offset `t` of the way from `a` to `b`, converted through metres. */
  function Offset(a: IVec3, b: IVec3, t: real): IVec3
  {
    FromMeters(Scale(ToMeters(ISub(b, a)), t))
  }

  /** The x axis of the offset stays between `a.x` and `b.x`. */
  lemma OffsetX(a: IVec3, b: IVec3, t: real)
    requires 0.0 <= t <= 1.0
    ensures Min(a.x, b.x) <= a.x + Offset(a, b, t).x <= Max(a.x, b.x)
  {
    var s := Scale(ToMeters(ISub(b, a)), t);
    AxisFraction(a.x, b.x, t, s.x, FromMeters(s).x);
  }

  /** The y axis of the offset stays between `a.y` and `b.y`. */
  lemma OffsetY(a: IVec3, b: IVec3, t: real)
    requires 0.0 <= t <= 1.0
    ensures Min(a.y, b.y) <= a.y + Offset(a, b, t).y <= Max(a.y, b.y)
  {
    var s := Scale(ToMeters(ISub(b, a)), t);
    AxisFraction(a.y, b.y, t, s.y, FromMeters(s).y);
  }

  /** The z axis of the offset stays between `a.z` and `b.z`. */
  lemma OffsetZ(a: IVec3, b: IVec3, t: real)
    requires 0.0 <= t <= 1.0
    ensures Min(a.z, b.z) <= a.z + Offset(a, b, t).z <= Max(a.z, b.z)
  {
    var s := Scale(ToMeters(ISub(b, a)), t);
    AxisFraction(a.z, b.z, t, s.z, FromMeters(s).z);
  }

  /** The offset keeps the point inside the box spanned by `a` and `b`. */
  lemma OffsetFraction(a: IVec3, b: IVec3, t: real)
    requires 0.0 <= t <= 1.0
    ensures Between(IAdd(a, Offset(a, b, t)), a, b)
  {
    OffsetX(a, b, t);
    OffsetY(a, b, t);
    OffsetZ(a, b, t);
  }

  /** For non-negative radii the corrected contact point lies between the
      two centres on every axis. */
  lemma ContactBetweenCentres(a: IVec3, b: IVec3, r1: real, r2: real)
    requires r1 >= 0.0 && r2 >= 0.0
    ensures Between(ContactBetween(a, b, r1, r2), a, b)
  {
    if r1 + r2 != 0.0 {
      RatioInUnit(r1, r2);
      OffsetFraction(a, b, r1 / (r1 + r2));
    }
  }

  /** The share `r1 / (r1 + r2)` of two non-negative radii is a fraction. */
  lemma RatioInUnit(r1: real, r2: real)
    requires r1 >= 0.0 && r2 >= 0.0 && r1 + r2 != 0.0
    ensures 0.0 <= r1 / (r1 + r2) <= 1.0
  {
    var s := r1 + r2;
    var t := r1 / s;
    assert t * s == r1;
  }

  // ---------------------------------------------------------------------
  // Dispatch
  // ---------------------------------------------------------------------

  datatype Collider = Collider(kind: ColliderType, transform: Transform)

  /** The float geometry `collides_with` derives from the two transforms:
      the box-pair frame (self as obj1) and the sphere-box frame (cube as
      reference). */
  datatype Geometry = Geometry(sat: SatFrame, cube: CubeFrame)

  /** `collides_with`: box-box goes to SAT, sphere-box in either order to
      the sphere-box branch with the roles sorted, sphere-sphere to the
      analytic branch; every other pair panics. */
  function CollidesWith(self: Collider, other: Collider, g: Geometry): (r: Result<Option<CollisionInfo>>)
    ensures r.Panic? <==> self.kind.Convex? || other.kind.Convex?
    ensures r.Ok? && r.value.Some? ==> |r.value.value.points| > 0
  {
    if self.kind.Box? && other.kind.Box? then
      Ok(CollisionSat(self.transform, other.transform, g.sat))
    else if (self.kind.Sphere? && other.kind.Box?) || (self.kind.Box? && other.kind.Sphere?) then
      var sphere := if self.kind.Sphere? then self else other;
      var cube := if self.kind.Sphere? then other else self;
      Ok(SphereBox(sphere.transform, cube.transform, g.cube))
    else if self.kind.Sphere? && other.kind.Sphere? then
      Ok(SphereSphere(self.transform, other.transform))
    else
      Panic("unhandled collider pair")
  }

  /** Which branch a pair takes. */
  lemma DispatchBranches(self: Collider, other: Collider, g: Geometry)
    ensures self.kind == Box && other.kind == Box ==>
      CollidesWith(self, other, g) == Ok(CollisionSat(self.transform, other.transform, g.sat))
    ensures self.kind == Sphere && other.kind == Box ==>
      CollidesWith(self, other, g) == Ok(SphereBox(self.transform, other.transform, g.cube))
    ensures self.kind == Box && other.kind == Sphere ==>
      CollidesWith(self, other, g) == Ok(SphereBox(other.transform, self.transform, g.cube))
    ensures self.kind == Sphere && other.kind == Sphere ==>
      CollidesWith(self, other, g) == Ok(SphereSphere(self.transform, other.transform))
  {
  }

  /** The sphere-box roles are normalised: swapping the pair gives the same
      answer. */
  lemma SphereBoxOrderIrrelevant(a: Collider, b: Collider, g: Geometry)
    requires (a.kind == Sphere && b.kind == Box) || (a.kind == Box && b.kind == Sphere)
    ensures CollidesWith(a, b, g) == CollidesWith(b, a, g)
  {
  }
}

=== FILE: gjk.dfy ===
/** The GJK simplex case machine and the EPA helpers of the narrow phase:
    support points over a Minkowski difference, the simplex update that
    decides whether the origin is enclosed, the per-face normals of a
    polytope, and the edge list that keeps only the unshared edges. The
    vectors are exact reals; `normalize` is a parameter. */
module Gjk {
  import opened Base
  import opened Vectors

  // ---------------------------------------------------------------------
  // Support points
  // ---------------------------------------------------------------------

  /** The point `find_furthest_point` returns when no vertex beats its
      starting dot product of -10. */
  const SENTINEL: Vec3 := Vec3(-1.0, -1.0, -1.0)

  /** The starting dot product of `find_furthest_point`. */
  const START_DOT: real := -10.0

  /** The index `find_furthest_point` holds after scanning the first `n`
      vertices front to back, replacing its choice whenever a vertex has a
      strictly larger dot product with `dir`; None while nothing beats -10. */
  function BestUpTo(verts: seq<Vec3>, dir: Vec3, n: nat): (r: Option<nat>)
    requires n <= |verts|
    ensures r.Some? ==> r.value < n && Dot(verts[r.value], dir) > START_DOT
    ensures r.Some? ==> forall j :: 0 <= j < n ==> Dot(verts[j], dir) <= Dot(verts[r.value], dir)
    ensures r.Some? ==> forall j :: 0 <= j < r.value ==> Dot(verts[j], dir) < Dot(verts[r.value], dir)
    ensures r.None? <==> forall j :: 0 <= j < n ==> Dot(verts[j], dir) <= START_DOT
    decreases n
  {
    if n == 0 then None
    else
      var p := BestUpTo(verts, dir, n - 1);
      var bestDot := if p.Some? then Dot(verts[p.value], dir) else START_DOT;
      if Dot(verts[n - 1], dir) > bestDot then Some(n - 1) else p
  }

  /** The index `find_furthest_point` settles on after the whole scan: the
      first vertex with the largest dot product, when that beats -10. */
  function BestIndex(verts: seq<Vec3>, dir: Vec3): (r: Option<nat>)
    ensures r.Some? ==> r.value < |verts| && Dot(verts[r.value], dir) > START_DOT
    ensures r.Some? ==> forall j :: 0 <= j < |verts| ==> Dot(verts[j], dir) <= Dot(verts[r.value], dir)
    ensures r.Some? ==> forall j :: 0 <= j < r.value ==> Dot(verts[j], dir) < Dot(verts[r.value], dir)
    ensures r.None? <==> forall j :: 0 <= j < |verts| ==> Dot(verts[j], dir) <= START_DOT
  {
    BestUpTo(verts, dir, |verts|)
  }

  /** `find_furthest_point`: the first vertex with the largest dot product
      with `dir`, or (-1, -1, -1) when every dot product is at most -10. */
  function FurthestPoint(verts: seq<Vec3>, dir: Vec3): (p: Vec3)
    ensures (exists i :: 0 <= i < |verts| && Dot(verts[i], dir) > START_DOT) ==> (
      p in verts && forall v :: v in verts ==> Dot(v, dir) <= Dot(p, dir))
    ensures (forall i :: 0 <= i < |verts| ==> Dot(verts[i], dir) <= START_DOT) ==> p == SENTINEL
  {
    var b := BestIndex(verts, dir);
    if b.Some? then verts[b.value] else SENTINEL
  }

  /** `support`: the furthest point of the first shape along `dir` minus the
      furthest point of the second shape against it. */
  function Support(verts1: seq<Vec3>, verts2: seq<Vec3>, dir: Vec3): Vec3
  {
    Sub(FurthestPoint(verts1, dir), FurthestPoint(verts2, Neg(dir)))
  }

  lemma DotSub(p: Vec3, q: Vec3, d: Vec3)
    ensures Dot(Sub(p, q), d) == Dot(p, d) - Dot(q, d)
  {
  }

  lemma DotNeg(q: Vec3, d: Vec3)
    ensures Dot(q, Neg(d)) == -Dot(q, d)
  {
  }

  /** When both shapes have a vertex beating the start value, the support
      point is a point of the Minkowski difference that is furthest along
      `dir` among all of them. */
  lemma SupportMaximises(verts1: seq<Vec3>, verts2: seq<Vec3>, dir: Vec3, p: Vec3, q: Vec3)
    requires p in verts1 && q in verts2
    requires exists i :: 0 <= i < |verts1| && Dot(verts1[i], dir) > START_DOT
    requires exists j :: 0 <= j < |verts2| && Dot(verts2[j], Neg(dir)) > START_DOT
    ensures exists i, j :: (0 <= i < |verts1| && 0 <= j < |verts2| &&
      Support(verts1, verts2, dir) == Sub(verts1[i], verts2[j]))
    ensures Dot(Sub(p, q), dir) <= Dot(Support(verts1, verts2, dir), dir)
  {
    var b1 := BestIndex(verts1, dir);
    var b2 := BestIndex(verts2, Neg(dir));
    var f1 := verts1[b1.value];
    var f2 := verts2[b2.value];
    assert Support(verts1, verts2, dir) == Sub(f1, f2);
    DotSub(p, q, dir);
    DotSub(f1, f2, dir);
    DotNeg(q, dir);
    DotNeg(f2, dir);
  }

  // ---------------------------------------------------------------------
  // Simplex update
  // ---------------------------------------------------------------------

  /** What `next_simplex` leaves behind: the new simplex, the new search
      direction, and whether the origin is enclosed. */
  datatype Step = Step(simplex: seq<Vec3>, direction: Vec3, enclosed: bool)

  /** `(u × v) × u` has a non-negative dot product with `v`: it is `|u × v|²`. */
  lemma TriplePointsToward(u: Vec3, v: Vec3)
    ensures Dot(Cross(Cross(u, v), u), v) >= 0.0
  {
    var w := Cross(u, v);
    assert Dot(Cross(w, u), v) == Dot(w, w);
    assert w.x * w.x >= 0.0 && w.y * w.y >= 0.0 && w.z * w.z >= 0.0;
  }

  lemma SelfDot(v: Vec3)
    ensures Dot(v, v) >= 0.0
  {
    assert v.x * v.x >= 0.0 && v.y * v.y >= 0.0 && v.z * v.z >= 0.0;
  }

  /** `line`: keeps `[a, b]` and searches perpendicular to the segment
      toward the origin when the origin lies beyond `a` along `b - a`;
      otherwise drops `b` and searches straight toward the origin. */
  function Line(a: Vec3, b: Vec3): (r: Step)
    ensures !r.enclosed
    ensures r.simplex == [a, b] || r.simplex == [a]
    ensures r.simplex == [a] <==> Dot(Sub(b, a), Neg(a)) <= 0.0
    ensures Dot(r.direction, Neg(a)) >= 0.0
  {
    var ab := Sub(b, a);
    var ao := Neg(a);
    if Dot(ab, ao) > 0.0 then
      TriplePointsToward(ab, ao);
      Step([a, b], Cross(Cross(ab, ao), ab), false)
    else
      SelfDot(ao);
      Step([a], ao, false)
  }

  /** The simplices `triangle` can leave behind for the input `[a, b, c]`. */
  predicate TriangleOutcome(s: seq<Vec3>, a: Vec3, b: Vec3, c: Vec3)
  {
    s == [a] || s == [a, b] || s == [a, c] || s == [a, b, c] || s == [a, c, b]
  }

  /** `triangle`: the Voronoi-region case split of the triangle `abc` seen
      from `a`; either reduces to an edge (through `line` or directly) or
      keeps the triangle, reversing its winding when the origin lies below. */
  function Triangle(a: Vec3, b: Vec3, c: Vec3): (r: Step)
    ensures !r.enclosed
    ensures TriangleOutcome(r.simplex, a, b, c)
    ensures Dot(r.direction, Neg(a)) >= 0.0
    ensures |r.simplex| == 3 <==>
      Dot(Cross(Cross(Sub(b, a), Sub(c, a)), Sub(c, a)), Neg(a)) <= 0.0 &&
      Dot(Cross(Sub(b, a), Cross(Sub(b, a), Sub(c, a))), Neg(a)) <= 0.0
  {
    var ab := Sub(b, a);
    var ac := Sub(c, a);
    var ao := Neg(a);
    var abc := Cross(ab, ac);
    if Dot(Cross(abc, ac), ao) > 0.0 then
      if Dot(ac, ao) > 0.0 then
        TriplePointsToward(ac, ao);
        Step([a, c], Cross(Cross(ac, ao), ac), false)
      else Line(a, b)
    else if Dot(Cross(ab, abc), ao) > 0.0 then Line(a, b)
    else if Dot(abc, ao) > 0.0 then Step([a, b, c], abc, false)
    else
      DotNeg(ao, abc);
      Step([a, c, b], Neg(abc), false)
  }

  /** The three faces of the tetrahedron `abcd` that contain `a`, as the
      source orients them: abc, acd and adb. */
  predicate OriginBehindFaces(a: Vec3, b: Vec3, c: Vec3, d: Vec3)
  {
    var ao := Neg(a);
    Dot(Cross(Sub(b, a), Sub(c, a)), ao) <= 0.0 &&
    Dot(Cross(Sub(c, a), Sub(d, a)), ao) <= 0.0 &&
    Dot(Cross(Sub(d, a), Sub(b, a)), ao) <= 0.0
  }

  /** `tetrahedron`: reports the origin enclosed exactly when no face through
      `a` faces it; otherwise continues with the first face that does. */
  function Tetrahedron(a: Vec3, b: Vec3, c: Vec3, d: Vec3, dir: Vec3): (r: Step)
    ensures r.enclosed <==> OriginBehindFaces(a, b, c, d)
    ensures r.enclosed ==> r.simplex == [a, b, c, d] && r.direction == dir
    ensures !r.enclosed ==> (
      (TriangleOutcome(r.simplex, a, b, c) || TriangleOutcome(r.simplex, a, c, d) ||
       TriangleOutcome(r.simplex, a, d, b)) &&
      Dot(r.direction, Neg(a)) >= 0.0)
  {
    var ab := Sub(b, a);
    var ac := Sub(c, a);
    var ad := Sub(d, a);
    var ao := Neg(a);
    if Dot(Cross(ab, ac), ao) > 0.0 then Triangle(a, b, c)
    else if Dot(Cross(ac, ad), ao) > 0.0 then Triangle(a, c, d)
    else if Dot(Cross(ad, ab), ao) > 0.0 then Triangle(a, d, b)
    else Step([a, b, c, d], dir, true)
  }

  /** `next_simplex`: dispatches on the simplex size; any size other than
      2, 3 or 4 panics. */
  function NextSimplex(s: seq<Vec3>, dir: Vec3): (r: Result<Step>)
    ensures r.Panic? <==> !(2 <= |s| <= 4)
    ensures r.Ok? ==> (r.value.enclosed <==> |s| == 4 && OriginBehindFaces(s[0], s[1], s[2], s[3]))
  {
    if |s| == 2 then Ok(Line(s[0], s[1]))
    else if |s| == 3 then Ok(Triangle(s[0], s[1], s[2]))
    else if |s| == 4 then Ok(Tetrahedron(s[0], s[1], s[2], s[3], dir))
    else Panic("Simplex had wrong number of points")
  }

  /** The simplex `next_simplex` leaves is built from the points it was
      given: it starts with the newest point, never grows, holds no point
      the input did not, and unless the origin is enclosed the new direction
      does not point away from the origin as seen from that newest point. */
  lemma NextSimplexShrinks(s: seq<Vec3>, dir: Vec3)
    requires 2 <= |s| <= 4
    ensures NextSimplex(s, dir).Ok?
    ensures 1 <= |NextSimplex(s, dir).value.simplex| <= |s|
    ensures NextSimplex(s, dir).value.simplex[0] == s[0]
    ensures forall p :: p in NextSimplex(s, dir).value.simplex ==> p in s
    ensures !NextSimplex(s, dir).value.enclosed ==> Dot(NextSimplex(s, dir).value.direction, Neg(s[0])) >= 0.0
  {
    var r := NextSimplex(s, dir).value;
    if |s| == 2 {
      assert r == Line(s[0], s[1]);
    } else if |s| == 3 {
      assert r == Triangle(s[0], s[1], s[2]);
    } else {
      assert r == Tetrahedron(s[0], s[1], s[2], s[3], dir);
    }
  }

  // ---------------------------------------------------------------------
  // EPA face normals
  // ---------------------------------------------------------------------

  /** A face plane: unit normal (x, y, z) and distance w from the origin. */
  datatype Vec4 = Vec4(x: real, y: real, z: real, w: real)

  function Normal(v: Vec4): Vec3 { Vec3(v.x, v.y, v.z) }

  /** The plane through `a` with normal `n`, flipped if needed so that its
      distance from the origin is non-negative. */
  function PlaneThrough(n: Vec3, a: Vec3): (f: Vec4)
    ensures f.w >= 0.0
    ensures Dot(Normal(f), a) == f.w
    ensures Normal(f) == n || Normal(f) == Neg(n)
  {
    var d := Dot(n, a);
    if d < 0.0 then
      DotNeg(a, n);
      assert Dot(Neg(n), a) == Dot(a, Neg(n));
      Vec4(-n.x, -n.y, -n.z, -d)
    else Vec4(n.x, n.y, n.z, d)
  }

  /** The plane of triangle `abc`: its normalised winding normal, flipped
      to face away from the origin. */
  function FacePlane(a: Vec3, b: Vec3, c: Vec3, normalize: Vec3 -> Vec3): Vec4
  {
    PlaneThrough(normalize(Cross(Sub(b, a), Sub(c, a))), a)
  }

  /** Every face index refers to a vertex of the polytope. */
  predicate FacesInRange(poly: seq<Vec3>, faces: seq<nat>)
  {
    forall j :: 0 <= j < |faces| ==> faces[j] < |poly|
  }

  /** The face planes of the first `n` triangles of `faces`; any index past
      the end of the polytope panics, as Rust's indexing does. */
  function PlanesUpTo(poly: seq<Vec3>, faces: seq<nat>, normalize: Vec3 -> Vec3, n: nat): (r: Result<seq<Vec4>>)
    requires 3 * n <= |faces|
    ensures r.Ok? <==> forall j :: 0 <= j < 3 * n ==> faces[j] < |poly|
    ensures r.Ok? ==> |r.value| == n
    ensures r.Ok? ==> forall k :: 0 <= k < n ==>
      r.value[k] == FacePlane(poly[faces[3 * k]], poly[faces[3 * k + 1]], poly[faces[3 * k + 2]], normalize)
    decreases n
  {
    if n == 0 then Ok([])
    else
      var prev := PlanesUpTo(poly, faces, normalize, n - 1);
      var i := 3 * (n - 1);
      if prev.Panic? then prev
      else if faces[i] >= |poly| || faces[i + 1] >= |poly| || faces[i + 2] >= |poly| then
        Panic("index out of bounds")
      else
        Ok(prev.value + [FacePlane(poly[faces[i]], poly[faces[i + 1]], poly[faces[i + 2]], normalize)])
  }

  /** All face planes; a face list whose length is not a multiple of three
      runs past its end on the last step and panics. */
  function FacePlanes(poly: seq<Vec3>, faces: seq<nat>, normalize: Vec3 -> Vec3): (r: Result<seq<Vec4>>)
    ensures r.Ok? <==> |faces| % 3 == 0 && FacesInRange(poly, faces)
    ensures r.Ok? ==> |r.value| == |faces| / 3 && forall k :: 0 <= k < |r.value| ==> r.value[k].w >= 0.0
  {
    if |faces| % 3 != 0 then Panic("index out of bounds")
    else PlanesUpTo(poly, faces, normalize, |faces| / 3)
  }

  /** The loop's running minimum over `planes`: the index of the closest
      face and its distance, starting from index 0 at distance `f32::MAX`
      and moving on only when a face is strictly closer. */
  function Closest(planes: seq<Vec4>): (r: (nat, real))
    ensures r.1 <= F32_MAX
    ensures r.1 < F32_MAX ==> r.0 < |planes| && planes[r.0].w == r.1
    ensures r.1 == F32_MAX ==> r.0 == 0
    ensures forall j :: 0 <= j < |planes| ==> r.1 <= planes[j].w
    ensures forall j :: 0 <= j < r.0 && r.0 < |planes| ==> planes[j].w > r.1
    decreases |planes|
  {
    if |planes| == 0 then (0, F32_MAX)
    else
      var n := |planes| - 1;
      var p := Closest(planes[..n]);
      if planes[n].w < p.1 then (n, planes[n].w) else p
  }

  /** `get_face_normals` as written: the closest face is recorded with
      `min_triangle = 1/3`, which is integer division and always 0. */
  function GetFaceNormalsAsWritten(poly: seq<Vec3>, faces: seq<nat>, normalize: Vec3 -> Vec3): (r: Result<(seq<Vec4>, nat)>)
    ensures r.Ok? <==> |faces| % 3 == 0 && FacesInRange(poly, faces)
    ensures r.Ok? ==> r.value.1 == 0
  {
    var planes := FacePlanes(poly, faces, normalize);
    if planes.Panic? then Panic(planes.reason) else Ok((planes.value, 1 / 3))
  }

  /** `get_face_normals` as evidently intended: the index recorded is the
      triangle number `i / 3` of the closest face. */
  function GetFaceNormals(poly: seq<Vec3>, faces: seq<nat>, normalize: Vec3 -> Vec3): (r: Result<(seq<Vec4>, nat)>)
    ensures r.Ok? <==> |faces| % 3 == 0 && FacesInRange(poly, faces)
    ensures r.Ok? ==> |r.value.0| == |faces| / 3
    ensures r.Ok? && |faces| > 0 ==> r.value.1 < |r.value.0|
    ensures r.Ok? ==> forall j :: (0 <= j < |r.value.0| && r.value.0[j].w < F32_MAX ==>
      r.value.0[r.value.1].w <= r.value.0[j].w && (j < r.value.1 ==> r.value.0[j].w > r.value.0[r.value.1].w))
    ensures r.Ok? ==> forall j :: 0 <= j < |r.value.0| ==> r.value.0[j].w >= 0.0
  {
    var planes := FacePlanes(poly, faces, normalize);
    if planes.Panic? then Panic(planes.reason) else Ok((planes.value, Closest(planes.value).0))
  }

  /** Two face planes at distances 2 and 1 (two parallel triangles above
      the origin): the running minimum ends on the second. */
  lemma ClosestOfTwo(planes: seq<Vec4>)
    requires planes == [Vec4(0.0, 0.0, 1.0, 2.0), Vec4(0.0, 0.0, 1.0, 1.0)]
    ensures Closest(planes).0 == 1
  {
    assert planes[..1] == [planes[0]];
    assert planes[..1][..0] == [];
    assert Closest(planes[..1]) == (0, 2.0);
  }

  /** Whenever a later face is strictly closer than the first, the
      as-written index still names the first face, which is then not a
      closest face; the corrected index names a face at least as close. */
  lemma GetFaceNormalsAsWrittenIgnoresCloser(poly: seq<Vec3>, faces: seq<nat>, normalize: Vec3 -> Vec3, j: nat)
    requires GetFaceNormals(poly, faces, normalize).Ok?
    requires 0 < j < |faces| / 3
    requires FacePlanes(poly, faces, normalize).value[j].w < FacePlanes(poly, faces, normalize).value[0].w
    requires FacePlanes(poly, faces, normalize).value[j].w < F32_MAX
    ensures GetFaceNormalsAsWritten(poly, faces, normalize).Ok?
    ensures var (planes, k) := GetFaceNormalsAsWritten(poly, faces, normalize).value;
      k == 0 && planes[j].w < planes[k].w
    ensures var (planes, k) := GetFaceNormals(poly, faces, normalize).value;
      k != 0 && planes[k].w <= planes[j].w
  {
  }

  // ---------------------------------------------------------------------
  // EPA edge list
  // ---------------------------------------------------------------------

  type Edge = (nat, nat)

  function Reverse(e: Edge): Edge { (e.1, e.0) }

  /** The first position of `e` in `edges`, if any. */
  function Position(edges: seq<Edge>, e: Edge): (r: Option<nat>)
    ensures r.Some? ==> (r.value < |edges| && edges[r.value] == e &&
      forall i :: 0 <= i < r.value ==> edges[i] != e)
    ensures r.None? <==> e !in edges
  {
    if |edges| == 0 then None
    else if edges[0] == e then Some(0)
    else
      var p := Position(edges[1..], e);
      if p.Some? then Some(p.value + 1) else None
  }

  /** `Vec::remove`: the sequence without the entry at `i`. */
  function RemoveAt<T>(s: seq<T>, i: nat): (r: seq<T>)
    requires i < |s|
    ensures |r| == |s| - 1
    ensures forall j :: 0 <= j < i ==> r[j] == s[j]
    ensures forall j :: i <= j < |r| ==> r[j] == s[j + 1]
  {
    s[..i] + s[i + 1..]
  }

  /** `add_if_unique_edge` as written: it looks for the index pair `(b, a)`
      but stores the vertex pair `(faces[a], faces[b])`, so the reverse of a
      stored edge is never recognised. Indexing `faces` happens only when
      nothing was found. */
  function AddIfUniqueEdgeAsWritten(edges: seq<Edge>, faces: seq<nat>, a: nat, b: nat): (r: Result<seq<Edge>>)
    ensures (b, a) in edges ==> r.Ok? && |r.value| == |edges| - 1
    ensures (b, a) in edges ==> r == Ok(RemoveAt(edges, Position(edges, (b, a)).value))
    ensures (b, a) !in edges ==> (r.Ok? <==> a < |faces| && b < |faces|)
    ensures (b, a) !in edges && r.Ok? ==> r.value == edges + [(faces[a], faces[b])]
  {
    var p := Position(edges, (b, a));
    if p.Some? then Ok(RemoveAt(edges, p.value))
    else if a < |faces| && b < |faces| then Ok(edges + [(faces[a], faces[b])])
    else Panic("index out of bounds")
  }

  /** `add_if_unique_edge` as evidently intended: edges are vertex pairs,
      so the reverse looked for is `(faces[b], faces[a])`. */
  function AddIfUniqueEdge(edges: seq<Edge>, faces: seq<nat>, a: nat, b: nat): (r: Result<seq<Edge>>)
    ensures r.Ok? <==> a < |faces| && b < |faces|
    ensures r.Ok? && (faces[b], faces[a]) in edges ==> (
      var p := Position(edges, (faces[b], faces[a])).value;
      r.value == RemoveAt(edges, p))
    ensures r.Ok? && (faces[b], faces[a]) !in edges ==> r.value == edges + [(faces[a], faces[b])]
  {
    if a < |faces| && b < |faces| then
      var e := (faces[a], faces[b]);
      var p := Position(edges, Reverse(e));
      if p.Some? then Ok(RemoveAt(edges, p.value)) else Ok(edges + [e])
    else Panic("index out of bounds")
  }

  /** No edge is stored together with its reverse, so every stored edge
      borders exactly one of the faces removed so far. */
  predicate NoReversedPair(edges: seq<Edge>)
  {
    forall i, j :: 0 <= i < |edges| && 0 <= j < |edges| && i != j ==> edges[j] != Reverse(edges[i])
  }

  /** The corrected update keeps the edge list free of reversed pairs. */
  lemma AddIfUniqueEdgeKeepsNoReversedPair(edges: seq<Edge>, faces: seq<nat>, a: nat, b: nat)
    requires NoReversedPair(edges)
    requires AddIfUniqueEdge(edges, faces, a, b).Ok?
    ensures NoReversedPair(AddIfUniqueEdge(edges, faces, a, b).value)
  {
    var r := AddIfUniqueEdge(edges, faces, a, b).value;
    var e := (faces[a], faces[b]);
    if Reverse(e) in edges {
      var p := Position(edges, Reverse(e)).value;
      forall i, j | 0 <= i < |r| && 0 <= j < |r| && i != j
        ensures r[j] != Reverse(r[i])
      {
        var i' := if i < p then i else i + 1;
        var j' := if j < p then j else j + 1;
        assert r[i] == edges[i'] && r[j] == edges[j'];
      }
    } else {
      forall i, j | 0 <= i < |r| && 0 <= j < |r| && i != j
        ensures r[j] != Reverse(r[i])
      {
        if i == |edges| {
          assert r[j] == edges[j];
        } else if j == |edges| {
          assert r[i] == edges[i];
        }
      }
    }
  }

  /** The first face of a polytope, `[0, 1, 2]` seen as the edge (0, 1), and
      a second face listing the same edge as (1, 0): the as-written update
      stores both directions instead of cancelling the shared edge, which
      the corrected update does. */
  lemma AddIfUniqueEdgeAsWrittenKeepsShared(edges: seq<Edge>, faces: seq<nat>, a: nat, b: nat)
    requires edges == [(0, 1)] && faces == [0, 1, 2, 0, 3, 1] && a == 5 && b == 3
    ensures AddIfUniqueEdgeAsWritten(edges, faces, a, b) == Ok([(0, 1), (1, 0)])
    ensures !NoReversedPair(AddIfUniqueEdgeAsWritten(edges, faces, a, b).value)
    ensures AddIfUniqueEdge(edges, faces, a, b) == Ok([])
  {
    assert Position(edges[1..], (3, 5)) == None;
    assert Position(edges, (3, 5)) == None;
    assert (faces[a], faces[b]) == (1, 0);
    var r := [(0, 1), (1, 0)];
    assert edges + [(faces[a], faces[b])] == r;
    assert r[1] == Reverse(r[0]);
    assert Position(edges, (0, 1)) == Some(0);
  }
}

=== FILE: graphics_engine.dfy ===
/** The bookkeeping of the graphics engine with the GPU work stripped out:
    draw ids handed to renderable objects, the cache that batches identical
    static meshes until the next update, the choice of mesh pool for a mesh
    (first fitting pool, else a new pool sized by doubling), and the table
    that records where each object is drawn. */
module GraphicsEngine {
  import opened Base
  import MP = MeshPool

  /** What the engine reads of a loaded mesh. The global mesh table is
      keyed by the mesh's uuid, so a key of `meshes` stands for the uuid. */
  datatype Mesh = Mesh(nVertexFloats: nat, nIndices: nat, textureId: nat, shaderId: nat, dynamic: bool)

  /** Where an object is drawn: shader program, texture, index of the pool in
      its vector, vertex slot in the pool, and instance number counted from
      the slot's first instance slot. */
  datatype Location = Location(shader: nat, texture: nat, poolIndex: int, slot: int, instanceOffset: int)

  /** A batch waiting in the cache: how many objects, and their draw ids. */
  datatype CacheEntry = CacheEntry(count: nat, drawIds: seq<nat>)

  datatype Engine = Engine(
    lastDrawUuid: nat,
    renderables: set<nat>,
    locations: map<nat, Location>,
    cache: map<nat, CacheEntry>,
    pools: map<(nat, nat), seq<MP.Pool>>)   // (shader, texture) -> pools

  /** The order in which iterating a pool's static-mesh table visits its
      keys; `HashMap` does not fix it, so it is a parameter. */
  type IterationOrders = map<int, int> -> seq<int>

  ghost predicate OrdersFaithful(orderOf: IterationOrders)
  {
    forall m :: IsIterationOrder(orderOf(m), m)
  }

  /** Smallest pool slot in bytes: one vertex of 8 floats. */
  const MIN_POOL_SIZE: nat := MP.N_FLOATS_PER_VERTEX * MP.FLOAT_NBYTES

  /** A fresh engine: no objects, no pools, and draw ids starting at 1. */
  const NEW_ENGINE: Engine := Engine(1, {}, map[], map[], map[])

  predicate PoolsValid(pools: map<(nat, nat), seq<MP.Pool>>)
  {
    forall key, i :: key in pools && 0 <= i < |pools[key]| ==> MP.Valid(pools[key][i])
  }

  /** The objects of a cache entry have locations whose instance offsets
      number them 0, 1, 2, ... in the order they were added. */
  predicate OffsetsFresh(locations: map<nat, Location>, ids: seq<nat>)
  {
    forall j :: 0 <= j < |ids| ==> ids[j] in locations && locations[ids[j]].instanceOffset == j
  }

  /** No draw id is waiting twice in the cache. */
  predicate CacheIdsDistinct(cache: map<nat, CacheEntry>)
  {
    forall a, b, i, j ::
      (a in cache && b in cache && 0 <= i < |cache[a].drawIds| && 0 <= j < |cache[b].drawIds|
       && cache[a].drawIds[i] == cache[b].drawIds[j]) ==> a == b && i == j
  }

  /** The invariant the engine's operations keep: every issued draw id is
      below the counter, the cache is consistent with the location table,
      and every pool is valid. */
  predicate Valid(e: Engine)
  {
    e.lastDrawUuid >= 1
    && (forall d :: d in e.locations ==> d < e.lastDrawUuid)
    && (forall d :: d in e.renderables ==> d < e.lastDrawUuid)
    && (forall id :: id in e.cache ==> e.cache[id].count == |e.cache[id].drawIds| >= 1)
    && (forall id :: id in e.cache ==> OffsetsFresh(e.locations, e.cache[id].drawIds))
    && CacheIdsDistinct(e.cache)
    && PoolsValid(e.pools)
  }

  lemma NewEngineValid()
    ensures Valid(NEW_ENGINE)
  {
  }

  /** A pool suits a mesh when its slot holds the vertices but is at most
      four times larger than they need. */
  predicate Fits(pool: MP.Pool, nFloats: nat)
  {
    nFloats * 4 <= pool.meshVertexNbytes <= nFloats * 16
  }

  /** The first pool from position `from` on that suits the mesh. */
  function FirstFitting(pools: seq<MP.Pool>, nFloats: nat, from: nat): (r: Option<nat>)
    requires from <= |pools|
    ensures r.Some? ==> from <= r.value < |pools| && Fits(pools[r.value], nFloats)
    ensures r.Some? ==> forall j :: from <= j < r.value ==> !Fits(pools[j], nFloats)
    ensures r.None? ==> forall j :: from <= j < |pools| ==> !Fits(pools[j], nFloats)
    decreases |pools| - from
  {
    if from == |pools| then None
    else if Fits(pools[from], nFloats) then Some(from)
    else FirstFitting(pools, nFloats, from + 1)
  }

  function Pow2(k: nat): (r: nat)
    ensures r >= 1
  {
    if k == 0 then 1 else 2 * Pow2(k - 1)
  }

  /** The number of doublings of the smallest pool size, counted on from
      `k`, that first reaches `need` bytes. */
  function DoublingsFrom(k: nat, need: nat): (r: nat)
    requires k == 0 || MIN_POOL_SIZE * Pow2(k - 1) < need
    ensures MIN_POOL_SIZE * Pow2(r) >= need
    ensures r == 0 || MIN_POOL_SIZE * Pow2(r - 1) < need
    decreases need - MIN_POOL_SIZE * Pow2(k)
  {
    if MIN_POOL_SIZE * Pow2(k) >= need then k else DoublingsFrom(k + 1, need)
  }

  /** Slot size of a new pool for a mesh of `nFloats` floats: the smallest
      `32 * 2^k` bytes that hold them. */
  function PoolSize(nFloats: nat): (size: nat)
    ensures size >= nFloats * 4 && size >= MIN_POOL_SIZE
    ensures size == MIN_POOL_SIZE || size < 2 * (nFloats * 4)
  {
    var k := DoublingsFrom(0, nFloats * 4);
    assert k > 0 ==> Pow2(k) == 2 * Pow2(k - 1);
    MIN_POOL_SIZE * Pow2(k)
  }

  /** Meshes per expansion of a new pool: enough slots for about 2^24 bytes,
      at least one. */
  function PoolCapacity(size: nat): (c: nat)
    requires size >= 1
    ensures c >= 1 && c * size >= MP.TARGET_MESHPOOL_BASE_SIZE
    ensures (c - 1) * size < MP.TARGET_MESHPOOL_BASE_SIZE
  {
    CeilDiv(MP.TARGET_MESHPOOL_BASE_SIZE, size)
  }

  /** The empty pool made for a mesh of `nFloats` floats. */
  function NewPoolFor(nFloats: nat): (p: MP.Pool)
    ensures MP.Valid(p)
    ensures p.meshVertexNbytes == PoolSize(nFloats) && p.meshIndexNbytes == PoolSize(nFloats)
    ensures p.baseMeshCapacity == PoolCapacity(PoolSize(nFloats))
  {
    var size := PoolSize(nFloats);
    var cap := PoolCapacity(size);
    MP.New(cap, cap, size, size)
  }

  /** A new pool suits the mesh it was made for once the mesh has at least
      two floats, so the next identical mesh finds it. */
  lemma NewPoolFitsItsMesh(nFloats: nat)
    requires nFloats >= 2
    ensures Fits(NewPoolFor(nFloats), nFloats)
  {
  }

  /** Writes a pool placement into the location of each key: shader,
      texture, pool index and slot are overwritten, the instance offset is
      increased by the placement's. A key without a location is the
      `unwrap` of nothing. */
  function FillLocations(e: Engine, keys: seq<nat>, at: Location): (r: Result<Engine>)
    ensures r.Panic? <==> exists k :: k in keys && k !in e.locations
    ensures r.Ok? ==> r.value == e.(locations := r.value.locations)
    ensures r.Ok? ==> r.value.locations.Keys == e.locations.Keys
    ensures r.Ok? ==> forall d :: d in e.locations && d !in keys ==> r.value.locations[d] == e.locations[d]
    ensures r.Ok? && (forall i, j :: 0 <= i < j < |keys| ==> keys[i] != keys[j]) ==>
      forall d :: d in keys ==> r.value.locations[d] == at.(instanceOffset := e.locations[d].instanceOffset + at.instanceOffset)
    decreases |keys|
  {
    if |keys| == 0 then Ok(e)
    else if keys[0] !in e.locations then Panic("called `Option::unwrap()` on a `None` value")
    else
      var k := keys[0];
      var e1 := e.(locations := e.locations[k := at.(instanceOffset := e.locations[k].instanceOffset + at.instanceOffset)]);
      var r := FillLocations(e1, keys[1..], at);
      assert forall d :: d in keys[1..] ==> d in keys;
      assert forall d :: d in keys && d != k ==> d in keys[1..];
      r
  }

  predicate AllValid(vec: seq<MP.Pool>)
  {
    forall i :: 0 <= i < |vec| ==> MP.Valid(vec[i])
  }

  /** `add_mesh` on one pool, with the pool's drain order for its static
      meshes. Returns the pool, the vertex slot and the first instance. */
  function PlaceInPool(p: MP.Pool, m: Mesh, meshId: nat, count: nat, orderOf: IterationOrders): (r: (MP.Pool, int, int))
    requires MP.Valid(p) && count >= 1 && OrdersFaithful(orderOf)
    ensures MP.Valid(r.0) && MP.SameSizes(p, r.0)
    ensures r == MP.AddMesh(p, meshId, m.nIndices, count, m.dynamic, orderOf(p.slotContents))
  {
    assert IsIterationOrder(orderOf(p.slotContents), p.slotContents);
    MP.AddMesh(p, meshId, m.nIndices, count, m.dynamic, orderOf(p.slotContents))
  }

  lemma AllValidUpdate(vec: seq<MP.Pool>, i: nat, q: MP.Pool)
    requires AllValid(vec) && i < |vec| && MP.Valid(q)
    ensures AllValid(vec[i := q])
  {
  }

  lemma AllValidAppend(vec: seq<MP.Pool>, q: MP.Pool)
    requires AllValid(vec) && MP.Valid(q)
    ensures AllValid(vec + [q])
  {
  }

  /** `vec'` is `vec` with the mesh placed in pool `idx`: the first pool that
      fits, or a new pool of the mesh's size appended at the end. Every other
      pool is as it was and a reused pool keeps its sizes. */
  predicate PlacedInVec(vec: seq<MP.Pool>, vec': seq<MP.Pool>, idx: int, nFloats: nat)
  {
    var fit := FirstFitting(vec, nFloats, 0);
    && 0 <= idx < |vec'|
    && (fit.Some? ==> idx == fit.value && |vec'| == |vec|)
    && (fit.None? ==> idx == |vec| && |vec'| == |vec| + 1)
    && (forall j :: 0 <= j < |vec| && j != idx ==> vec'[j] == vec[j])
    && (idx < |vec| ==> MP.SameSizes(vec[idx], vec'[idx]))
    && (idx == |vec| ==> vec'[idx].meshVertexNbytes == PoolSize(nFloats)
                         && vec'[idx].baseMeshCapacity == PoolCapacity(PoolSize(nFloats)))
  }

  /** The mesh goes into the first suitable pool of the vector, or into a
      new pool appended to it. Returns the vector, the pool index, the
      vertex slot and the first instance. */
  function PlaceInVec(vec: seq<MP.Pool>, m: Mesh, meshId: nat, count: nat, orderOf: IterationOrders): (r: (seq<MP.Pool>, int, int, int))
    requires AllValid(vec) && count >= 1 && OrdersFaithful(orderOf)
    ensures AllValid(r.0)
    ensures PlacedInVec(vec, r.0, r.1, m.nVertexFloats)
  {
    var fit := FirstFitting(vec, m.nVertexFloats, 0);
    if fit.Some? then
      var i := fit.value;
      var placed := PlaceInPool(vec[i], m, meshId, count, orderOf);
      AllValidUpdate(vec, i, placed.0);
      (vec[i := placed.0], i, placed.1, placed.2)
    else
      var placed := PlaceInPool(NewPoolFor(m.nVertexFloats), m, meshId, count, orderOf);
      AllValidAppend(vec, placed.0);
      (vec + [placed.0], |vec|, placed.1, placed.2)
  }

  /** `pools'` is `pools` with the mesh placed at index `idx` of the vector
      for `key` (see `PlacedInVec`); every other vector is unchanged. */
  predicate PlacedInPools(pools: map<(nat, nat), seq<MP.Pool>>, pools': map<(nat, nat), seq<MP.Pool>>,
                          key: (nat, nat), idx: int, nFloats: nat)
  {
    && key in pools'
    && PlacedInVec(if key in pools then pools[key] else [], pools'[key], idx, nFloats)
    && forall k :: k in pools && k != key ==> k in pools' && pools'[k] == pools[k]
  }

  /** The pool half of `add_mesh_to_pool`: the mesh goes into the first
      suitable pool of its (shader, texture) vector, or into a new pool
      appended to the vector; the other vectors stay as they were. Returns
      the pools and the placement: shader, texture, pool index, vertex slot
      and first instance. */
  method PlaceInPools(pools: map<(nat, nat), seq<MP.Pool>>, m: Mesh, meshId: nat, count: nat, orderOf: IterationOrders)
      returns (pools': map<(nat, nat), seq<MP.Pool>>, at: Location)
    requires PoolsValid(pools) && count >= 1 && OrdersFaithful(orderOf)
    ensures PoolsValid(pools')
    ensures at.shader == m.shaderId && at.texture == m.textureId
    ensures var key := (m.shaderId, m.textureId);
      key in pools' && PlacedInVec(if key in pools then pools[key] else [], pools'[key], at.poolIndex, m.nVertexFloats)
    ensures forall key :: key in pools && key != (m.shaderId, m.textureId) ==> key in pools' && pools'[key] == pools[key]
  {
    var key := (m.shaderId, m.textureId);
    var vec := if key in pools then pools[key] else [];
    assert AllValid(vec);
    var placed := PlaceInVec(vec, m, meshId, count, orderOf);
    PoolsValidUpdate(pools, key, placed.0);
    pools' := pools[key := placed.0];
    at := Location(m.shaderId, m.textureId, placed.1, placed.2, placed.3);
  }

  lemma PoolsValidUpdate(pools: map<(nat, nat), seq<MP.Pool>>, key: (nat, nat), vec: seq<MP.Pool>)
    requires PoolsValid(pools) && AllValid(vec)
    ensures PoolsValid(pools[key := vec])
  {
  }

  /** `add_mesh_to_pool`: the mesh is placed in a pool of its shader and
      texture, and the location of every key records the placement, its
      instance offset moved on by the first instance of the placement.
      Looking up a mesh that is not loaded, or a key without a location,
      panics. Returns the engine and the placement. */
  method AddMeshToPool(e: Engine, meshes: map<nat, Mesh>, meshId: nat, count: nat, keys: seq<nat>, orderOf: IterationOrders)
      returns (r: Result<(Engine, Location)>)
    requires PoolsValid(e.pools) && count >= 1 && OrdersFaithful(orderOf)
    ensures r.Panic? <==> meshId !in meshes || exists k :: k in keys && k !in e.locations
    ensures r.Ok? ==> PoolsValid(r.value.0.pools)
    ensures r.Ok? ==> r.value.1.shader == meshes[meshId].shaderId && r.value.1.texture == meshes[meshId].textureId
    ensures r.Ok? ==> var key := (meshes[meshId].shaderId, meshes[meshId].textureId);
      key in r.value.0.pools && 0 <= r.value.1.poolIndex < |r.value.0.pools[key]|
    ensures r.Ok? ==> PlacedInPools(e.pools, r.value.0.pools, (meshes[meshId].shaderId, meshes[meshId].textureId),
                                    r.value.1.poolIndex, meshes[meshId].nVertexFloats)
    ensures r.Ok? ==> r.value.0 == e.(locations := r.value.0.locations, pools := r.value.0.pools)
    ensures r.Ok? ==> r.value.0.locations.Keys == e.locations.Keys
    ensures r.Ok? ==> forall d :: d in e.locations && d !in keys ==> r.value.0.locations[d] == e.locations[d]
    ensures r.Ok? && (forall i, j :: 0 <= i < j < |keys| ==> keys[i] != keys[j]) ==>
      forall d :: d in keys ==> r.value.0.locations[d] == r.value.1.(instanceOffset := e.locations[d].instanceOffset + r.value.1.instanceOffset)
  {
    if meshId !in meshes {
      return Panic("key not found in the loaded meshes");
    }
    var pools, at := PlaceInPools(e.pools, meshes[meshId], meshId, count, orderOf);
    var filled := FillLocations(e.(pools := pools), keys, at);
    if filled.Panic? {
      return Panic(filled.reason);
    }
    r := Ok((filled.value, at));
  }

  /** Adds a static object to the cache entry of its mesh and returns its
      instance offset: the number of objects already waiting. */
  function CacheObject(e: Engine, meshId: nat, id: nat): (r: (Engine, int))
    ensures r.0 == e.(cache := r.0.cache)
    ensures r.0.cache.Keys == e.cache.Keys + {meshId}
    ensures forall m :: m in e.cache && m != meshId ==> r.0.cache[m] == e.cache[m]
    ensures meshId !in e.cache ==> r.1 == 0 && r.0.cache[meshId] == CacheEntry(1, [id])
    ensures meshId in e.cache ==> (r.1 == e.cache[meshId].count
      && r.0.cache[meshId] == CacheEntry(e.cache[meshId].count + 1, e.cache[meshId].drawIds + [id]))
  {
    if meshId !in e.cache then (e.(cache := e.cache[meshId := CacheEntry(1, [id])]), 0)
    else
      var c := e.cache[meshId];
      (e.(cache := e.cache[meshId := CacheEntry(c.count + 1, c.drawIds + [id])]), c.count)
  }

  /** `add_renderable` as written: a static mesh is cached and its location
      recorded. A dynamic mesh never gets through: `add_mesh_to_pool` locks
      `LOADED_MESHES` again while the guard taken for the mesh lookup is
      still alive (the borrow extends the temporary's lifetime), which a
      `std::sync::Mutex` answers with a deadlock or a panic; and past that,
      the object's location does not exist yet, so filling it unwraps
      nothing. With `LOADED_MESHES` a plain map here, both failures show as
      the one `Panic`. */
  method AddRenderableAsWritten(e: Engine, meshes: map<nat, Mesh>, meshId: nat, orderOf: IterationOrders)
      returns (r: Result<(Engine, int)>)
    requires Valid(e) && OrdersFaithful(orderOf)
    ensures r.Panic? <==> meshId !in meshes || meshes[meshId].dynamic
    ensures r.Ok? ==> r.value.1 == e.lastDrawUuid && r.value.0.lastDrawUuid == e.lastDrawUuid + 1
    ensures r.Ok? ==> r.value.0.cache == CacheObject(e, meshId, e.lastDrawUuid).0.cache
  {
    var id := e.lastDrawUuid;
    var e1 := e.(lastDrawUuid := id + 1, renderables := e.renderables + {id});
    if meshId !in meshes {
      return Panic("key not found in the loaded meshes");
    }
    if meshes[meshId].dynamic {
      var placed := AddMeshToPool(e1, meshes, meshId, 1, [id], orderOf);
      assert id in [id] && id !in e1.locations;
      // Before the re-lock question even arises in this model, filling the
      // location of `id` unwraps nothing: the placement fails.
      return Panic(placed.reason);
    }
    var (e2, offset) := CacheObject(e1, meshId, id);
    r := Ok((e2.(locations := e2.locations[id := Location(0, 0, 0, 0, offset)]), id));
  }

  /** `add_renderable` with the location recorded before a dynamic mesh is
      sent to its pool. The object gets the next draw id, so ids handed out
      one after another increase; a dynamic mesh is placed at once, a static
      one waits in its mesh's cache entry with the next instance offset. */
  method AddRenderable(e: Engine, meshes: map<nat, Mesh>, meshId: nat, orderOf: IterationOrders)
      returns (r: Result<(Engine, int)>)
    requires Valid(e) && OrdersFaithful(orderOf)
    ensures r.Panic? <==> meshId !in meshes
    ensures r.Ok? ==> Valid(r.value.0)
    ensures r.Ok? ==> r.value.1 == e.lastDrawUuid && r.value.0.lastDrawUuid == e.lastDrawUuid + 1
    ensures r.Ok? ==> r.value.1 !in e.locations && r.value.1 !in e.renderables
    ensures r.Ok? ==> r.value.0.renderables == e.renderables + {r.value.1}
    ensures r.Ok? ==> r.value.0.locations.Keys == e.locations.Keys + {r.value.1}
    ensures r.Ok? && meshes[meshId].dynamic ==> (r.value.0.cache == e.cache
      && r.value.0.locations[r.value.1].shader == meshes[meshId].shaderId
      && r.value.0.locations[r.value.1].texture == meshes[meshId].textureId)
    ensures r.Ok? && !meshes[meshId].dynamic ==>
      var old_ids := if meshId in e.cache then e.cache[meshId].drawIds else [];
      && meshId in r.value.0.cache
      && r.value.0.cache[meshId].drawIds == old_ids + [r.value.1]
      && r.value.0.locations[r.value.1].instanceOffset == |old_ids|
      && r.value.0.pools == e.pools
  {
    var id := e.lastDrawUuid;
    var e1 := e.(lastDrawUuid := id + 1, renderables := e.renderables + {id});
    if meshId !in meshes {
      return Panic("key not found in the loaded meshes");
    }
    if meshes[meshId].dynamic {
      var e2 := e1.(locations := e1.locations[id := Location(0, 0, 0, 0, 0)]);
      var placed := AddMeshToPool(e2, meshes, meshId, 1, [id], orderOf);
      assert placed.Ok?;
      DynamicKeepsCache(e, e2, placed.value.0, id);
      return Ok((placed.value.0, id));
    }
    var (e2, offset) := CacheObject(e1, meshId, id);
    var e3 := e2.(locations := e2.locations[id := Location(0, 0, 0, 0, offset)]);
    CachedStaysValid(e, e3, meshId, id);
    r := Ok((e3, id));
  }

  /** Placing a fresh dynamic object touches no cached object. */
  lemma DynamicKeepsCache(e: Engine, e2: Engine, e3: Engine, id: nat)
    requires Valid(e) && id == e.lastDrawUuid
    requires e2.cache == e.cache && e2.lastDrawUuid == id + 1 && e2.renderables == e.renderables + {id}
    requires e2.locations.Keys == e.locations.Keys + {id}
    requires forall d :: d in e.locations ==> e2.locations[d] == e.locations[d]
    requires e3 == e2.(locations := e3.locations, pools := e3.pools) && PoolsValid(e3.pools)
    requires e3.locations.Keys == e2.locations.Keys
    requires forall d :: d in e2.locations && d != id ==> e3.locations[d] == e2.locations[d]
    ensures Valid(e3)
  {
    forall m | m in e3.cache
      ensures OffsetsFresh(e3.locations, e3.cache[m].drawIds)
    {
      assert OffsetsFresh(e.locations, e.cache[m].drawIds);
    }
  }

  /** Caching a fresh static object keeps the engine valid. */
  lemma CachedStaysValid(e: Engine, e3: Engine, meshId: nat, id: nat)
    requires Valid(e) && id == e.lastDrawUuid
    requires e3 == e.(lastDrawUuid := id + 1, renderables := e.renderables + {id},
                      cache := CacheObject(e, meshId, id).0.cache,
                      locations := e.locations[id := Location(0, 0, 0, 0, CacheObject(e, meshId, id).1)])
    ensures Valid(e3)
  {
    var c := CacheObject(e, meshId, id);
    forall m | m in e3.cache
      ensures OffsetsFresh(e3.locations, e3.cache[m].drawIds)
    {
      if m != meshId {
        assert OffsetsFresh(e.locations, e.cache[m].drawIds);
      } else if meshId in e.cache {
        assert OffsetsFresh(e.locations, e.cache[m].drawIds);
      }
    }
    forall a, b, i, j | a in e3.cache && b in e3.cache && 0 <= i < |e3.cache[a].drawIds| && 0 <= j < |e3.cache[b].drawIds|
      && e3.cache[a].drawIds[i] == e3.cache[b].drawIds[j]
      ensures a == b && i == j
    {
      var x := e3.cache[a].drawIds[i];
      if x != id {
        assert a in e.cache && i < |e.cache[a].drawIds| && e.cache[a].drawIds[i] == x;
        assert b in e.cache && j < |e.cache[b].drawIds| && e.cache[b].drawIds[j] == x;
      } else {
        CachedIdsBelow(e);
      }
    }
  }

  /** Every draw id waiting in the cache of a valid engine has been issued. */
  lemma CachedIdsBelow(e: Engine)
    requires Valid(e)
    ensures forall a, i :: a in e.cache && 0 <= i < |e.cache[a].drawIds| ==> e.cache[a].drawIds[i] < e.lastDrawUuid
  {
    forall a, i | a in e.cache && 0 <= i < |e.cache[a].drawIds|
      ensures e.cache[a].drawIds[i] < e.lastDrawUuid
    {
      assert OffsetsFresh(e.locations, e.cache[a].drawIds);
    }
  }

  /** The objects of one batch share shader, texture, pool and slot, and
      occupy consecutive instances in the order they were added. */
  predicate BatchPlaced(locations: map<nat, Location>, ids: seq<nat>, m: Mesh)
  {
    forall j :: 0 <= j < |ids| ==>
      ids[j] in locations && ids[0] in locations
      && locations[ids[j]].shader == m.shaderId && locations[ids[j]].texture == m.textureId
      && locations[ids[j]] == locations[ids[0]].(instanceOffset := locations[ids[0]].instanceOffset + j)
  }

  /** Two different entries of the drain order share no draw id. */
  lemma EntriesDisjoint(entries: map<nat, CacheEntry>, drained: seq<nat>, p: nat, q: nat)
    requires IsIterationOrder(drained, entries) && CacheIdsDistinct(entries)
    requires p < |drained| && q < |drained| && p != q
    ensures forall i, j :: 0 <= i < |entries[drained[p]].drawIds| && 0 <= j < |entries[drained[q]].drawIds| ==>
      entries[drained[p]].drawIds[i] != entries[drained[q]].drawIds[j]
  {
    assert drained[p] != drained[q];
  }

  /** After the entry at position `k` is placed, the later entries still
      have fresh offsets and the placed entry forms a batch. */
  lemma DrainStep(l1: map<nat, Location>, l2: map<nat, Location>, at: Location, meshes: map<nat, Mesh>, entries: map<nat, CacheEntry>, drained: seq<nat>, k: nat)
    requires k < |drained| && IsIterationOrder(drained, entries) && CacheIdsDistinct(entries)
    requires drained[k] in meshes && at.shader == meshes[drained[k]].shaderId && at.texture == meshes[drained[k]].textureId
    requires forall p :: k <= p < |drained| ==> OffsetsFresh(l1, entries[drained[p]].drawIds)
    requires l2.Keys == l1.Keys
    requires forall d :: d in l1 && d !in entries[drained[k]].drawIds ==> l2[d] == l1[d]
    requires forall d :: d in entries[drained[k]].drawIds ==> d in l1
    requires forall d :: d in entries[drained[k]].drawIds ==> l2[d] == at.(instanceOffset := l1[d].instanceOffset + at.instanceOffset)
    ensures forall p :: k + 1 <= p < |drained| ==> OffsetsFresh(l2, entries[drained[p]].drawIds)
    ensures BatchPlaced(l2, entries[drained[k]].drawIds, meshes[drained[k]])
  {
    var ids := entries[drained[k]].drawIds;
    forall p | k + 1 <= p < |drained|
      ensures OffsetsFresh(l2, entries[drained[p]].drawIds)
    {
      var other := entries[drained[p]].drawIds;
      assert OffsetsFresh(l1, other);
      EntriesDisjoint(entries, drained, k, p);
      forall j | 0 <= j < |other|
        ensures other[j] in l2 && l2[other[j]].instanceOffset == j
      {
        assert forall i :: 0 <= i < |ids| ==> ids[i] != other[j];
        assert other[j] !in ids;
      }
    }
    assert OffsetsFresh(l1, ids);
  }

  /** A batch none of whose ids were moved stays placed. */
  lemma BatchKept(l1: map<nat, Location>, l2: map<nat, Location>, ids: seq<nat>, m: Mesh, moved: seq<nat>)
    requires BatchPlaced(l1, ids, m)
    requires forall d :: d in l1 && d !in moved ==> d in l2 && l2[d] == l1[d]
    requires forall i, j :: 0 <= i < |ids| && 0 <= j < |moved| ==> ids[i] != moved[j]
    ensures BatchPlaced(l2, ids, m)
  {
    forall i | 0 <= i < |ids|
      ensures ids[i] !in moved
    {
      assert forall j :: 0 <= j < |moved| ==> ids[i] != moved[j];
    }
  }

  /** The loop invariant of `add_cached_renderables` after `k` entries of
      the drain order have been placed. */
  predicate DrainedUpTo(e: Engine, cur: Engine, meshes: map<nat, Mesh>, entries: map<nat, CacheEntry>, drained: seq<nat>, k: nat)
    requires k <= |drained| && IsIterationOrder(drained, entries)
  {
    && cur == e.(cache := map[], locations := cur.locations, pools := cur.pools)
    && LocationsDrained(e.locations, cur.locations, meshes, entries, drained, k)
  }

  /** The location half of `DrainedUpTo`: `l` has the keys of the original
      table `l0`, the first `k` entries are placed batches, the rest still
      sit at their cached offsets, and every other id keeps its location. */
  predicate LocationsDrained(l0: map<nat, Location>, l: map<nat, Location>, meshes: map<nat, Mesh>,
                             entries: map<nat, CacheEntry>, drained: seq<nat>, k: nat)
    requires k <= |drained| && IsIterationOrder(drained, entries)
  {
    && l.Keys == l0.Keys
    && (forall p :: 0 <= p < k ==> drained[p] in meshes)
    && (forall p :: k <= p < |drained| ==> OffsetsFresh(l, entries[drained[p]].drawIds))
    && (forall p :: 0 <= p < k ==> BatchPlaced(l, entries[drained[p]].drawIds, meshes[drained[p]]))
    && (forall d :: d in l0 && (forall p :: 0 <= p < k ==> d !in entries[drained[p]].drawIds) ==> l[d] == l0[d])
  }

  /** Placing the entry at position `k` extends the invariant to `k + 1`. */
  lemma DrainAdvance(e: Engine, cur: Engine, next: Engine, at: Location, meshes: map<nat, Mesh>, entries: map<nat, CacheEntry>, drained: seq<nat>, k: nat)
    requires k < |drained| && IsIterationOrder(drained, entries) && CacheIdsDistinct(entries)
    requires DrainedUpTo(e, cur, meshes, entries, drained, k)
    requires drained[k] in meshes && at.shader == meshes[drained[k]].shaderId && at.texture == meshes[drained[k]].textureId
    requires next == cur.(locations := next.locations, pools := next.pools)
    requires next.locations.Keys == cur.locations.Keys
    requires forall d :: d in cur.locations && d !in entries[drained[k]].drawIds ==> next.locations[d] == cur.locations[d]
    requires forall d :: d in entries[drained[k]].drawIds ==> d in cur.locations
    requires forall d :: d in entries[drained[k]].drawIds ==> next.locations[d] == at.(instanceOffset := cur.locations[d].instanceOffset + at.instanceOffset)
    ensures DrainedUpTo(e, next, meshes, entries, drained, k + 1)
  {
    LocationsAdvance(e.locations, cur.locations, next.locations, at, meshes, entries, drained, k);
    assert next == e.(cache := map[], locations := next.locations, pools := next.pools);
  }

  lemma LocationsAdvance(l0: map<nat, Location>, l1: map<nat, Location>, l2: map<nat, Location>, at: Location,
                         meshes: map<nat, Mesh>, entries: map<nat, CacheEntry>, drained: seq<nat>, k: nat)
    requires k < |drained| && IsIterationOrder(drained, entries) && CacheIdsDistinct(entries)
    requires LocationsDrained(l0, l1, meshes, entries, drained, k)
    requires drained[k] in meshes && at.shader == meshes[drained[k]].shaderId && at.texture == meshes[drained[k]].textureId
    requires l2.Keys == l1.Keys
    requires forall d :: d in l1 && d !in entries[drained[k]].drawIds ==> l2[d] == l1[d]
    requires forall d :: d in entries[drained[k]].drawIds ==> d in l1
    requires forall d :: d in entries[drained[k]].drawIds ==> l2[d] == at.(instanceOffset := l1[d].instanceOffset + at.instanceOffset)
    ensures LocationsDrained(l0, l2, meshes, entries, drained, k + 1)
  {
    DrainStep(l1, l2, at, meshes, entries, drained, k);
    EarlierBatchesKept(l1, l2, meshes, entries, drained, k);
    UntouchedKept(l0, l1, l2, entries, drained, k);
    PlacedUpTo(l2, meshes, entries, drained, k);
  }

  /** The batches before position `k` and the one at `k` make the batches
      before `k + 1`. */
  lemma PlacedUpTo(l: map<nat, Location>, meshes: map<nat, Mesh>, entries: map<nat, CacheEntry>, drained: seq<nat>, k: nat)
    requires k < |drained| && IsIterationOrder(drained, entries)
    requires forall p :: 0 <= p < k ==> drained[p] in meshes
    requires drained[k] in meshes
    requires forall p :: 0 <= p < k ==> BatchPlaced(l, entries[drained[p]].drawIds, meshes[drained[p]])
    requires BatchPlaced(l, entries[drained[k]].drawIds, meshes[drained[k]])
    ensures forall p :: 0 <= p < k + 1 ==> drained[p] in meshes
    ensures forall p :: 0 <= p < k + 1 ==> BatchPlaced(l, entries[drained[p]].drawIds, meshes[drained[p]])
  {
  }

  /** Placing the entry at position `k` keeps the batches placed before it. */
  lemma EarlierBatchesKept(l1: map<nat, Location>, l2: map<nat, Location>, meshes: map<nat, Mesh>,
                           entries: map<nat, CacheEntry>, drained: seq<nat>, k: nat)
    requires k < |drained| && IsIterationOrder(drained, entries) && CacheIdsDistinct(entries)
    requires forall p :: 0 <= p < k ==> drained[p] in meshes
    requires forall p :: 0 <= p < k ==> BatchPlaced(l1, entries[drained[p]].drawIds, meshes[drained[p]])
    requires forall d :: d in l1 && d !in entries[drained[k]].drawIds ==> d in l2 && l2[d] == l1[d]
    ensures forall p :: 0 <= p < k ==> BatchPlaced(l2, entries[drained[p]].drawIds, meshes[drained[p]])
  {
    forall p | 0 <= p < k
      ensures BatchPlaced(l2, entries[drained[p]].drawIds, meshes[drained[p]])
    {
      EntriesDisjoint(entries, drained, p, k);
      BatchKept(l1, l2, entries[drained[p]].drawIds, meshes[drained[p]], entries[drained[k]].drawIds);
    }
  }

  /** An object outside the first `k + 1` drained entries still has its
      original location. */
  lemma UntouchedKept(l0: map<nat, Location>, l1: map<nat, Location>, l2: map<nat, Location>,
                      entries: map<nat, CacheEntry>, drained: seq<nat>, k: nat)
    requires k < |drained| && IsIterationOrder(drained, entries)
    requires forall d :: d in l0 ==> d in l1
    requires forall d :: d in l1 ==> d in l2
    requires forall d :: d in l0 && (forall p :: 0 <= p < k ==> d !in entries[drained[p]].drawIds) ==> l1[d] == l0[d]
    requires forall d :: d in l1 && d !in entries[drained[k]].drawIds ==> l2[d] == l1[d]
    ensures forall d :: d in l0 && (forall p :: 0 <= p < k + 1 ==> d !in entries[drained[p]].drawIds) ==> l2[d] == l0[d]
  {
    forall d | d in l0 && (forall p :: 0 <= p < k + 1 ==> d !in entries[drained[p]].drawIds)
      ensures l2[d] == l0[d]
    {
      assert d !in entries[drained[k]].drawIds;
    }
  }

  /** Once the whole drain order is placed, every cache entry is. */
  lemma DrainFinished(e: Engine, cur: Engine, meshes: map<nat, Mesh>, entries: map<nat, CacheEntry>, drained: seq<nat>)
    requires IsIterationOrder(drained, entries)
    requires DrainedUpTo(e, cur, meshes, entries, drained, |drained|)
    ensures forall id :: id in entries ==> id in meshes && BatchPlaced(cur.locations, entries[id].drawIds, meshes[id])
    ensures forall d :: d in e.locations && (forall id :: id in entries ==> d !in entries[id].drawIds) ==>
      cur.locations[d] == e.locations[d]
  {
    forall id | id in entries
      ensures id in meshes && BatchPlaced(cur.locations, entries[id].drawIds, meshes[id])
    {
      var p :| 0 <= p < |drained| && drained[p] == id;
    }
    forall d | d in e.locations && (forall id :: id in entries ==> d !in entries[id].drawIds)
      ensures cur.locations[d] == e.locations[d]
    {
      assert forall p :: 0 <= p < |drained| ==> drained[p] in entries;
    }
  }

  /** The entry at position `k` of the drain order is ready for
      `add_mesh_to_pool`: its draw ids are distinct, known and still at
      their cached offsets. */
  lemma DrainReady(e: Engine, cur: Engine, meshes: map<nat, Mesh>, drained: seq<nat>, k: nat)
    requires Valid(e) && k < |drained| && IsIterationOrder(drained, e.cache)
    requires DrainedUpTo(e, cur, meshes, e.cache, drained, k)
    ensures var ids := e.cache[drained[k]].drawIds;
      && OffsetsFresh(cur.locations, ids)
      && (forall i, j :: 0 <= i < j < |ids| ==> ids[i] != ids[j])
      && (forall d :: d in ids ==> d in cur.locations)
  {
  }

  /** One turn of the drain loop: the entry at position `k` goes to
      `add_mesh_to_pool`, which panics exactly when its mesh is not loaded. */
  method DrainOne(e: Engine, cur: Engine, meshes: map<nat, Mesh>, drained: seq<nat>, k: nat, orderOf: IterationOrders)
      returns (r: Result<Engine>)
    requires Valid(e) && OrdersFaithful(orderOf) && k < |drained| && IsIterationOrder(drained, e.cache)
    requires PoolsValid(cur.pools) && DrainedUpTo(e, cur, meshes, e.cache, drained, k)
    ensures r.Panic? <==> drained[k] !in meshes
    ensures r.Ok? ==> PoolsValid(r.value.pools) && DrainedUpTo(e, r.value, meshes, e.cache, drained, k + 1)
  {
    var id := drained[k];
    var ids := e.cache[id].drawIds;
    DrainReady(e, cur, meshes, drained, k);
    var placed := AddMeshToPool(cur, meshes, id, e.cache[id].count, ids, orderOf);
    if placed.Panic? {
      return Panic(placed.reason);
    }
    DrainAdvance(e, cur, placed.value.0, placed.value.1, meshes, e.cache, drained, k);
    r := Ok(placed.value.0);
  }

  /** `add_cached_renderables`: the cache is drained, in some order, and
      every drained batch goes to `add_mesh_to_pool` with its count and
      draw ids, so that it ends up in one pool slot with consecutive
      instances; nothing else in the location table changes. A cached mesh
      that is not loaded panics. */
  method AddCachedRenderables(e: Engine, meshes: map<nat, Mesh>, drained: seq<nat>, orderOf: IterationOrders)
      returns (r: Result<Engine>)
    requires Valid(e) && OrdersFaithful(orderOf) && IsIterationOrder(drained, e.cache)
    ensures r.Panic? <==> exists id :: id in e.cache && id !in meshes
    ensures r.Ok? ==> Valid(r.value) && r.value.cache == map[]
    ensures r.Ok? ==> r.value == e.(cache := map[], locations := r.value.locations, pools := r.value.pools)
    ensures r.Ok? ==> r.value.locations.Keys == e.locations.Keys
    ensures r.Ok? ==> forall id :: id in e.cache ==> BatchPlaced(r.value.locations, e.cache[id].drawIds, meshes[id])
    ensures r.Ok? ==> forall d :: d in e.locations && (forall id :: id in e.cache ==> d !in e.cache[id].drawIds) ==>
      r.value.locations[d] == e.locations[d]
  {
    var entries := e.cache;
    var cur := e.(cache := map[]);
    var k := 0;
    while k < |drained|
      invariant 0 <= k <= |drained|
      invariant PoolsValid(cur.pools)
      invariant DrainedUpTo(e, cur, meshes, entries, drained, k)
    {
      var placed := DrainOne(e, cur, meshes, drained, k, orderOf);
      if placed.Panic? {
        return Panic(placed.reason);
      }
      cur := placed.value;
      k := k + 1;
    }
    DrainFinished(e, cur, meshes, entries, drained);
    r := Ok(cur);
  }
}

=== FILE: inertia_tensor.dfy ===
/** The diagonal of the inertia tensor about the centre of mass, for the
    shapes the engine can rotate. */
module InertiaTensor {
  import opened Base
  import opened Vectors
  import Collisions

  /** The source's decimal approximation of 1/12. */
  const ONE_TWELTH: real := 0.08333333333

  lemma ProductNonNegative(a: real, b: real)
    ensures a >= 0.0 && b >= 0.0 ==> a * b >= 0.0
  {
  }

  lemma SquareNonNegative(a: real)
    ensures a * a >= 0.0
  {
  }

  /** `k * m * (p^2 + q^2)`, the shape shared by the box components. */
  function BoxComponent(k: real, mass: real, p: real, q: real): (c: real)
    ensures k >= 0.0 && mass >= 0.0 ==> c >= 0.0
  {
    SquareNonNegative(p);
    SquareNonNegative(q);
    ProductNonNegative(k, mass);
    ProductNonNegative(k * mass, p * p + q * q);
    k * mass * (p * p + q * q)
  }

  /** `0.4 * m * r^2`, the sphere component. */
  function SphereComponent(mass: real, radius: real): (c: real)
    ensures mass >= 0.0 ==> c >= 0.0
  {
    SquareNonNegative(radius);
    ProductNonNegative(0.4 * mass, radius * radius);
    0.4 * mass * (radius * radius)
  }

  /** `moment_of_inertia`: a solid sphere of diameter `size.x` has
      `0.4 m r^2` on every axis; a box has `m (b^2 + c^2) / 12` about each
      axis from the two other extents; a convex hull panics. */
  function MomentOfInertia(kind: Collisions.ColliderType, size: Vec3, mass: real): (r: Result<Vec3>)
    ensures r.Panic? <==> kind.Convex?
    ensures r.Ok? && mass >= 0.0 ==> r.value.x >= 0.0 && r.value.y >= 0.0 && r.value.z >= 0.0
    ensures kind.Sphere? ==> r.Ok? && r.value.x == r.value.y == r.value.z
    ensures kind.Box? && size.y == size.z ==> r.Ok? && r.value.y == r.value.z
    ensures kind.Box? && size.x == size.y ==> r.Ok? && r.value.x == r.value.y
    ensures kind.Box? && size.x == size.z ==> r.Ok? && r.value.x == r.value.z
  {
    match kind
    case Sphere =>
      var radius := size.x * 0.5;
      var c := SphereComponent(mass, radius);
      Ok(Vec3(c, c, c))
    case Box =>
      Ok(Vec3(BoxComponent(ONE_TWELTH, mass, size.y, size.z),
              BoxComponent(ONE_TWELTH, mass, size.x, size.z),
              BoxComponent(ONE_TWELTH, mass, size.y, size.x)))
    case Convex => Panic("not implemented")
  }

  /** The sphere's tensor reads only the x extent of the scale. */
  lemma SphereUsesOnlyX(size1: Vec3, size2: Vec3, mass: real)
    requires size1.x == size2.x
    ensures MomentOfInertia(Collisions.Sphere, size1, mass) == MomentOfInertia(Collisions.Sphere, size2, mass)
  {
  }

  lemma BoxComponentLinear(k: real, mass: real, p: real, q: real, t: real)
    ensures BoxComponent(k, t * mass, p, q) == BoxComponent(k, mass, p, q) * t
  {
    var w := p * p + q * q;
    assert k * (t * mass) * w == (k * mass * w) * t;
  }

  lemma SphereComponentLinear(mass: real, radius: real, t: real)
    ensures SphereComponent(t * mass, radius) == SphereComponent(mass, radius) * t
  {
    var w := radius * radius;
    assert 0.4 * (t * mass) * w == (0.4 * mass * w) * t;
  }
}

=== FILE: mesh.dfy ===
/** Mesh loading without the file parsing: the loop that interleaves the
    position, normal and texture-coordinate arrays of an OBJ model into
    8-float vertices, and the rescaling of vertex positions into the unit
    box centred on the origin. */
module MeshLoading {
  import opened Base
  import opened Vectors

  const N_FLOATS_PER_VERTEX: nat := 8
  const N_VERTEX_ATTRIBS: nat := 3

  /** The number of floats the interleaving loop writes: `len * 8 / 3`,
      with integer division. */
  function Total(nPositions: nat): (r: nat)
    ensures r == 8 * (nPositions / 3) + (if nPositions % 3 == 0 then 0 else if nPositions % 3 == 1 then 2 else 5)
  {
    assert nPositions * 8 == 3 * (8 * (nPositions / 3)) + 8 * (nPositions % 3);
    nPositions * N_FLOATS_PER_VERTEX / N_VERTEX_ATTRIBS
  }

  /** The read made for output float `t`: slots 0-2 of each group of 8 read
      the next position, slots 3-5 the next normal, slots 6-7 the next
      texture coordinate. */
  predicate ReadInBounds(positions: seq<real>, normals: seq<real>, texcoords: seq<real>, t: nat)
  {
    var g, a := t / 8, t % 8;
    if a < 3 then 3 * g + a < |positions|
    else if a < 6 then 3 * g + (a - 3) < |normals|
    else 2 * g + (a - 6) < |texcoords|
  }

  function SlotValue(positions: seq<real>, normals: seq<real>, texcoords: seq<real>, t: nat): real
    requires ReadInBounds(positions, normals, texcoords, t)
  {
    var g, a := t / 8, t % 8;
    if a < 3 then positions[3 * g + a]
    else if a < 6 then normals[3 * g + (a - 3)]
    else texcoords[2 * g + (a - 6)]
  }

  /** The loop reads only existing elements. */
  predicate InterleaveDefined(positions: seq<real>, normals: seq<real>, texcoords: seq<real>)
  {
    forall t :: 0 <= t < Total(|positions|) ==> ReadInBounds(positions, normals, texcoords, t)
  }

  /** The interleaved vertex array, defined float by float. */
  function Interleaved(positions: seq<real>, normals: seq<real>, texcoords: seq<real>): (r: seq<real>)
    requires InterleaveDefined(positions, normals, texcoords)
    ensures |r| == Total(|positions|)
    ensures forall t :: 0 <= t < |r| ==> r[t] == SlotValue(positions, normals, texcoords, t)
  {
    seq(Total(|positions|), t requires 0 <= t < Total(|positions|) => SlotValue(positions, normals, texcoords, t))
  }

  /** How many positions, normals and texture coordinates the loop has read
      after writing `k` floats. */
  function PosRead(k: nat): nat { 3 * (k / 8) + (if k % 8 < 3 then k % 8 else 3) }
  function NormalRead(k: nat): nat { 3 * (k / 8) + (if k % 8 < 3 then 0 else if k % 8 < 6 then k % 8 - 3 else 3) }
  function TexRead(k: nat): nat { 2 * (k / 8) + (if k % 8 < 6 then 0 else k % 8 - 6) }

  lemma DivModStep(k: nat)
    ensures k % 8 < 7 ==> (k + 1) / 8 == k / 8 && (k + 1) % 8 == k % 8 + 1
    ensures k % 8 == 7 ==> (k + 1) / 8 == k / 8 + 1 && (k + 1) % 8 == 0
  {
  }

  /** The interleaving loop of `from_obj`. Reading past the end of one of
      the arrays is an index panic. */
  method Interleave(positions: seq<real>, normals: seq<real>, texcoords: seq<real>) returns (r: Result<seq<real>>)
    ensures r.Ok? <==> InterleaveDefined(positions, normals, texcoords)
    ensures r.Ok? ==> r.value == Interleaved(positions, normals, texcoords)
  {
    var total := |positions| * N_FLOATS_PER_VERTEX / N_VERTEX_ATTRIBS;
    var verts: seq<real> := [];
    var vertIndex, vertAttrib := 0, 0;
    var posIndex, normalIndex, texIndex := 0, 0, 0;
    while vertIndex < total
      invariant 0 <= vertIndex <= total && total == Total(|positions|)
      invariant vertAttrib == (if vertIndex == 0 then 0 else (vertIndex - 1) % 8 + 1)
      invariant posIndex == PosRead(vertIndex) && normalIndex == NormalRead(vertIndex) && texIndex == TexRead(vertIndex)
      invariant |verts| == vertIndex
      invariant forall t :: 0 <= t < vertIndex ==> ReadInBounds(positions, normals, texcoords, t)
      invariant forall t :: 0 <= t < vertIndex ==> verts[t] == SlotValue(positions, normals, texcoords, t)
    {
      if vertAttrib == N_FLOATS_PER_VERTEX {
        vertAttrib := 0;
      }
      assert vertAttrib == vertIndex % 8 by {
        if vertIndex > 0 {
          DivModStep(vertIndex - 1);
        }
      }
      DivModStep(vertIndex);
      if vertAttrib < 3 {
        if posIndex >= |positions| {
          assert !ReadInBounds(positions, normals, texcoords, vertIndex);
          return Panic("index out of bounds");
        }
        verts := verts + [positions[posIndex]];
        posIndex := posIndex + 1;
      } else if vertAttrib < 6 {
        if normalIndex >= |normals| {
          assert !ReadInBounds(positions, normals, texcoords, vertIndex);
          return Panic("index out of bounds");
        }
        verts := verts + [normals[normalIndex]];
        normalIndex := normalIndex + 1;
      } else if vertAttrib < 8 {
        if texIndex >= |texcoords| {
          assert !ReadInBounds(positions, normals, texcoords, vertIndex);
          return Panic("index out of bounds");
        }
        verts := verts + [texcoords[texIndex]];
        texIndex := texIndex + 1;
      }
      vertIndex := vertIndex + 1;
      vertAttrib := vertAttrib + 1;
    }
    return Ok(verts);
  }

  /** The loop succeeds exactly when the positions come in whole triples and
      there are at least as many normals and two texture coordinates per
      vertex. */
  lemma InterleaveDefinedIff(positions: seq<real>, normals: seq<real>, texcoords: seq<real>)
    ensures InterleaveDefined(positions, normals, texcoords) <==>
      (|positions| % 3 == 0 && |normals| >= |positions| && |texcoords| >= 2 * (|positions| / 3))
  {
    var n := |positions|;
    var q := n / 3;
    if n % 3 == 1 {
      assert Total(n) == 8 * q + 2;
      assert !ReadInBounds(positions, normals, texcoords, 8 * q + 1);
    } else if n % 3 == 2 {
      assert Total(n) == 8 * q + 5;
      assert !ReadInBounds(positions, normals, texcoords, 8 * q + 2);
    } else {
      assert Total(n) == 8 * q;
      if q > 0 {
        if |normals| < n {
          assert !ReadInBounds(positions, normals, texcoords, 8 * (q - 1) + 5);
        }
        if |texcoords| < 2 * q {
          assert !ReadInBounds(positions, normals, texcoords, 8 * (q - 1) + 7);
        }
      }
      if |normals| >= n && |texcoords| >= 2 * q {
        forall t | 0 <= t < Total(n)
          ensures ReadInBounds(positions, normals, texcoords, t)
        {
          assert t / 8 < q;
        }
      }
    }
  }

  /** Splits an interleaved vertex array back into its three attribute
      arrays. */
  function Deinterleave(verts: seq<real>): (r: (seq<real>, seq<real>, seq<real>))
    requires |verts| % 8 == 0
    ensures |r.0| == 3 * (|verts| / 8) && |r.1| == 3 * (|verts| / 8) && |r.2| == 2 * (|verts| / 8)
  {
    var n := |verts| / 8;
    (seq(3 * n, i requires 0 <= i < 3 * n => (TripleSlot(i, n); verts[8 * (i / 3) + i % 3])),
     seq(3 * n, i requires 0 <= i < 3 * n => (TripleSlot(i, n); verts[8 * (i / 3) + 3 + i % 3])),
     seq(2 * n, i requires 0 <= i < 2 * n => (PairSlot(i, n); verts[8 * (i / 2) + 6 + i % 2])))
  }

  /** Component `i` of a three-float attribute lives in vertex `i / 3`. */
  lemma TripleSlot(i: nat, n: nat)
    ensures i < 3 * n ==> i / 3 < n && 8 * (i / 3) + 5 < 8 * n
  {
  }

  /** Component `i` of a two-float attribute lives in vertex `i / 2`. */
  lemma PairSlot(i: nat, n: nat)
    ensures i < 2 * n ==> i / 2 < n && 8 * (i / 2) + 7 < 8 * n
  {
  }

  /** Splitting the interleaved array gives back the positions, and the
      normals and texture coordinates the loop read. */
  lemma DeinterleaveInterleaved(positions: seq<real>, normals: seq<real>, texcoords: seq<real>)
    requires InterleaveDefined(positions, normals, texcoords)
    ensures |positions| % 3 == 0 && |normals| >= |positions| && |texcoords| >= 2 * (|positions| / 3)
    ensures Deinterleave(Interleaved(positions, normals, texcoords)) ==
      (positions, normals[..|positions|], texcoords[..2 * (|positions| / 3)])
  {
    InterleaveDefinedIff(positions, normals, texcoords);
    DeinterleavedPositions(positions, normals, texcoords);
    DeinterleavedNormals(positions, normals, texcoords);
    DeinterleavedTexcoords(positions, normals, texcoords);
    var d := Deinterleave(Interleaved(positions, normals, texcoords));
    assert d == (d.0, d.1, d.2);
  }

  /** Slot `a` of vertex `g` sits at index `8g + a`. */
  lemma GroupSlot(g: nat, a: nat)
    requires a < 8
    ensures (8 * g + a) / 8 == g && (8 * g + a) % 8 == a
  {
  }

  /** Float `8g + a` of the interleaved array, read back by vertex and slot. */
  lemma InterleavedAt(positions: seq<real>, normals: seq<real>, texcoords: seq<real>, g: nat, a: nat)
    requires InterleaveDefined(positions, normals, texcoords)
    requires a < 8 && 8 * g + a < Total(|positions|)
    ensures a < 3 ==> (3 * g + a < |positions| &&
      Interleaved(positions, normals, texcoords)[8 * g + a] == positions[3 * g + a])
    ensures 3 <= a < 6 ==> (3 * g + a - 3 < |normals| &&
      Interleaved(positions, normals, texcoords)[8 * g + a] == normals[3 * g + a - 3])
    ensures 6 <= a ==> (2 * g + a - 6 < |texcoords| &&
      Interleaved(positions, normals, texcoords)[8 * g + a] == texcoords[2 * g + a - 6])
  {
    var t := 8 * g + a;
    GroupSlot(g, a);
    assert ReadInBounds(positions, normals, texcoords, t);
    assert Interleaved(positions, normals, texcoords)[t] == SlotValue(positions, normals, texcoords, t);
  }

  lemma DeinterleavedPositions(positions: seq<real>, normals: seq<real>, texcoords: seq<real>)
    requires InterleaveDefined(positions, normals, texcoords)
    requires |positions| % 3 == 0 && |normals| >= |positions| && |texcoords| >= 2 * (|positions| / 3)
    ensures Deinterleave(Interleaved(positions, normals, texcoords)).0 == positions
  {
    var q := |positions| / 3;
    var v := Interleaved(positions, normals, texcoords);
    var d := Deinterleave(v);
    assert |v| / 8 == q;
    forall i | 0 <= i < |positions|
      ensures d.0[i] == positions[i]
    {
      var g, a := i / 3, i % 3;
      assert g < q && i == 3 * g + a;
      InterleavedAt(positions, normals, texcoords, g, a);
      assert d.0[i] == v[8 * g + a];
    }
  }

  lemma DeinterleavedNormals(positions: seq<real>, normals: seq<real>, texcoords: seq<real>)
    requires InterleaveDefined(positions, normals, texcoords)
    requires |positions| % 3 == 0 && |normals| >= |positions| && |texcoords| >= 2 * (|positions| / 3)
    ensures Deinterleave(Interleaved(positions, normals, texcoords)).1 == normals[..|positions|]
  {
    var q := |positions| / 3;
    var v := Interleaved(positions, normals, texcoords);
    var d := Deinterleave(v);
    assert |v| / 8 == q;
    forall i | 0 <= i < |positions|
      ensures d.1[i] == normals[i]
    {
      var g, a := i / 3, i % 3;
      assert g < q && i == 3 * g + a;
      InterleavedAt(positions, normals, texcoords, g, a + 3);
      assert d.1[i] == v[8 * g + a + 3];
    }
  }

  lemma DeinterleavedTexcoords(positions: seq<real>, normals: seq<real>, texcoords: seq<real>)
    requires InterleaveDefined(positions, normals, texcoords)
    requires |positions| % 3 == 0 && |normals| >= |positions| && |texcoords| >= 2 * (|positions| / 3)
    ensures Deinterleave(Interleaved(positions, normals, texcoords)).2 == texcoords[..2 * (|positions| / 3)]
  {
    var q := |positions| / 3;
    var v := Interleaved(positions, normals, texcoords);
    var d := Deinterleave(v);
    assert |v| / 8 == q;
    forall i | 0 <= i < 2 * q
      ensures d.2[i] == texcoords[i]
    {
      var g, a := i / 2, i % 2;
      assert g < q && i == 2 * g + a;
      InterleavedAt(positions, normals, texcoords, g, a + 6);
      assert d.2[i] == v[8 * g + a + 6];
    }
  }

  /** An `f32` result of the rescaling: a finite value, or the infinity or
      NaN a division by a zero range gives. */
  datatype F32 = Finite(v: real) | NonFinite

  /** `1.0 * (v - lo) / (hi - lo) - 0.5` in `f32`. */
  function Rescale(v: real, lo: real, hi: real): (r: F32)
    ensures hi == lo <==> r.NonFinite?
    ensures hi > lo && lo <= v <= hi ==> -0.5 <= r.v <= 0.5
  {
    if hi == lo then NonFinite
    else
      RatioInUnit(v - lo, hi - lo);
      Finite((v - lo) / (hi - lo) - 0.5)
  }

  lemma RatioInUnit(a: real, d: real)
    ensures d > 0.0 && 0.0 <= a <= d ==> 0.0 <= a / d <= 1.0
  {
    if d > 0.0 && 0.0 <= a <= d {
      assert a / d * d == a;
    }
  }

  /** The first pass of `scale_vertices_into_range` for one coordinate
      (`axis` 0, 1 or 2 of each 8-float vertex) over the first `n` floats: the
      tracker starts at 0 and takes the `f32::min` with each coordinate. */
  function Lo(verts: seq<real>, axis: nat, n: nat): (m: real)
    requires n <= |verts|
    ensures m <= 0.0
    ensures forall i :: 0 <= i < n && i % 8 == axis ==> m <= verts[i]
    ensures m == 0.0 || exists i :: 0 <= i < n && i % 8 == axis && verts[i] == m
  {
    if n == 0 then 0.0
    else if (n - 1) % 8 == axis then RealMin(Lo(verts, axis, n - 1), verts[n - 1])
    else Lo(verts, axis, n - 1)
  }

  /** The same pass with `f32::max`. */
  function Hi(verts: seq<real>, axis: nat, n: nat): (m: real)
    requires n <= |verts|
    ensures m >= 0.0
    ensures forall i :: 0 <= i < n && i % 8 == axis ==> verts[i] <= m
    ensures m == 0.0 || exists i :: 0 <= i < n && i % 8 == axis && verts[i] == m
  {
    if n == 0 then 0.0
    else if (n - 1) % 8 == axis then RealMax(Hi(verts, axis, n - 1), verts[n - 1])
    else Hi(verts, axis, n - 1)
  }

  /** The bounds of one coordinate over the whole array. */
  function MinOf(verts: seq<real>, axis: nat): real { Lo(verts, axis, |verts|) }
  function MaxOf(verts: seq<real>, axis: nat): real { Hi(verts, axis, |verts|) }

  /** `scale_vertices_into_range` as written: the second pass rescales the
      x, y and z coordinates all with the x range, and floats in slots 3-7
      (normal, texture coordinate) are kept. */
  function ScaleAsWritten(verts: seq<real>): (r: seq<F32>)
    ensures |r| == |verts|
    ensures forall i :: 0 <= i < |verts| && i % 8 >= 3 ==> r[i] == Finite(verts[i])
    ensures MaxOf(verts, 0) > MinOf(verts, 0) ==>
      forall i :: 0 <= i < |verts| && i % 8 == 0 ==> r[i].Finite? && -0.5 <= r[i].v <= 0.5
  {
    var lo, hi := MinOf(verts, 0), MaxOf(verts, 0);
    seq(|verts|, i requires 0 <= i < |verts| => if i % 8 < 3 then Rescale(verts[i], lo, hi) else Finite(verts[i]))
  }

  /** A vertex whose y exceeds every x: the as-written rescaling puts its y
      outside the unit box. */
  lemma ScaleAsWrittenLeavesBox()
    ensures var verts := [1.0, 4.0, 0.0, 0.0, 0.0, 0.0, 0.0, 0.0];
      ScaleAsWritten(verts)[1] == Finite(3.5)
  {
    var verts := [1.0, 4.0, 0.0, 0.0, 0.0, 0.0, 0.0, 0.0];
    // Slot 0 of the only vertex holds the one x coordinate, 1.0.
    assert forall i :: 0 <= i < |verts| && i % 8 == 0 ==> i == 0;
    assert MinOf(verts, 0) == 0.0;
    assert MaxOf(verts, 0) == 1.0;
  }

  /** `scale_vertices_into_range` with each coordinate rescaled by its own
      range: every coordinate whose range is not zero lands in
      `[-0.5, 0.5]`; a coordinate that is 0 in every vertex has a zero range
      and becomes non-finite. Normals and texture coordinates are kept. */
  function Scale(verts: seq<real>): (r: seq<F32>)
    ensures |r| == |verts|
    ensures forall i :: 0 <= i < |verts| && i % 8 >= 3 ==> r[i] == Finite(verts[i])
    ensures forall i :: 0 <= i < |verts| && i % 8 < 3 ==>
      (MaxOf(verts, i % 8) > MinOf(verts, i % 8) ==> r[i].Finite? && -0.5 <= r[i].v <= 0.5)
      && (MaxOf(verts, i % 8) == MinOf(verts, i % 8) ==> r[i].NonFinite?)
  {
    seq(|verts|, i requires 0 <= i < |verts| =>
      if i % 8 < 3 then Rescale(verts[i], MinOf(verts, i % 8), MaxOf(verts, i % 8)) else Finite(verts[i]))
  }

  /** The corrected rescaling agrees with the one as written on x, and on
      every coordinate of a mesh whose three ranges coincide. */
  lemma ScaleAgreesOnX(verts: seq<real>)
    ensures forall i :: 0 <= i < |verts| && i % 8 == 0 ==> Scale(verts)[i] == ScaleAsWritten(verts)[i]
    ensures MinOf(verts, 1) == MinOf(verts, 0) == MinOf(verts, 2) && MaxOf(verts, 1) == MaxOf(verts, 0) == MaxOf(verts, 2)
      ==> Scale(verts) == ScaleAsWritten(verts)
  {
  }

  /** The size `scale_vertices_into_range` returns: the absolute extent of
      each coordinate, which is its range since the trackers start at 0. */
  function OriginalSize(verts: seq<real>): (s: Vec3)
    ensures s.x == MaxOf(verts, 0) - MinOf(verts, 0) >= 0.0
    ensures s.y == MaxOf(verts, 1) - MinOf(verts, 1) >= 0.0
    ensures s.z == MaxOf(verts, 2) - MinOf(verts, 2) >= 0.0
  {
    Vec3(RealAbs(MaxOf(verts, 0) - MinOf(verts, 0)),
         RealAbs(MaxOf(verts, 1) - MinOf(verts, 1)),
         RealAbs(MaxOf(verts, 2) - MinOf(verts, 2)))
  }

  /** A mesh with a coordinate that is non-zero somewhere has a positive
      size on that axis, and rescaling keeps that coordinate finite. */
  lemma NonZeroCoordinateHasSize(verts: seq<real>, i: nat)
    requires i < |verts| && i % 8 < 3 && verts[i] != 0.0
    ensures var s := OriginalSize(verts);
      (if i % 8 == 0 then s.x else if i % 8 == 1 then s.y else s.z) > 0.0
    ensures Scale(verts)[i].Finite?
  {
  }
}

=== FILE: meshpool.dfy ===
/** The bookkeeping of one mesh pool, with the GPU buffers stripped out: the
    queue of free vertex slots, the bitmap of free instance slots and its
    free counter, the indirect draw commands, and the maps from a vertex slot
    to its first instance slot and to the static mesh it holds. Vertex and
    index bytes copied into mapped buffers are not modelled; only the fields
    the pool reads back are. */
module MeshPool {
  import opened Base

  /** Bytes of vertex data a pool aims to hold per expansion, 2^24. */
  const TARGET_MESHPOOL_BASE_SIZE: nat := 16777216

  /** Floats per interleaved vertex (position, normal, texture coordinate)
      and bytes per float. */
  const N_FLOATS_PER_VERTEX: nat := 8
  const FLOAT_NBYTES: nat := 4

  /** One indirect draw command; an `indiceCount` of 0 means "draw nothing". */
  datatype DrawCommand = DrawCommand(
    indiceCount: nat,
    instanceCount: nat,
    start: int,
    baseVertex: int,
    baseInstance: int)

  /** `IndirectDrawCommand::new`. */
  const NEW_COMMAND: DrawCommand := DrawCommand(0, 1, 0, 0, 0)

  datatype Pool = Pool(
    meshVertexNbytes: nat,
    meshIndexNbytes: nat,
    baseMeshCapacity: nat,
    meshCapacity: nat,
    baseInstancedCapacity: nat,
    instancedCapacity: nat,
    drawCommands: seq<DrawCommand>,
    drawcount: int,
    availableSlots: seq<int>,          // front of the queue first
    freeInstances: seq<bool>,          // true = instance slot free
    nAvailable: int,
    vertexToInstanced: map<int, int>,
    slotContents: map<int, int>)       // vertex slot -> uuid of a static mesh

  /** Number of free entries of an instance bitmap. */
  function CountFree(bits: seq<bool>): (n: nat)
    ensures n <= |bits|
  {
    if |bits| == 0 then 0
    else CountFree(bits[..|bits| - 1]) + (if bits[|bits| - 1] then 1 else 0)
  }

  lemma {:induction false} CountFreeAppend(a: seq<bool>, b: seq<bool>)
    ensures CountFree(a + b) == CountFree(a) + CountFree(b)
    decreases |b|
  {
    if |b| == 0 {
      assert a + b == a;
    } else {
      var b' := b[..|b| - 1];
      assert (a + b)[..|a + b| - 1] == a + b';
      CountFreeAppend(a, b');
    }
  }

  lemma {:induction false} CountFreeAllFree(n: nat)
    ensures CountFree(seq(n, _ => true)) == n
  {
    if n > 0 {
      assert seq(n, _ => true)[..n - 1] == seq(n - 1, _ => true);
      CountFreeAllFree(n - 1);
    }
  }

  /** Taking one free entry lowers the count by exactly one. */
  lemma CountFreeTakeOne(bits: seq<bool>, i: nat)
    requires i < |bits| && bits[i]
    ensures CountFree(bits[i := false]) == CountFree(bits) - 1
  {
    var a, c := bits[..i], bits[i + 1..];
    assert bits == (a + [true]) + c;
    assert bits[i := false] == (a + [false]) + c;
    CountFreeAppend(a + [true], c);
    CountFreeAppend(a + [false], c);
    CountFreeAppend(a, [true]);
    CountFreeAppend(a, [false]);
    assert [true][..0] == [] == [false][..0];
  }

  /** `Vec::resize` and `Vec::resize_with`: cut to `n`, or pad with `fill`. */
  function Resize<T>(s: seq<T>, n: nat, fill: T): (r: seq<T>)
    ensures |r| == n
    ensures forall k :: 0 <= k < n && k < |s| ==> r[k] == s[k]
    ensures forall k :: |s| <= k < n ==> r[k] == fill
  {
    if n <= |s| then s[..n] else s + seq(n - |s|, _ => fill)
  }

  /** The invariant every operation of the pool keeps: one draw command per
      vertex slot, one bitmap entry per instance slot, the free counter equal
      to the number of free entries, and every slot the pool hands out or
      remembers inside the vertex buffer. */
  predicate Valid(p: Pool)
  {
    |p.drawCommands| == p.meshCapacity
    && |p.freeInstances| == p.instancedCapacity
    && p.nAvailable == CountFree(p.freeInstances)
    && p.baseMeshCapacity >= 1 && p.baseInstancedCapacity >= 1
    && (forall k :: 0 <= k < |p.availableSlots| ==> 0 <= p.availableSlots[k] < p.meshCapacity)
    && (forall s :: s in p.vertexToInstanced ==> 0 <= s < p.meshCapacity && p.vertexToInstanced[s] >= 0)
    && p.slotContents.Keys <= p.vertexToInstanced.Keys
  }

  /** The sizes fixed when a pool is made: bytes per vertex slot and per
      index slot, and the growth steps of both buffers. */
  predicate SameSizes(p: Pool, q: Pool)
  {
    p.meshVertexNbytes == q.meshVertexNbytes && p.meshIndexNbytes == q.meshIndexNbytes
    && p.baseMeshCapacity == q.baseMeshCapacity && p.baseInstancedCapacity == q.baseInstancedCapacity
  }

  /** `expand_vbo`: the next `base` slot numbers join the back of the queue
      in increasing order, and the draw commands grow with default ones. */
  function ExpandVbo(p: Pool): (r: Pool)
    ensures r.meshCapacity == p.meshCapacity + p.baseMeshCapacity
    ensures |r.availableSlots| == |p.availableSlots| + p.baseMeshCapacity
    ensures r.availableSlots[..|p.availableSlots|] == p.availableSlots
    ensures forall k :: |p.availableSlots| <= k < |r.availableSlots| ==> r.availableSlots[k] == p.meshCapacity + (k - |p.availableSlots|)
    ensures r.drawCommands == Resize(p.drawCommands, r.meshCapacity, NEW_COMMAND)
    ensures r == p.(meshCapacity := r.meshCapacity, availableSlots := r.availableSlots, drawCommands := r.drawCommands)
  {
    var cap := p.meshCapacity + p.baseMeshCapacity;
    p.(availableSlots := p.availableSlots + seq(p.baseMeshCapacity, k => p.meshCapacity + k),
       meshCapacity := cap,
       drawCommands := Resize(p.drawCommands, cap, NEW_COMMAND))
  }

  /** Growing the vertex buffer keeps the pool valid and every existing draw
      command as it was. */
  lemma ExpandVboPreservesValid(p: Pool)
    requires Valid(p)
    ensures Valid(ExpandVbo(p))
    ensures ExpandVbo(p).drawCommands[..p.meshCapacity] == p.drawCommands
  {
    var r := ExpandVbo(p);
    forall k | 0 <= k < |r.availableSlots|
      ensures 0 <= r.availableSlots[k] < r.meshCapacity
    {
      if k < |p.availableSlots| {
        assert r.availableSlots[k] == r.availableSlots[..|p.availableSlots|][k];
      }
    }
  }

  /** `expand_mvbo`: capacity and free counter both grow by `base * size`
      and the bitmap is extended to the new capacity with free entries. */
  function ExpandMvbo(p: Pool, size: nat): (r: Pool)
    ensures r.instancedCapacity == p.instancedCapacity + p.baseInstancedCapacity * size
    ensures r.nAvailable == p.nAvailable + p.baseInstancedCapacity * size
    ensures r.freeInstances == Resize(p.freeInstances, r.instancedCapacity, true)
    ensures r == p.(instancedCapacity := r.instancedCapacity, nAvailable := r.nAvailable, freeInstances := r.freeInstances)
  {
    var cap := p.instancedCapacity + p.baseInstancedCapacity * size;
    p.(instancedCapacity := cap,
       nAvailable := p.nAvailable + p.baseInstancedCapacity * size,
       freeInstances := Resize(p.freeInstances, cap, true))
  }

  /** On a valid pool the expansion only appends: every old entry keeps its
      state, the new ones are free, and the counter still matches. */
  lemma ExpandMvboPreservesValid(p: Pool, size: nat)
    requires Valid(p)
    ensures Valid(ExpandMvbo(p, size))
    ensures ExpandMvbo(p, size).freeInstances == p.freeInstances + seq(p.baseInstancedCapacity * size, _ => true)
  {
    var n := p.baseInstancedCapacity * size;
    var r := ExpandMvbo(p, size);
    assert r.freeInstances == p.freeInstances + seq(n, _ => true);
    CountFreeAppend(p.freeInstances, seq(n, _ => true));
    CountFreeAllFree(n);
  }

  /** The `count` entries from `s` on lie inside the bitmap and are free. */
  predicate RunFree(bits: seq<bool>, s: int, count: nat)
  {
    0 <= s && s + count <= |bits| && forall k :: s <= k < s + count ==> bits[k]
  }

  /** The bitmap with entries `s .. s+count-1` marked taken. */
  function TakeRun(bits: seq<bool>, s: nat, count: nat): (r: seq<bool>)
    requires s + count <= |bits|
    ensures |r| == |bits|
    ensures forall k :: s <= k < s + count ==> !r[k]
    ensures forall k :: 0 <= k < |bits| && !(s <= k < s + count) ==> r[k] == bits[k]
  {
    seq(|bits|, k requires 0 <= k < |bits| => if s <= k < s + count then false else bits[k])
  }

  lemma {:induction false} CountFreeTakeRun(bits: seq<bool>, s: nat, count: nat)
    requires RunFree(bits, s, count)
    ensures CountFree(TakeRun(bits, s, count)) == CountFree(bits) - count
    decreases count
  {
    if count == 0 {
      assert TakeRun(bits, s, 0) == bits;
    } else {
      var prev := TakeRun(bits, s, count - 1);
      CountFreeTakeRun(bits, s, count - 1);
      assert prev[s + count - 1];
      assert TakeRun(bits, s, count) == prev[s + count - 1 := false];
      CountFreeTakeOne(prev, s + count - 1);
    }
  }

  /** Marks a free run taken and lowers the counter by its length. */
  function Take(p: Pool, s: nat, count: nat): (r: Pool)
    requires Valid(p) && RunFree(p.freeInstances, s, count)
    ensures Valid(r)
    ensures r.freeInstances == TakeRun(p.freeInstances, s, count)
    ensures r == p.(nAvailable := r.nAvailable, freeInstances := r.freeInstances)
  {
    CountFreeTakeRun(p.freeInstances, s, count);
    p.(nAvailable := p.nAvailable - count, freeInstances := TakeRun(p.freeInstances, s, count))
  }

  /** The first position at or after `from` where `count` free entries
      start, if any. */
  function FirstFreeRun(bits: seq<bool>, count: nat, from: nat): (r: Option<nat>)
    ensures r.Some? ==> from <= r.value && RunFree(bits, r.value, count)
    ensures r.Some? ==> forall s :: from <= s < r.value ==> !RunFree(bits, s, count)
    ensures r.None? ==> forall s :: from <= s ==> !RunFree(bits, s, count)
    decreases |bits| - from
  {
    if from + count > |bits| then None
    else if RunFree(bits, from, count) then Some(from)
    else FirstFreeRun(bits, count, from + 1)
  }

  /** After `expand_mvbo(ceil(count / base))` the appended entries alone
      hold a free run of length `count`. */
  lemma ExpandedHasRun(p: Pool, count: nat)
    requires Valid(p)
    ensures FirstFreeRun(ExpandMvbo(p, CeilDiv(count, p.baseInstancedCapacity)).freeInstances, count, 0).Some?
  {
    var c := CeilDiv(count, p.baseInstancedCapacity);
    ExpandMvboPreservesValid(p, c);
    var bits := ExpandMvbo(p, c).freeInstances;
    assert p.baseInstancedCapacity * c >= count;
    assert RunFree(bits, |p.freeInstances|, count);
  }

  /** The bitmap `b` is `a` with free entries appended. */
  predicate Grown(a: seq<bool>, b: seq<bool>)
  {
    |a| <= |b| && forall i :: 0 <= i < |b| ==> b[i] == (i >= |a| || a[i])
  }

  /** The bitmap `b` is `a` with free entries appended and then the run
      `s .. s+count-1` taken; every entry of the run was free in `a` or is
      new, so nothing already handed out is handed out again. */
  predicate TakenFrom(a: seq<bool>, b: seq<bool>, s: int, count: nat)
  {
    0 <= s && s + count <= |b| && |a| <= |b|
    && (forall i :: s <= i < s + count ==> !b[i] && (i < |a| ==> a[i]))
    && (forall i :: 0 <= i < |b| && !(s <= i < s + count) ==> b[i] == (i >= |a| || a[i]))
  }

  lemma GrownTransitive(a: seq<bool>, b: seq<bool>, c: seq<bool>)
    requires Grown(a, b) && Grown(b, c)
    ensures Grown(a, c)
  {
  }

  /** The run `s .. s+count-1` is taken in `b` and every entry of it was
      free in `a` or is new. */
  predicate NewlyTaken(a: seq<bool>, b: seq<bool>, s: int, count: nat)
  {
    0 <= s && s + count <= |b|
    && forall i :: s <= i < s + count ==> !b[i] && (i < |a| ==> a[i])
  }

  lemma TakenThenTaken(a: seq<bool>, b: seq<bool>, c: seq<bool>, s0: int, s: int, count: nat)
    requires TakenFrom(a, b, s0, count) && TakenFrom(b, c, s, count)
    ensures NewlyTaken(a, c, s, count)
  {
  }

  lemma GrownThenTaken(a: seq<bool>, b: seq<bool>, c: seq<bool>, s: int, count: nat)
    requires Grown(a, b) && TakenFrom(b, c, s, count)
    ensures TakenFrom(a, c, s, count)
  {
  }

  /** `find_instance_slot` with the first-fit search its comments describe:
      the first run of `count` free instance slots is taken; when there is
      none the instance buffer grows by `ceil(count / base)` expansions and
      the search starts over. */
  function FindInstanceSlot(p: Pool, count: nat): (r: (Pool, nat))
    requires Valid(p) && count >= 1
    ensures Valid(r.0)
    ensures r.0 == p.(instancedCapacity := r.0.instancedCapacity, nAvailable := r.0.nAvailable, freeInstances := r.0.freeInstances)
    ensures TakenFrom(p.freeInstances, r.0.freeInstances, r.1, count)
    ensures RunFree(p.freeInstances, r.1, count) || forall s :: 0 <= s ==> !RunFree(p.freeInstances, s, count)
    ensures forall s :: 0 <= s < r.1 ==> !RunFree(p.freeInstances, s, count)
    decreases if FirstFreeRun(p.freeInstances, count, 0).Some? then 0 else 1
  {
    var f := FirstFreeRun(p.freeInstances, count, 0);
    if f.Some? then
      (Take(p, f.value, count), f.value)
    else
      var q := ExpandMvbo(p, CeilDiv(count, p.baseInstancedCapacity));
      ExpandMvboPreservesValid(p, CeilDiv(count, p.baseInstancedCapacity));
      ExpandedHasRun(p, count);
      var r := FindInstanceSlot(q, count);
      GrownThenTaken(p.freeInstances, q.freeInstances, r.0.freeInstances, r.1, count);
      r
  }

  /** What one pass of `find_instance_slot` as written yields: the slot it
      reports (-1 for none), the `gap` it computed, and the entries it marks
      taken. */
  datatype Scan = Scan(found: int, gap: int, taken: seq<int>)

  /** Every listed entry is inside the bitmap and free, in increasing order. */
  predicate FreeAscending(bits: seq<bool>, taken: seq<int>)
  {
    (forall k :: 0 <= k < |taken| ==> 0 <= taken[k] < |bits| && bits[taken[k]])
    && (forall i, j :: 0 <= i < j < |taken| ==> taken[i] < taken[j])
  }

  /** The outer loop of the scan, at iterator position `it` with the
      separate `slot` counter the source keeps. */
  function ScanOuter(bits: seq<bool>, count: nat, it: nat, slot: int): (r: Scan)
    requires it <= |bits| && slot >= it - 1 && (count == 1 ==> slot == it - 1)
    ensures r.gap >= 0
    ensures FreeAscending(bits, r.taken)
    decreases |bits| - it, count + 1
  {
    if it == |bits| then Scan(-1, 0, [])
    else if !bits[it] then ScanOuter(bits, count, it + 1, slot + 1)
    else if count == 1 then Scan(slot + 1, 0, [slot + 1])
    else ScanInner(bits, count, it, slot + 1, 0, [])
  }

  /** The inner loop of the scan for `count > 1`: the probed entry is
      `slot + index2`, and `slot` also advances on every step. */
  function ScanInner(bits: seq<bool>, count: nat, it: nat, slot: int, index2: nat, taken: seq<int>): (r: Scan)
    requires it < |bits| && slot >= it && index2 <= count && count != 1
    requires FreeAscending(bits, taken)
    requires forall k :: 0 <= k < |taken| ==> taken[k] < slot + index2
    ensures r.gap >= 0
    ensures FreeAscending(bits, r.taken)
    decreases |bits| - it, count - index2
  {
    if index2 == count then Scan(slot, 0, taken)
    else if slot + index2 >= |bits| then Scan(-1, slot + index2 + 1 - |bits|, taken)
    else if !bits[slot + index2] then ScanOuter(bits, count, it + 1, slot + 1)
    else ScanInner(bits, count, it, slot + 1, index2 + 1, taken + [slot + index2])
  }

  /** One pass of `find_instance_slot` as written. Its `gap` is never
      negative, so the source's `gap < 0` expansion branch is dead, and
      everything it marks taken was free. */
  function ScanAsWritten(bits: seq<bool>, count: nat): (r: Scan)
    ensures r.gap >= 0
    ensures FreeAscending(bits, r.taken)
  {
    ScanOuter(bits, count, 0, -1)
  }

  /** For a single instance the scan's counter tracks the iterator, and the
      scan finds the first free entry, which is what the first-fit search
      finds. */
  lemma {:induction false} ScanOuterSingle(bits: seq<bool>, it: nat)
    requires it <= |bits|
    ensures var f := FirstFreeRun(bits, 1, it);
      ScanOuter(bits, 1, it, it - 1) == if f.Some? then Scan(f.value, 0, [f.value]) else Scan(-1, 0, [])
    decreases |bits| - it
  {
    if it < |bits| {
      if !bits[it] {
        assert !RunFree(bits, it, 1);
        ScanOuterSingle(bits, it + 1);
      } else {
        assert RunFree(bits, it, 1);
      }
    }
  }

  /** With `count == 1` the source's scan and the first-fit search agree. */
  lemma ScanAsWrittenSingleIsFirstFit(bits: seq<bool>)
    ensures var f := FirstFreeRun(bits, 1, 0);
      ScanAsWritten(bits, 1) == if f.Some? then Scan(f.value, 0, [f.value]) else Scan(-1, 0, [])
  {
    ScanOuterSingle(bits, 0);
  }

  /** With `count == 2` on four free entries the scan reports slot 2 but
      marks entries 0 and 2: entry 3, which the caller's draw command will
      use, stays free, and entry 0, which it will not use, is taken. The
      first-fit search takes entries 0 and 1. */
  lemma ScanAsWrittenSkipsEntries(bits: seq<bool>)
    requires bits == [true, true, true, true]
    ensures ScanAsWritten(bits, 2) == Scan(2, 0, [0, 2])
    ensures FirstFreeRun(bits, 2, 0) == Some(0)
  {
    ScanSecondProbe(bits);
    assert [] + [0] == [0];
    assert ScanInner(bits, 2, 0, 0, 0, []) == ScanInner(bits, 2, 0, 1, 1, [0]);
    assert RunFree(bits, 0, 2);
  }

  /** The second probe of that example: from counter 1 it probes entry 2,
      marks it and stops. */
  lemma ScanSecondProbe(bits: seq<bool>)
    requires bits == [true, true, true, true]
    ensures ScanInner(bits, 2, 0, 1, 1, [0]) == Scan(2, 0, [0, 2])
  {
    assert [0] + [2] == [0, 2];
    assert ScanInner(bits, 2, 0, 1, 1, [0]) == ScanInner(bits, 2, 0, 2, 2, [0, 2]);
  }

  /** Where the instances of a static slot end: its first instance slot
      plus its instance count. */
  function InstancesEnd(p: Pool, slot: int): (e: int)
    requires Valid(p) && slot in p.slotContents
    ensures e >= 0
  {
    p.vertexToInstanced[slot] + p.drawCommands[slot].instanceCount
  }

  /** The draw commands with `count` more instances on `slot`. */
  function MoreInstances(cs: seq<DrawCommand>, slot: int, count: nat): (r: seq<DrawCommand>)
    requires 0 <= slot < |cs|
    ensures |r| == |cs| && r[slot].instanceCount == cs[slot].instanceCount + count
    ensures forall j :: 0 <= j < |cs| && j != slot ==> r[j] == cs[j]
  {
    cs[slot := cs[slot].(instanceCount := cs[slot].instanceCount + count)]
  }

  /** One matching candidate of `try_extend_instance`: the instance buffer
      grows when the source's `gap` (measured against the free counter) is
      positive, then the run of `count` at `InstancesEnd + shift` is taken
      if it is free. The probed entries always lie inside the grown bitmap,
      so the source's indexing cannot panic. */
  function TryCandidate(p: Pool, slot: int, count: nat, shift: nat): (r: (Pool, bool))
    requires Valid(p) && slot in p.slotContents && shift <= 1
    ensures Valid(r.0)
    ensures r.0 == p.(instancedCapacity := r.0.instancedCapacity, nAvailable := r.0.nAvailable,
                      freeInstances := r.0.freeInstances, drawCommands := r.0.drawCommands)
    ensures !r.1 ==> r.0.drawCommands == p.drawCommands && Grown(p.freeInstances, r.0.freeInstances)
    ensures r.1 ==> r.0.drawCommands == MoreInstances(p.drawCommands, slot, count)
    ensures r.1 ==> TakenFrom(p.freeInstances, r.0.freeInstances, InstancesEnd(p, slot) + shift, count)
  {
    var start := InstancesEnd(p, slot);
    var gap := start + 1 + count - p.nAvailable;
    var size := if gap > 0 then CeilDiv(gap, p.baseInstancedCapacity) else 0;
    var q := ExpandMvbo(p, size);
    ExpandMvboPreservesValid(p, size);
    assert size > 0 ==> p.baseInstancedCapacity * size >= gap;
    assert start + 1 + count <= |q.freeInstances|;
    if RunFree(q.freeInstances, start + shift, count) then
      var t := Take(q, start + shift, count);
      ValidWithCommands(t, MoreInstances(q.drawCommands, slot, count));
      (t.(drawCommands := MoreInstances(q.drawCommands, slot, count)), true)
    else
      (q, false)
  }

  /** The outcome `r` of the extension loop on `p`. Only the instance
      bitmap, its counter and capacity, and the draw commands change. On
      success `r.2` is a slot holding `uuid`, `r.3` the end of its old
      instances, its draw command gains `count` instances, and the run from
      `r.3 + shift` is taken; otherwise only free entries were added. */
  predicate Extended(p: Pool, r: (Pool, bool, int, int), count: nat, uuid: int, shift: nat)
    requires Valid(p)
  {
    && Valid(r.0)
    && r.0 == p.(instancedCapacity := r.0.instancedCapacity, nAvailable := r.0.nAvailable,
                 freeInstances := r.0.freeInstances, drawCommands := r.0.drawCommands)
    && if r.1 then
         && r.2 in p.slotContents && p.slotContents[r.2] == uuid && r.3 == InstancesEnd(p, r.2)
         && r.0.drawCommands == MoreInstances(p.drawCommands, r.2, count)
         && TakenFrom(p.freeInstances, r.0.freeInstances, r.3 + shift, count)
       else
         && r.2 == -1 && r.3 == -1 && r.0.drawCommands == p.drawCommands
         && Grown(p.freeInstances, r.0.freeInstances)
  }

  /** The `try_extend_instance` loop from position `k` of the iteration
      order over `slot_contents`: the first candidate holding the same mesh
      that `TryCandidate` accepts is extended and reported with the end of
      its old instances; expansions made for rejected candidates are kept. */
  function ExtendFrom(p: Pool, count: nat, uuid: int, order: seq<int>, k: nat, shift: nat): (r: (Pool, bool, int, int))
    requires Valid(p) && k <= |order| && shift <= 1
    requires forall j :: 0 <= j < |order| ==> order[j] in p.slotContents
    ensures Extended(p, r, count, uuid, shift)
    ensures (forall j :: k <= j < |order| ==> p.slotContents[order[j]] != uuid) ==> r == (p, false, -1, -1)
    decreases |order| - k
  {
    if k == |order| then (p, false, -1, -1)
    else if p.slotContents[order[k]] != uuid then ExtendFrom(p, count, uuid, order, k + 1, shift)
    else
      var c := TryCandidate(p, order[k], count, shift);
      if c.1 then (c.0, true, order[k], InstancesEnd(p, order[k]))
      else
        var r := ExtendFrom(c.0, count, uuid, order, k + 1, shift);
        if r.1 then
          GrownThenTaken(p.freeInstances, c.0.freeInstances, r.0.freeInstances, r.3 + shift, count);
          r
        else
          GrownTransitive(p.freeInstances, c.0.freeInstances, r.0.freeInstances);
          r
  }

  /** `try_extend_instance` as written: the probed run starts one past the
      end of the slot's instances. */
  function TryExtendInstanceAsWritten(p: Pool, count: nat, uuid: int, order: seq<int>): (r: (Pool, bool, int, int))
    requires Valid(p) && IsIterationOrder(order, p.slotContents)
    ensures Valid(r.0)
    ensures r.1 ==> r.2 in p.slotContents && p.slotContents[r.2] == uuid && r.3 == InstancesEnd(p, r.2)
    ensures r.1 ==> TakenFrom(p.freeInstances, r.0.freeInstances, r.3 + 1, count)
    ensures !r.1 ==> r.2 == -1 && r.3 == -1
  {
    ExtendFrom(p, count, uuid, order, 0, 1)
  }

  /** The off-by-one of the source: when the instance slot right after a
      static mesh's instances is already owned by another mesh and the next
      `count` are free, the extension succeeds and hands back that owned
      slot as the first new instance. */
  lemma TryExtendInstanceAsWrittenOverlaps(p: Pool, count: nat, uuid: int, order: seq<int>)
    requires Valid(p) && IsIterationOrder(order, p.slotContents)
    requires |order| > 0 && p.slotContents[order[0]] == uuid
    requires var start := InstancesEnd(p, order[0]);
      start < |p.freeInstances| && !p.freeInstances[start]
      && RunFree(p.freeInstances, start + 1, count) && start + 1 + count <= p.nAvailable
    ensures var r := TryExtendInstanceAsWritten(p, count, uuid, order);
      r.1 && r.2 == order[0] && 0 <= r.3 < |p.freeInstances| && !p.freeInstances[r.3]
  {
    assert ExpandMvbo(p, 0) == p;
  }

  /** `try_extend_instance` with the run the draw command uses: the `count`
      instance slots right after the slot's current instances. On success
      they were free before the call (or are new), they are taken now, and
      the slot's draw command covers them; on failure only free entries were
      added. A mesh no static slot holds leaves the pool untouched. */
  function TryExtendInstance(p: Pool, count: nat, uuid: int, order: seq<int>): (r: (Pool, bool, int, int))
    requires Valid(p) && IsIterationOrder(order, p.slotContents)
    ensures Valid(r.0)
    ensures r.0.slotContents == p.slotContents && r.0.vertexToInstanced == p.vertexToInstanced
    ensures r.0.availableSlots == p.availableSlots && r.0.meshCapacity == p.meshCapacity && r.0.drawcount == p.drawcount
    ensures SameSizes(p, r.0)
    ensures r.1 ==> r.2 in p.slotContents && p.slotContents[r.2] == uuid && r.3 == InstancesEnd(p, r.2)
    ensures r.1 ==> r.0.drawCommands == MoreInstances(p.drawCommands, r.2, count)
    ensures r.1 ==> TakenFrom(p.freeInstances, r.0.freeInstances, r.3, count)
    ensures !r.1 ==> r.2 == -1 && r.3 == -1 && r.0.drawCommands == p.drawCommands
    ensures !r.1 ==> Grown(p.freeInstances, r.0.freeInstances)
    ensures uuid !in p.slotContents.Values ==> r == (p, false, -1, -1)
  {
    assert uuid !in p.slotContents.Values ==> forall j :: 0 <= j < |order| ==> p.slotContents[order[j]] != uuid;
    ExtendFrom(p, count, uuid, order, 0, 0)
  }

  /** `update_mesh`: the slot's command draws `nIndices` indices starting at
      the slot's byte offset in the index buffer, with indices rebased to the
      slot's first vertex. */
  function UpdateMesh(p: Pool, slot: nat, nIndices: nat): (r: Pool)
    requires slot < |p.drawCommands|
    ensures |r.drawCommands| == |p.drawCommands|
    ensures r.drawCommands[slot].indiceCount == nIndices
    ensures r.drawCommands[slot].start == slot * p.meshIndexNbytes
    ensures r.drawCommands[slot].baseVertex == slot * (p.meshVertexNbytes / (N_FLOATS_PER_VERTEX * FLOAT_NBYTES))
    ensures r.drawCommands[slot].baseVertex * (N_FLOATS_PER_VERTEX * FLOAT_NBYTES) <= slot * p.meshVertexNbytes
    ensures r.drawCommands[slot].instanceCount == p.drawCommands[slot].instanceCount
    ensures r.drawCommands[slot].baseInstance == p.drawCommands[slot].baseInstance
    ensures forall j :: 0 <= j < |p.drawCommands| && j != slot ==> r.drawCommands[j] == p.drawCommands[j]
    ensures r == p.(drawCommands := r.drawCommands)
  {
    var vertexStride := N_FLOATS_PER_VERTEX * FLOAT_NBYTES;
    var c := p.drawCommands[slot];
    var bv := slot * (p.meshVertexNbytes / vertexStride);
    assert bv * vertexStride == slot * ((p.meshVertexNbytes / vertexStride) * vertexStride);
    p.(drawCommands := p.drawCommands[slot := c.(indiceCount := nIndices, start := slot * p.meshIndexNbytes, baseVertex := bv)])
  }

  /** When the slot size is a whole number of vertices, as every pool the
      engine creates has, the command's first vertex is the first vertex
      copied into the slot (at byte `slot * meshVertexNbytes`), and the
      commands of two different slots draw disjoint vertex and index
      ranges. */
  lemma UpdateMeshDrawsItsSlot(p: Pool, slot: nat, other: nat, nIndices: nat, nOther: nat)
    requires slot < |p.drawCommands| && other < |p.drawCommands| && slot != other
    requires p.meshVertexNbytes % (N_FLOATS_PER_VERTEX * FLOAT_NBYTES) == 0
    ensures var c := UpdateMesh(p, slot, nIndices).drawCommands[slot];
      c.baseVertex * (N_FLOATS_PER_VERTEX * FLOAT_NBYTES) == slot * p.meshVertexNbytes
    ensures var c := UpdateMesh(p, slot, nIndices).drawCommands[slot];
      var d := UpdateMesh(p, other, nOther).drawCommands[other];
      var nVerts := p.meshVertexNbytes / (N_FLOATS_PER_VERTEX * FLOAT_NBYTES);
      (c.baseVertex + nVerts <= d.baseVertex || d.baseVertex + nVerts <= c.baseVertex) &&
      (c.start + p.meshIndexNbytes <= d.start || d.start + p.meshIndexNbytes <= c.start)
  {
    var stride := N_FLOATS_PER_VERTEX * FLOAT_NBYTES;
    var nVerts := p.meshVertexNbytes / stride;
    assert nVerts * stride == p.meshVertexNbytes;
    assert slot * nVerts * stride == slot * p.meshVertexNbytes;
    if slot < other {
      assert (slot + 1) * nVerts <= other * nVerts;
      assert (slot + 1) * p.meshIndexNbytes <= other * p.meshIndexNbytes;
    } else {
      assert (other + 1) * nVerts <= slot * nVerts;
      assert (other + 1) * p.meshIndexNbytes <= slot * p.meshIndexNbytes;
    }
  }

  /** The front of the slot queue, after growing the vertex buffer when the
      queue is empty. */
  function PopSlot(p: Pool): (r: (Pool, nat))
    requires Valid(p)
    ensures Valid(r.0)
    ensures r.1 == (if |p.availableSlots| > 0 then p.availableSlots[0] else p.meshCapacity)
    ensures r.1 < r.0.meshCapacity
    ensures r.0.freeInstances == p.freeInstances && r.0.nAvailable == p.nAvailable
    ensures r.0.vertexToInstanced == p.vertexToInstanced && r.0.slotContents == p.slotContents
    ensures r.0.drawcount == p.drawcount
  {
    var q := if |p.availableSlots| == 0 then ExpandVbo(p) else p;
    ExpandVboPreservesValid(p);
    (q.(availableSlots := q.availableSlots[1..]), q.availableSlots[0])
  }

  /** The new-slot path of `add_mesh`: one more draw, the front of the slot
      queue, a first-fit run of `count` instance slots, the mesh's indices,
      and, for a static mesh, an entry in the static-mesh table. */
  function AddToNewSlot(p: Pool, uuid: int, nIndices: nat, count: nat, dynamic: bool): (r: (Pool, nat))
    requires Valid(p) && count >= 1
    ensures Valid(r.0)
    ensures r.1 == (if |p.availableSlots| > 0 then p.availableSlots[0] else p.meshCapacity)
    ensures r.0.drawcount == p.drawcount + 1
    ensures r.1 < |r.0.drawCommands| && r.1 in r.0.vertexToInstanced
    ensures r.0.drawCommands[r.1].indiceCount == nIndices
    ensures r.0.drawCommands[r.1].instanceCount == count
    ensures r.0.drawCommands[r.1].baseInstance == r.0.vertexToInstanced[r.1]
    ensures TakenFrom(p.freeInstances, r.0.freeInstances, r.0.vertexToInstanced[r.1], count)
    ensures r.0.slotContents == (if dynamic then p.slotContents else p.slotContents[r.1 := uuid])
    ensures SameSizes(p, r.0)
  {
    var (p1, slot) := PopSlot(p.(drawcount := p.drawcount + 1));
    var (p2, inst) := FindInstanceSlot(p1, count);
    var owned := p2.(vertexToInstanced := p2.vertexToInstanced[slot := inst]);
    ValidWithFirstInstance(p2, slot, inst);
    var p3 := UpdateMesh(owned, slot, nIndices);
    var c := p3.drawCommands[slot];
    var cs := p3.drawCommands[slot := c.(instanceCount := count, baseInstance := inst)];
    ValidWithCommands(p3, cs);
    var p4 := p3.(drawCommands := cs);
    ValidWithOwner(p4, slot, uuid);
    (if dynamic then p4 else p4.(slotContents := p4.slotContents[slot := uuid]), slot)
  }

  lemma ValidWithFirstInstance(p: Pool, slot: nat, inst: nat)
    requires Valid(p) && slot < p.meshCapacity
    ensures Valid(p.(vertexToInstanced := p.vertexToInstanced[slot := inst]))
  {
  }

  lemma ValidWithCommands(p: Pool, cs: seq<DrawCommand>)
    requires Valid(p) && |cs| == |p.drawCommands|
    ensures Valid(p.(drawCommands := cs))
  {
  }

  lemma ValidWithOwner(p: Pool, slot: int, uuid: int)
    requires Valid(p) && slot in p.vertexToInstanced
    ensures Valid(p.(slotContents := p.slotContents[slot := uuid]))
  {
  }

  /** `add_mesh`: first try to extend an identical static mesh; a dynamic
      mesh, or a failed extension, goes to a new slot. Returns the pool, the
      vertex slot and the first instance of the new mesh counted from the
      slot's first instance slot, which is what `set_transform` adds it to:
      the old instance count when extending, 0 on a new slot. */
  function AddMesh(p: Pool, uuid: int, nIndices: nat, count: nat, dynamic: bool, order: seq<int>): (r: (Pool, int, int))
    requires Valid(p) && count >= 1 && IsIterationOrder(order, p.slotContents)
    ensures Valid(r.0) && SameSizes(p, r.0)
    ensures var e := TryExtendInstance(p, count, uuid, order);
      !dynamic && e.1 ==> r.0 == e.0 && r.1 == e.2 && r.2 == p.drawCommands[e.2].instanceCount
    ensures var e := TryExtendInstance(p, count, uuid, order);
      dynamic || !e.1 ==> r.2 == 0 && (r.0, r.1) == AddToNewSlot(e.0, uuid, nIndices, count, dynamic)
  {
    var e := TryExtendInstance(p, count, uuid, order);
    if dynamic || !e.1 then
      var (q, slot) := AddToNewSlot(e.0, uuid, nIndices, count, dynamic);
      (q, slot, 0)
    else
      (e.0, e.2, e.3 - p.vertexToInstanced[e.2])
  }

  /** The instance slot `set_transform` writes for instance `instance` of
      vertex slot `slot`: the slot's first instance slot plus the instance. */
  function InstanceEntry(p: Pool, slot: int, instance: int): (e: int)
    requires Valid(p) && slot in p.vertexToInstanced
    ensures instance >= 0 ==> e >= instance
  {
    p.vertexToInstanced[slot] + instance
  }

  /** The `count` instances of a freshly added mesh, addressed the way the
      engine addresses them (returned offset plus 0 .. count-1), are instance
      slots that were free and are now taken. Unless a dynamic mesh also
      extended a static twin (the source tries the extension before looking
      at `dynamic`), they are exactly the slots the call took. */
  lemma {:induction false} AddMeshWritesTakenInstances(p: Pool, uuid: int, nIndices: nat, count: nat, dynamic: bool, order: seq<int>)
    requires Valid(p) && count >= 1 && IsIterationOrder(order, p.slotContents)
    ensures var r := AddMesh(p, uuid, nIndices, count, dynamic, order);
      r.1 in r.0.vertexToInstanced
      && NewlyTaken(p.freeInstances, r.0.freeInstances, InstanceEntry(r.0, r.1, r.2), count)
    ensures var r := AddMesh(p, uuid, nIndices, count, dynamic, order);
      !(dynamic && TryExtendInstance(p, count, uuid, order).1) ==>
        TakenFrom(p.freeInstances, r.0.freeInstances, InstanceEntry(r.0, r.1, r.2), count)
  {
    var e := TryExtendInstance(p, count, uuid, order);
    var r := AddMesh(p, uuid, nIndices, count, dynamic, order);
    if dynamic || !e.1 {
      var (q, slot) := AddToNewSlot(e.0, uuid, nIndices, count, dynamic);
      assert r == (q, slot, 0);
      if e.1 {
        TakenThenTaken(p.freeInstances, e.0.freeInstances, q.freeInstances, e.3, q.vertexToInstanced[slot], count);
      } else {
        GrownThenTaken(p.freeInstances, e.0.freeInstances, q.freeInstances, q.vertexToInstanced[slot], count);
      }
    } else {
      assert r.0 == e.0 && r.1 == e.2;
      assert InstanceEntry(r.0, r.1, r.2) == e.3;
    }
  }

  /** `add_mesh` as written: the extension path returns the absolute
      instance slot `start` where the new instances begin, not its offset
      from the slot's first instance slot. */
  function AddMeshAsWritten(p: Pool, uuid: int, nIndices: nat, count: nat, dynamic: bool, order: seq<int>): (r: (Pool, int, int))
    requires Valid(p) && count >= 1 && IsIterationOrder(order, p.slotContents)
    ensures Valid(r.0)
    ensures var e := TryExtendInstance(p, count, uuid, order);
      !dynamic && e.1 ==> r.1 == e.2 && r.2 == InstancesEnd(p, e.2)
  {
    var e := TryExtendInstance(p, count, uuid, order);
    if dynamic || !e.1 then
      var (q, slot) := AddToNewSlot(e.0, uuid, nIndices, count, dynamic);
      (q, slot, 0)
    else
      (e.0, e.2, e.3)
  }

  /** On the extension path `set_transform` adds the slot's first instance
      slot to the absolute `start` a second time, so the first new instance
      is written outside the run just taken whenever the slot does not begin
      at instance slot 0. */
  lemma ExtensionAsWrittenWritesShifted(p: Pool, uuid: int, nIndices: nat, count: nat, order: seq<int>)
    requires Valid(p) && count >= 1 && IsIterationOrder(order, p.slotContents)
    ensures var r := AddMeshAsWritten(p, uuid, nIndices, count, false, order);
      var e := TryExtendInstance(p, count, uuid, order);
      e.1 ==> (r.1 in r.0.vertexToInstanced
        && TakenFrom(p.freeInstances, r.0.freeInstances, r.2, count)
        && InstanceEntry(r.0, r.1, r.2) == r.2 + p.vertexToInstanced[r.1]
        && (p.vertexToInstanced[r.1] >= count ==> !(r.2 <= InstanceEntry(r.0, r.1, r.2) < r.2 + count)))
  {
  }

  /** `remove_mesh`: the slot's command stops drawing, the slot leaves the
      static-mesh table and rejoins the back of the queue. Its instance slots
      stay taken. A slot outside the draw commands is an index panic. */
  function RemoveMesh(p: Pool, slot: int): (r: Result<Pool>)
    ensures r.Panic? <==> !(0 <= slot < |p.drawCommands|)
    ensures r.Ok? ==> |r.value.drawCommands| == |p.drawCommands|
    ensures r.Ok? ==> r.value.drawcount == p.drawcount - 1
    ensures r.Ok? ==> r.value.slotContents == p.slotContents - {slot}
    ensures r.Ok? ==> r.value.drawCommands[slot].indiceCount == 0
    ensures r.Ok? ==> forall j :: 0 <= j < |p.drawCommands| && j != slot ==> r.value.drawCommands[j] == p.drawCommands[j]
    ensures r.Ok? ==> r.value.availableSlots == p.availableSlots + [slot]
    ensures r.Ok? ==> r.value.freeInstances == p.freeInstances && r.value.nAvailable == p.nAvailable
  {
    if !(0 <= slot < |p.drawCommands|) then Panic("index out of bounds")
    else
      var c := p.drawCommands[slot];
      Ok(p.(drawcount := p.drawcount - 1,
            slotContents := p.slotContents - {slot},
            drawCommands := p.drawCommands[slot := c.(indiceCount := 0)],
            availableSlots := p.availableSlots + [slot]))
  }

  /** Removing a slot of a valid pool keeps it valid. */
  lemma RemoveMeshPreservesValid(p: Pool, slot: int)
    requires Valid(p) && 0 <= slot < |p.drawCommands|
    ensures Valid(RemoveMesh(p, slot).value)
  {
  }

  /** `MeshPool::new`: one vertex-buffer expansion and one instance-buffer
      expansion of an empty pool. */
  function New(nMeshes: nat, nInstances: nat, vertexNbytes: nat, indexNbytes: nat): (p: Pool)
    ensures p.meshCapacity == nMeshes && |p.availableSlots| == nMeshes
    ensures forall k :: 0 <= k < nMeshes ==> p.availableSlots[k] == k
    ensures p.drawCommands == seq(nMeshes, _ => NEW_COMMAND)
    ensures p.freeInstances == seq(nInstances, _ => true) && p.nAvailable == nInstances
    ensures p.drawcount == 0 && p.vertexToInstanced == map[] && p.slotContents == map[]
    ensures nMeshes >= 1 && nInstances >= 1 ==> Valid(p)
  {
    var empty := Pool(vertexNbytes, indexNbytes, nMeshes, 0, nInstances, 0, [], 0, [], [], 0, map[], map[]);
    var p := ExpandMvbo(ExpandVbo(empty), 1);
    assert p.drawCommands == seq(nMeshes, _ => NEW_COMMAND);
    assert p.freeInstances == seq(nInstances, _ => true);
    CountFreeAllFree(nInstances);
    p
  }
}

=== FILE: physics_update.dfy ===
/** The integer parts of one physics tick: gravity, the broad-phase
    candidates with the body itself skipped, the position correction by the
    greatest penetration, the mean contact point, and the integration of
    position by a sixtieth of the velocity. The float velocity response is
    a parameter, and so is the float geometry the narrow phase reads. */
module PhysicsUpdate {
  import opened Base
  import opened Vectors
  import opened Rigidbody
  import Collisions
  import S = SpatialAccelerationStructure

  /** `(-1.807 * 0.016 * 10^6) as i64`: the velocity change per tick from
      gravity, in micrometres per tick. */
  const GRAVITY: int := -28912

  /** Position advances by `velocity / TICKS_PER_SECOND` each tick. */
  const TICKS_PER_SECOND: int := 60

  /** The factor the angular velocity keeps each tick. */
  const ANGULAR_DAMPING: real := 0.99

  /** The float velocity response to a hit (`velocity_at_point` and the
      two impulses): given the body after its position correction, the
      restitution factor of the pair, the contact normal and the hit
      position relative to the body, the new linear and angular velocity. */
  type Response = (Body, real, Vec3, IVec3) -> (IVec3, Vec3)

  /** The factor the response scales the normal velocity by: the product
      of the two bodies' elasticities plus one. It is 1 when either body is
      perfectly inelastic and stays within 1 .. 2 for elasticities in 0 .. 1. */
  function Restitution(b: Body, other: Body): (e: real)
    ensures b.elasticity == 0.0 || other.elasticity == 0.0 ==> e == 1.0
    ensures 0.0 <= b.elasticity <= 1.0 && 0.0 <= other.elasticity <= 1.0 ==> 1.0 <= e <= 2.0
    ensures b.elasticity == other.elasticity == DEFAULT_ELASTICITY ==> e == 1.16
  {
    UnitProduct(b.elasticity, other.elasticity);
    b.elasticity * other.elasticity + 1.0
  }

  lemma UnitProduct(x: real, y: real)
    ensures 0.0 <= x <= 1.0 && 0.0 <= y <= 1.0 ==> 0.0 <= x * y <= 1.0
  {
    if 0.0 <= x <= 1.0 && 0.0 <= y <= 1.0 {
      assert x * y <= x * 1.0;
    }
  }

  /** The narrow-phase geometry derived from two bodies' transforms. */
  type GeometryOf = (Body, Body) -> Collisions.Geometry

  function WithGravity(b: Body): (r: Body)
    ensures r.velocity.y == b.velocity.y + GRAVITY
    ensures r.velocity.x == b.velocity.x && r.velocity.z == b.velocity.z
    ensures r.(velocity := b.velocity) == b
  {
    b.(velocity := IAdd(b.velocity, IVec3(0, GRAVITY, 0)))
  }

  /** The loop's running maximum of the penetrations, starting from 0. */
  function GreatestPenetration(points: seq<Collisions.ContactPoint>): (g: int)
    ensures g >= 0
    ensures forall k :: 0 <= k < |points| ==> points[k].penetration <= g
    ensures g == 0 || exists k :: 0 <= k < |points| && points[k].penetration == g
    decreases |points|
  {
    if |points| == 0 then 0
    else
      var n := |points| - 1;
      var g := GreatestPenetration(points[..n]);
      if points[n].penetration > g then points[n].penetration else g
  }

  /** `(i64vec3_from_vec3(normal) * |gp|) / UNITS_PER_METER` with Rust's
      truncating division. */
  function Correction(normal: Vec3, gp: int): IVec3
  {
    IDiv(IScale(FromMeters(normal), Abs(gp)), UNITS_PER_METER)
  }

  function SumPositions(points: seq<Collisions.ContactPoint>): IVec3
    decreases |points|
  {
    if |points| == 0 then IZERO
    else IAdd(SumPositions(points[..|points| - 1]), points[|points| - 1].pos)
  }

  /** The truncated mean of the contact positions; Rust panics on a
      division by zero, so an empty list has no mean. */
  function MeanPosition(points: seq<Collisions.ContactPoint>): (r: Result<IVec3>)
    ensures r.Panic? <==> |points| == 0
  {
    if |points| == 0 then Panic("attempt to divide by zero")
    else Ok(IDiv(SumPositions(points), |points|))
  }

  /** Summing n copies of one position gives n times that position. */
  lemma {:induction false} SumOfEqualPositions(points: seq<Collisions.ContactPoint>, p: IVec3)
    requires forall k :: 0 <= k < |points| ==> points[k].pos == p
    ensures SumPositions(points) == IScale(p, |points|)
    decreases |points|
  {
    if |points| > 0 {
      SumOfEqualPositions(points[..|points| - 1], p);
    }
  }

  /** When every contact is at the same place, the mean is that place:
      the truncating division is exact on a multiple. */
  lemma MeanOfEqualPositions(points: seq<Collisions.ContactPoint>, p: IVec3)
    requires |points| > 0
    requires forall k :: 0 <= k < |points| ==> points[k].pos == p
    ensures MeanPosition(points) == Ok(p)
  {
    var n := |points|;
    SumOfEqualPositions(points, p);
    assert p.x * n - p.x * n == 0 && p.y * n - p.y * n == 0 && p.z * n - p.z * n == 0;
    RustDivUnique(p.x * n, n, p.x);
    RustDivUnique(p.y * n, n, p.y);
    RustDivUnique(p.z * n, n, p.z);
  }

  /** One reported collision: the body is pushed out along the normal by
      the greatest penetration, the hit position is the mean contact point
      relative to the corrected position, and the response sets the new
      velocities. */
  function ApplyHit(b: Body, other: Body, info: Collisions.CollisionInfo, respond: Response): (r: Result<Body>)
    ensures r.Panic? <==> |info.points| == 0
    ensures r.Ok? ==> (r.value.transform.pos ==
      IAdd(b.transform.pos, Correction(info.normal, GreatestPenetration(info.points))))
    ensures r.Ok? ==> (
      var moved := b.(transform := r.value.transform);
      var hit := ISub(MeanPosition(info.points).value, r.value.transform.pos);
      (r.value.velocity, r.value.angularVelocity) == respond(moved, Restitution(b, other), info.normal, hit))
    ensures r.Ok? ==> r.value.kind == b.kind && r.value.density == b.density && r.value.transform.scl == b.transform.scl
  {
    var gp := GreatestPenetration(info.points);
    var moved := b.(transform := b.transform.(pos := IAdd(b.transform.pos, Correction(info.normal, gp))));
    var mean := MeanPosition(info.points);
    if mean.Panic? then Panic(mean.reason)
    else
      var hit := ISub(mean.value, moved.transform.pos);
      var (v, w) := respond(moved, Restitution(b, other), info.normal, hit);
      Ok(moved.(velocity := v, angularVelocity := w))
  }

  /** Contacts that do not penetrate (every sphere contact, whose
      penetration is at most 0) leave the position where it was. */
  lemma ShallowContactsDoNotMove(b: Body, other: Body, info: Collisions.CollisionInfo, respond: Response)
    requires |info.points| > 0
    requires forall k :: 0 <= k < |info.points| ==> info.points[k].penetration <= 0
    ensures ApplyHit(b, other, info, respond).value.transform.pos == b.transform.pos
  {
    assert GreatestPenetration(info.points) == 0;
    var z := IScale(FromMeters(info.normal), 0);
    assert z == IZERO;
    RustDivUnique(0, UNITS_PER_METER, 0);
  }

  /** The collider the narrow phase sees for a body. */
  function ColliderOf(b: Body): Collisions.Collider
  {
    Collisions.Collider(b.kind, b.transform)
  }

  /** The outcome of testing `b` against body `j` of the world. */
  function Test(world: seq<Body>, j: nat, b: Body, geom: GeometryOf): Result<Option<Collisions.CollisionInfo>>
    requires j < |world|
  {
    Collisions.CollidesWith(ColliderOf(b), ColliderOf(world[j]), geom(b, world[j]))
  }

  /** Some candidate from position `k` on, other than the body itself,
      makes the narrow phase panic. */
  predicate OtherConvexFrom(world: seq<Body>, i: nat, b: Body, cands: seq<S.Handle>, k: nat)
    requires forall m :: 0 <= m < |cands| ==> cands[m].id < |world|
  {
    exists m :: k <= m < |cands| && cands[m].id != i && (b.kind.Convex? || world[cands[m].id].kind.Convex?)
  }

  /** Some candidate other than the body itself makes the narrow phase panic. */
  predicate SomeOtherConvex(world: seq<Body>, i: nat, b: Body, cands: seq<S.Handle>)
    requires forall m :: 0 <= m < |cands| ==> cands[m].id < |world|
  {
    OtherConvexFrom(world, i, b, cands, 0)
  }

  /** The inner loop over the broad-phase candidates of body `i` from
      position `k` on, whose current state is `b`: the body itself is
      skipped, a miss changes nothing, a hit is applied before the next
      candidate is tested. */
  function ProcessFrom(world: seq<Body>, i: nat, b: Body, cands: seq<S.Handle>, k: nat,
                       geom: GeometryOf, respond: Response): (r: Result<Body>)
    requires k <= |cands| && forall m :: 0 <= m < |cands| ==> cands[m].id < |world|
    ensures r.Panic? <==> OtherConvexFrom(world, i, b, cands, k)
    ensures r.Ok? ==> r.value.kind == b.kind && r.value.density == b.density && r.value.transform.scl == b.transform.scl
    decreases |cands| - k
  {
    if k == |cands| then Ok(b)
    else
      var j := cands[k].id;
      if j == i then
        ProcessFrom(world, i, b, cands, k + 1, geom, respond)
      else
        var c := Test(world, j, b, geom);
        if c.Panic? then Panic(c.reason)
        else if c.value.None? then ProcessFrom(world, i, b, cands, k + 1, geom, respond)
        else
          var hit := ApplyHit(b, world[j], c.value.value, respond);
          assert hit.Ok?;
          var r := ProcessFrom(world, i, hit.value, cands, k + 1, geom, respond);
          assert r.Panic? <==> OtherConvexFrom(world, i, b, cands, k + 1);
          r
  }

  /** When no candidate from `k` on, other than the body itself, reports a
      collision, the loop hands the body back unchanged. */
  lemma {:induction false} NoHitsLeaveBody(world: seq<Body>, i: nat, b: Body, cands: seq<S.Handle>, k: nat,
                                          geom: GeometryOf, respond: Response)
    requires k <= |cands| && forall m :: 0 <= m < |cands| ==> cands[m].id < |world|
    requires forall m :: k <= m < |cands| && cands[m].id != i ==> Test(world, cands[m].id, b, geom) == Ok(None)
    ensures ProcessFrom(world, i, b, cands, k, geom, respond) == Ok(b)
    decreases |cands| - k
  {
    if k < |cands| {
      NoHitsLeaveBody(world, i, b, cands, k + 1, geom, respond);
    }
  }

  /** The whole inner loop over the candidates of body `i`. */
  function ProcessCandidates(world: seq<Body>, i: nat, b: Body, cands: seq<S.Handle>,
                             geom: GeometryOf, respond: Response): (r: Result<Body>)
    requires forall k :: 0 <= k < |cands| ==> cands[k].id < |world|
    ensures r.Panic? <==> SomeOtherConvex(world, i, b, cands)
    ensures r.Ok? ==> r.value.kind == b.kind && r.value.density == b.density && r.value.transform.scl == b.transform.scl
  {
    ProcessFrom(world, i, b, cands, 0, geom, respond)
  }

  /** A body whose every other candidate misses, in particular one whose
      only candidate is itself, comes out of the loop unchanged. */
  lemma ProcessCandidatesNoHits(world: seq<Body>, i: nat, b: Body, cands: seq<S.Handle>,
                                geom: GeometryOf, respond: Response)
    requires forall k :: 0 <= k < |cands| ==> cands[k].id < |world|
    requires forall k :: 0 <= k < |cands| && cands[k].id != i ==> Test(world, cands[k].id, b, geom) == Ok(None)
    ensures ProcessCandidates(world, i, b, cands, geom, respond) == Ok(b)
  {
    NoHitsLeaveBody(world, i, b, cands, 0, geom, respond);
  }

  /** Every object stored in the index is a body of the world. */
  predicate HandlesKnown(t: S.Tree, n: nat)
  {
    forall j, m :: 0 <= j < |t.nodes| && 0 <= m < |t.nodes[j].objects| ==> t.nodes[j].objects[m].id < n
  }

  /** So every candidate a query returns names a body. */
  lemma QueryKnown(t: S.Tree, box: S.AABB, n: nat)
    requires S.WellFormed(t) && HandlesKnown(t, n)
    ensures forall k :: 0 <= k < |S.QueryAabb(t, box)| ==> S.QueryAabb(t, box)[k].id < n
  {
    if |t.nodes| > 0 {
      forall k | 0 <= k < |S.QueryAabb(t, box)|
        ensures S.QueryAabb(t, box)[k].id < n
      {
        var h := S.QueryAabb(t, box)[k];
        S.QueryMembership(t, box, h);
        var j, m :| S.Below(t, S.Descend(t, 0, box), j) && S.HitAt(t, j, m, box, h);
      }
    }
  }

  /** The velocity step: position advances by `velocity / 60` with
      truncation, and the spin decays by 1%. */
  function Integrate(b: Body): (r: Body)
    ensures r.transform.pos == IAdd(b.transform.pos, IDiv(b.velocity, TICKS_PER_SECOND))
    ensures r.angularVelocity == Scale(b.angularVelocity, ANGULAR_DAMPING)
    ensures r.(transform := b.transform, angularVelocity := b.angularVelocity) == b
  {
    b.(transform := b.transform.(pos := IAdd(b.transform.pos, IDiv(b.velocity, TICKS_PER_SECOND))),
       angularVelocity := Scale(b.angularVelocity, ANGULAR_DAMPING))
  }

  /** One axis of the velocity step moves by at most a sixtieth of the speed
      in its direction, and a speed under 60 micrometres per tick does not
      move the body at all (truncation, where Euclidean division would move
      a slow body falling at -1 by a whole micrometre). */
  lemma IntegrateAxis(p: int, v: int)
    ensures Abs(RustDiv(v, TICKS_PER_SECOND)) * TICKS_PER_SECOND <= Abs(v)
    ensures v >= 0 ==> RustDiv(v, TICKS_PER_SECOND) >= 0
    ensures v <= 0 ==> RustDiv(v, TICKS_PER_SECOND) <= 0
    ensures Abs(v) < TICKS_PER_SECOND ==> p + RustDiv(v, TICKS_PER_SECOND) == p
  {
    var q := RustDiv(v, TICKS_PER_SECOND);
    if v >= 0 {
      RustDivNonNegative(v, TICKS_PER_SECOND);
    } else {
      RustDivOdd(v, TICKS_PER_SECOND);
      RustDivNonNegative(-v, TICKS_PER_SECOND);
    }
  }

  /** The full step of body `i` against the current world. */
  function StepBody(world: seq<Body>, i: nat, t: S.Tree, geom: GeometryOf, respond: Response): (r: Result<Body>)
    requires i < |world| && S.WellFormed(t) && HandlesKnown(t, |world|)
    ensures r.Ok? ==> r.value.kind == world[i].kind && r.value.density == world[i].density
  {
    var b := WithGravity(world[i]);
    var cands := S.QueryAabb(t, S.NewAABB(b.transform));
    QueryKnown(t, S.NewAABB(b.transform), |world|);
    var hit := ProcessCandidates(world, i, b, cands, geom, respond);
    if hit.Panic? then Panic(hit.reason) else Ok(Integrate(hit.value))
  }

  /** A body with no candidate but itself falls freely: gravity is added to
      its velocity once, and it moves by a sixtieth of the new velocity. */
  lemma StepAlone(world: seq<Body>, i: nat, t: S.Tree, geom: GeometryOf, respond: Response)
    requires i < |world| && S.WellFormed(t) && HandlesKnown(t, |world|)
    requires forall h :: h in S.QueryAabb(t, S.NewAABB(world[i].transform)) ==> h.id == i
    ensures StepBody(world, i, t, geom, respond) == Ok(Integrate(WithGravity(world[i])))
  {
    var b := WithGravity(world[i]);
    assert b.transform == world[i].transform;
    var cands := S.QueryAabb(t, S.NewAABB(b.transform));
    QueryKnown(t, S.NewAABB(b.transform), |world|);
    assert forall k :: 0 <= k < |cands| ==> cands[k] in cands;
    ProcessCandidatesNoHits(world, i, b, cands, geom, respond);
  }

  /** `do_physics`: the bodies are stepped in order, each against the world
      as the earlier steps left it. */
  function TickFrom(world: seq<Body>, i: nat, t: S.Tree, geom: GeometryOf, respond: Response): (r: Result<seq<Body>>)
    requires i <= |world| && S.WellFormed(t) && HandlesKnown(t, |world|)
    ensures r.Ok? ==> |r.value| == |world|
    ensures r.Ok? ==> forall j :: 0 <= j < i ==> r.value[j] == world[j]
    ensures r.Ok? ==> forall j :: 0 <= j < |world| ==> r.value[j].kind == world[j].kind
    decreases |world| - i
  {
    if i == |world| then Ok(world)
    else
      var s := StepBody(world, i, t, geom, respond);
      if s.Panic? then Panic(s.reason)
      else TickFrom(world[i := s.value], i + 1, t, geom, respond)
  }

  function Tick(world: seq<Body>, t: S.Tree, geom: GeometryOf, respond: Response): (r: Result<seq<Body>>)
    requires S.WellFormed(t) && HandlesKnown(t, |world|)
    ensures r.Ok? ==> |r.value| == |world|
    ensures r.Ok? ==> forall j :: 0 <= j < |world| ==> r.value[j].kind == world[j].kind
  {
    TickFrom(world, 0, t, geom, respond)
  }

  /** With an empty index nothing collides: every body gets gravity once
      and moves by a sixtieth of its new velocity. */
  lemma {:induction false} TickFromWithoutContacts(world: seq<Body>, i: nat, t: S.Tree, geom: GeometryOf, respond: Response)
    requires i <= |world| && S.WellFormed(t) && |t.nodes| == 0
    ensures TickFrom(world, i, t, geom, respond).Ok?
    ensures forall j :: i <= j < |world| ==>
      TickFrom(world, i, t, geom, respond).value[j] == Integrate(WithGravity(world[j]))
    decreases |world| - i
  {
    if i < |world| {
      StepAlone(world, i, t, geom, respond);
      var w := world[i := Integrate(WithGravity(world[i]))];
      TickFromWithoutContacts(w, i + 1, t, geom, respond);
    }
  }

  lemma TickWithoutContacts(world: seq<Body>, t: S.Tree, geom: GeometryOf, respond: Response)
    requires S.WellFormed(t) && |t.nodes| == 0
    ensures Tick(world, t, geom, respond).Ok?
    ensures forall j :: 0 <= j < |world| ==> Tick(world, t, geom, respond).value[j] == Integrate(WithGravity(world[j]))
  {
    TickFromWithoutContacts(world, 0, t, geom, respond);
  }
}

=== FILE: rigidbody.dfy ===
/** The rigid-body state the physics tick reads and writes, and the
    operations every rigid body gets: mass from density and volume,
    linear and angular impulses, the velocity of a body point, and the
    setters. */
module Rigidbody {
  import opened Base
  import opened Vectors
  import Collisions
  import InertiaTensor

  datatype Body = Body(
    kind: Collisions.ColliderType,
    transform: Transform,
    density: real,
    elasticity: real,
    velocity: IVec3,          // micrometres per tick
    angularVelocity: Vec3)

  /** The source's constant for pi in the sphere volume. */
  const PI_APPROX: real := 3.1415

  /** The factor `mass` puts in front of `density * volume`: `(4/3) pi` for a
      sphere, 1 for every other shape. */
  function MassFactor(kind: Collisions.ColliderType): (f: real)
    ensures f > 0.0
  {
    if kind.Sphere? then (4.0 / 3.0) * PI_APPROX else 1.0
  }

  /** `mass`: density times the transform's volume, with the sphere factor. */
  function Mass(b: Body): (m: real)
    ensures b.density > 0.0 && Volume(b.transform) > 0.0 ==> m > 0.0
    ensures b.density == 0.0 || Volume(b.transform) == 0.0 ==> m == 0.0
  {
    MassFactor(b.kind) * b.density * Volume(b.transform)
  }

  /** Mass is proportional to density: changing only the density scales the
      mass by the same ratio. */
  lemma MassProportionalToDensity(b: Body, d: real)
    ensures Mass(b.(density := d)) * b.density == Mass(b) * d
  {
    var f, v := MassFactor(b.kind), Volume(b.transform);
    assert f * d * v * b.density == f * b.density * v * d;
  }

  /** A sphere weighs `(4/3) * 3.1415` times a box of the same density and
      scale. */
  lemma SphereMassRatio(b: Body)
    ensures Mass(b.(kind := Collisions.Sphere)) == (4.0 / 3.0) * PI_APPROX * Mass(b.(kind := Collisions.Box))
  {
  }

  /** `set_density`: a zero density fails the assertion; any other value is
      stored and nothing else changes. */
  function SetDensity(b: Body, density: real): (r: Result<Body>)
    ensures r.Panic? <==> density == 0.0
    ensures r.Ok? ==> r.value.density == density && r.value.(density := b.density) == b
  {
    if density == 0.0 then Panic("assertion failed: density != 0.0") else Ok(b.(density := density))
  }

  /** After a successful `set_density`, a body with positive volume has
      non-zero mass, so the impulse division is defined. */
  lemma SetDensityGivesMass(b: Body, density: real)
    requires SetDensity(b, density).Ok? && Volume(b.transform) != 0.0
    ensures Mass(SetDensity(b, density).value) != 0.0
  {
    var f, v := MassFactor(b.kind), Volume(b.transform);
    assert f * density != 0.0;
    assert f * density * v != 0.0;
  }

  function SetVelocity(b: Body, velocity: IVec3): (r: Body)
    ensures r.velocity == velocity && r.(velocity := b.velocity) == b
  {
    b.(velocity := velocity)
  }

  function SetAngularVelocity(b: Body, angularVelocity: Vec3): (r: Body)
    ensures r.angularVelocity == angularVelocity && r.(angularVelocity := b.angularVelocity) == b
  {
    b.(angularVelocity := angularVelocity)
  }

  /** The elasticity every new physics object starts with. */
  const DEFAULT_ELASTICITY: real := 0.4

  function SetElasticity(b: Body, elasticity: real): (r: Body)
    ensures r.elasticity == elasticity && r.(elasticity := b.elasticity) == b
  {
    b.(elasticity := elasticity)
  }

  /** The two setters touch different fields, so their order does not
      matter, and writing the value already there changes nothing. */
  lemma SettersIndependent(b: Body, v: IVec3, w: Vec3)
    ensures SetVelocity(SetAngularVelocity(b, w), v) == SetAngularVelocity(SetVelocity(b, v), w)
    ensures SetVelocity(b, b.velocity) == b && SetAngularVelocity(b, b.angularVelocity) == b
  {
  }

  /** `impulse`: the force divided by the mass, converted to micrometres
      with `as i64`, is added to the linear velocity. */
  function Impulse(b: Body, force: Vec3): (r: Body)
    requires Mass(b) != 0.0
    ensures r.angularVelocity == b.angularVelocity
    ensures r.(velocity := b.velocity) == b
    ensures ISub(r.velocity, b.velocity) == FromMeters(Scale(force, 1.0 / Mass(b)))
  {
    var a := Scale(force, 1.0 / Mass(b));
    b.(velocity := IAdd(b.velocity, FromMeters(a)))
  }

  /** For a positive mass each component of the velocity change has the
      sign of the force component (or is zero), and a zero force changes
      nothing. */
  lemma ImpulseFollowsForce(b: Body, force: Vec3)
    requires Mass(b) > 0.0
    ensures force.x >= 0.0 ==> Impulse(b, force).velocity.x >= b.velocity.x
    ensures force.x <= 0.0 ==> Impulse(b, force).velocity.x <= b.velocity.x
    ensures force == ZERO ==> Impulse(b, force) == b
  {
    var m := Mass(b);
    var u := UNITS_PER_METER as real;
    var inv := 1.0 / m;
    assert inv > 0.0;
    if force.x >= 0.0 {
      assert force.x * inv >= 0.0;
      assert force.x * inv * u >= 0.0;
      TruncRealMonotone(0.0, force.x * inv * u);
    }
    if force.x <= 0.0 {
      assert force.x * inv <= 0.0;
      assert force.x * inv * u <= 0.0;
      TruncRealMonotone(force.x * inv * u, 0.0);
    }
    if force == ZERO {
      assert Scale(force, inv) == ZERO;
      assert FromMeters(ZERO) == IZERO;
    }
  }

  /** The inertia tensor has no zero component, so `component_div` by it is
      a finite vector. */
  predicate TensorInvertible(b: Body)
  {
    var t := InertiaTensor.MomentOfInertia(b.kind, b.transform.scl, Mass(b));
    t.Ok? ==> t.value.x != 0.0 && t.value.y != 0.0 && t.value.z != 0.0
  }

  /** `torque_from_force_at_pos`: the torque `rel_pos × force` (with the
      offset read as metres) divided component-wise by the inertia tensor
      is added to the angular velocity; a convex body panics in the tensor. */
  function TorqueFromForceAtPos(b: Body, force: Vec3, relPos: IVec3): (r: Result<Body>)
    requires TensorInvertible(b)
    ensures r.Panic? <==> b.kind.Convex?
    ensures r.Ok? ==> r.value.(angularVelocity := b.angularVelocity) == b
    ensures r.Ok? ==> (
      var t := InertiaTensor.MomentOfInertia(b.kind, b.transform.scl, Mass(b)).value;
      Sub(r.value.angularVelocity, b.angularVelocity) == CompDiv(Cross(ToMeters(relPos), force), t))
  {
    var torque := Cross(ToMeters(relPos), force);
    var tensor := InertiaTensor.MomentOfInertia(b.kind, b.transform.scl, Mass(b));
    if tensor.Panic? then Panic(tensor.reason)
    else Ok(b.(angularVelocity := Add(b.angularVelocity, CompDiv(torque, tensor.value))))
  }

  /** A force applied at the centre, or along the lever arm, adds no spin. */
  lemma TorqueAlongArmIsZero(b: Body, force: Vec3, relPos: IVec3, k: real)
    requires TensorInvertible(b) && !b.kind.Convex?
    requires force == Scale(ToMeters(relPos), k)
    ensures TorqueFromForceAtPos(b, force, relPos) == Ok(b)
  {
    var p := ToMeters(relPos);
    CrossScaledSelf(p, k);
    var t := InertiaTensor.MomentOfInertia(b.kind, b.transform.scl, Mass(b)).value;
    CompDivZero(t);
    var r := TorqueFromForceAtPos(b, force, relPos);
    assert Sub(r.value.angularVelocity, b.angularVelocity) == ZERO;
  }

  /** A vector crossed with a multiple of itself vanishes. */
  lemma CrossScaledSelf(p: Vec3, k: real)
    ensures Cross(p, Scale(p, k)) == ZERO
  {
    assert p.y * (p.z * k) == p.z * (p.y * k);
    assert p.z * (p.x * k) == p.x * (p.z * k);
    assert p.x * (p.y * k) == p.y * (p.x * k);
  }

  lemma CompDivZero(t: Vec3)
    requires t.x != 0.0 && t.y != 0.0 && t.z != 0.0
    ensures CompDiv(ZERO, t) == ZERO
  {
  }

  /** `impulse_at_pos`: `impulse` followed by `torque_from_force_at_pos`
      with the same force and offset. */
  function ImpulseAtPos(b: Body, force: Vec3, relPos: IVec3): (r: Result<Body>)
    requires Mass(b) != 0.0 && TensorInvertible(b)
    ensures r.Panic? <==> b.kind.Convex?
  {
    TorqueFromForceAtPos(Impulse(b, force), force, relPos)
  }

  /** The two halves act on disjoint fields: the linear velocity ends where
      `impulse` alone puts it and the angular velocity where the torque alone
      puts it. */
  lemma ImpulseAtPosSplits(b: Body, force: Vec3, relPos: IVec3)
    requires Mass(b) != 0.0 && TensorInvertible(b) && !b.kind.Convex?
    ensures ImpulseAtPos(b, force, relPos).value.velocity == Impulse(b, force).velocity
    ensures ImpulseAtPos(b, force, relPos).value.angularVelocity == TorqueFromForceAtPos(b, force, relPos).value.angularVelocity
  {
    var i := Impulse(b, force);
    assert Mass(i) == Mass(b);
    assert TensorInvertible(i);
  }

  /** `len` is the magnitude of `p`: non-negative, with `len * len == p · p`. */
  predicate IsLength(p: Vec3, len: real)
  {
    len >= 0.0 && len * len == Dot(p, p)
  }

  /** `local_velocity_at_point` as written: `(ω × p) * |p|`, converted to
      micrometres; `len` stands for the magnitude `|p|` (see `IsLength`).
      The extra factor makes the result grow with the square of the
      distance. */
  function LocalVelocityAtPointAsWritten(b: Body, p: Vec3, len: real): (v: IVec3)
    ensures b.angularVelocity == ZERO ==> v == IZERO
  {
    var direction := Cross(b.angularVelocity, p);
    FromMeters(Scale(direction, len))
  }

  /** The velocity of a body point due to spin alone: `ω × p`, converted to
      micrometres. It vanishes without spin and at the centre. */
  function LocalVelocityAtPoint(b: Body, p: Vec3): (v: IVec3)
    ensures b.angularVelocity == ZERO || p == ZERO ==> v == IZERO
  {
    FromMeters(Cross(b.angularVelocity, p))
  }

  /** Points on the spin axis do not move. */
  lemma SpinAxisStill(b: Body, k: real)
    ensures LocalVelocityAtPoint(b, Scale(b.angularVelocity, k)) == IZERO
  {
    CrossScaledSelf(b.angularVelocity, k);
  }

  /** The two agree exactly at unit distance, where the extra factor is 1. */
  lemma LocalVelocityAgreesAtUnitDistance(b: Body, p: Vec3)
    requires IsLength(p, 1.0)
    ensures LocalVelocityAtPointAsWritten(b, p, 1.0) == LocalVelocityAtPoint(b, p)
  {
    var d := Cross(b.angularVelocity, p);
    assert Scale(d, 1.0) == d;
  }

  /** Spinning at 1 rad/s about z, the point 2 m out on x moves at 2 m/s;
      the source reports 4 m/s. */
  lemma LocalVelocityAsWrittenDoubles(b: Body)
    requires b.angularVelocity == Vec3(0.0, 0.0, 1.0)
    ensures IsLength(Vec3(2.0, 0.0, 0.0), 2.0)
    ensures LocalVelocityAtPoint(b, Vec3(2.0, 0.0, 0.0)) == IVec3(0, 2000000, 0)
    ensures LocalVelocityAtPointAsWritten(b, Vec3(2.0, 0.0, 0.0), 2.0) == IVec3(0, 4000000, 0)
  {
    ExampleLength();
    SpinExampleCorrected(b);
    SpinExampleAsWritten(b);
  }

  lemma ExampleLength()
    ensures IsLength(Vec3(2.0, 0.0, 0.0), 2.0)
  {
  }

  lemma SpinExampleCorrected(b: Body)
    requires b.angularVelocity == Vec3(0.0, 0.0, 1.0)
    ensures LocalVelocityAtPoint(b, Vec3(2.0, 0.0, 0.0)) == IVec3(0, 2000000, 0)
  {
    SpinExampleCorrectedValue();
  }

  lemma SpinExampleCorrectedValue()
    ensures FromMeters(Cross(Vec3(0.0, 0.0, 1.0), Vec3(2.0, 0.0, 0.0))) == IVec3(0, 2000000, 0)
  {
    SpinExampleCross();
    TwoMetresAlongY();
  }

  lemma SpinExampleAsWritten(b: Body)
    requires b.angularVelocity == Vec3(0.0, 0.0, 1.0)
    ensures LocalVelocityAtPointAsWritten(b, Vec3(2.0, 0.0, 0.0), 2.0) == IVec3(0, 4000000, 0)
  {
    SpinExampleAsWrittenValue();
  }

  lemma SpinExampleAsWrittenValue()
    ensures FromMeters(Scale(Cross(Vec3(0.0, 0.0, 1.0), Vec3(2.0, 0.0, 0.0)), 2.0)) == IVec3(0, 4000000, 0)
  {
    SpinExampleCross();
    SpinExampleScale();
    FourMetresAlongY();
  }

  lemma SpinExampleCross()
    ensures Cross(Vec3(0.0, 0.0, 1.0), Vec3(2.0, 0.0, 0.0)) == Vec3(0.0, 2.0, 0.0)
  {
  }

  lemma SpinExampleScale()
    ensures Scale(Vec3(0.0, 2.0, 0.0), 2.0) == Vec3(0.0, 4.0, 0.0)
  {
  }

  lemma TwoMetresAlongY()
    ensures FromMeters(Vec3(0.0, 2.0, 0.0)) == IVec3(0, 2000000, 0)
  {
    MetresAlongY(2.0, 2000000);
  }

  lemma FourMetresAlongY()
    ensures FromMeters(Vec3(0.0, 4.0, 0.0)) == IVec3(0, 4000000, 0)
  {
    MetresAlongY(4.0, 4000000);
  }

  lemma MetresAlongY(y: real, n: int)
    requires y * UNITS_PER_METER as real == n as real
    ensures FromMeters(Vec3(0.0, y, 0.0)) == IVec3(0, n, 0)
  {
    TruncRealOfInt(0);
    TruncRealOfInt(n);
  }

  /** `velocity_at_point`: the rotational part plus the linear velocity. */
  function VelocityAtPoint(b: Body, p: Vec3): (v: IVec3)
    ensures ISub(v, b.velocity) == LocalVelocityAtPoint(b, p)
  {
    IAdd(LocalVelocityAtPoint(b, p), b.velocity)
  }

  /** A body that does not spin moves every point with its own velocity,
      and the centre always does. */
  lemma VelocityAtPointWithoutSpin(b: Body, p: Vec3)
    ensures b.angularVelocity == ZERO ==> VelocityAtPoint(b, p) == b.velocity
    ensures p == ZERO ==> VelocityAtPoint(b, p) == b.velocity
  {
  }
}

=== FILE: spatial_acceleration_structure.dfy ===
/** The broad-phase spatial index: an octree of integer (micrometre)
    axis-aligned boxes. Nodes live in an arena; a child's index is always
    larger than its parent's, which is what makes every descent terminate.
    Objects are identified by opaque handles. */
module SpatialAccelerationStructure {
  import opened Base
  import opened Vectors

  /** A leaf holding this many objects is meant to be split into eight. */
  const SPLIT_THRESHOLD: nat := 10

  datatype AABB = AABB(min: IVec3, max: IVec3, center: IVec3)

  /** An object stored in the index, identified by its position in the world. */
  datatype Handle = Handle(id: nat)

  datatype Node = Node(
    aabb: AABB,
    parent: Option<nat>,
    children: seq<nat>,
    objects: seq<Handle>,
    objectBoxes: seq<AABB>,
    cannotSplit: bool)

  /** `nodes[0]` is the root; `locations` maps an object to the node holding it. */
  datatype Tree = Tree(nodes: seq<Node>, locations: map<Handle, nat>)

  // ---------------------------------------------------------------------
  // Box algebra
  // ---------------------------------------------------------------------

  /** The half-extent `AABB::new` uses on every axis: the largest scale
      component in micrometres, cast with truncation. */
  function HalfExtent(scl: Vec3): int
  {
    TruncReal(RealMax(scl.x, RealMax(scl.y, scl.z)) * UNITS_PER_METER as real)
  }

  /** `AABB::new`: a cube centred on the position. */
  function NewAABB(t: Transform): (b: AABB)
    ensures b.center == t.pos
    ensures b.max.x - t.pos.x == HalfExtent(t.scl) && t.pos.x - b.min.x == HalfExtent(t.scl)
    ensures b.max.y - t.pos.y == HalfExtent(t.scl) && t.pos.y - b.min.y == HalfExtent(t.scl)
    ensures b.max.z - t.pos.z == HalfExtent(t.scl) && t.pos.z - b.min.z == HalfExtent(t.scl)
  {
    var d := HalfExtent(t.scl);
    var dv := IVec3(d, d, d);
    AABB(ISub(t.pos, dv), IAdd(t.pos, dv), t.pos)
  }

  /** The shared half-extent reaches at least the scale of every axis, so the
      box of a unit-sized mesh covers it twice over whatever its aspect. */
  lemma NewAABBCoversScale(t: Transform)
    ensures HalfExtent(t.scl) >= TruncReal(t.scl.x * UNITS_PER_METER as real)
    ensures HalfExtent(t.scl) >= TruncReal(t.scl.y * UNITS_PER_METER as real)
    ensures HalfExtent(t.scl) >= TruncReal(t.scl.z * UNITS_PER_METER as real)
  {
    var m := RealMax(t.scl.x, RealMax(t.scl.y, t.scl.z));
    assert t.scl.x <= m && t.scl.y <= m && t.scl.z <= m;
    TruncScaled(t.scl.x, m);
    TruncScaled(t.scl.y, m);
    TruncScaled(t.scl.z, m);
  }

  lemma TruncScaled(s: real, m: real)
    requires s <= m
    ensures TruncReal(s * UNITS_PER_METER as real) <= TruncReal(m * UNITS_PER_METER as real)
  {
    ScaleMonotone(s, m, UNITS_PER_METER as real);
    TruncRealMonotone(s * UNITS_PER_METER as real, m * UNITS_PER_METER as real);
  }

  lemma ScaleMonotone(a: real, b: real, u: real)
    requires a <= b && u >= 0.0
    ensures a * u <= b * u
  {
    assert b * u - a * u == (b - a) * u;
  }

  /** Non-strict enclosure: every bound of `inner` lies within `outer`'s. */
  predicate Encloses(outer: AABB, inner: AABB)
  {
    outer.min.x <= inner.min.x && outer.min.y <= inner.min.y && outer.min.z <= inner.min.z &&
    inner.max.x <= outer.max.x && inner.max.y <= outer.max.y && inner.max.z <= outer.max.z
  }

  /** `AABB::fit`: grows `a` just enough to hold `other`; the centre is kept. */
  function Fit(a: AABB, other: AABB): (r: AABB)
    ensures r.center == a.center
    ensures Encloses(r, a) && Encloses(r, other)
    ensures forall c :: Encloses(c, a) && Encloses(c, other) ==> Encloses(c, r)
  {
    AABB(IVec3(Min(a.min.x, other.min.x), Min(a.min.y, other.min.y), Min(a.min.z, other.min.z)),
         IVec3(Max(a.max.x, other.max.x), Max(a.max.y, other.max.y), Max(a.max.z, other.max.z)),
         a.center)
  }

  /** Fitting to a box already held changes nothing; in particular fitting
      twice to the same box is the same as fitting once. */
  lemma FitIdempotent(a: AABB, b: AABB)
    ensures Encloses(a, b) ==> Fit(a, b) == a
    ensures Fit(Fit(a, b), b) == Fit(a, b)
  {
  }

  lemma EnclosesTransitive(a: AABB, b: AABB, c: AABB)
    requires Encloses(a, b) && Encloses(b, c)
    ensures Encloses(a, c)
  {
  }

  /** `AABB::contains`: strict on all six bounds. */
  predicate Contains(outer: AABB, inner: AABB)
  {
    outer.min.x < inner.min.x && outer.min.y < inner.min.y && outer.min.z < inner.min.z &&
    outer.max.x > inner.max.x && outer.max.y > inner.max.y && outer.max.z > inner.max.z
  }

  /** No box contains itself, nor any box with which it shares a bound;
      containment is transitive and implies enclosure. */
  lemma ContainsStrict(a: AABB, b: AABB, c: AABB)
    ensures !Contains(a, a)
    ensures (a.min.x == b.min.x || a.min.y == b.min.y || a.min.z == b.min.z ||
             a.max.x == b.max.x || a.max.y == b.max.y || a.max.z == b.max.z) ==> !Contains(a, b)
    ensures Contains(a, b) ==> Encloses(a, b)
    ensures Contains(a, b) && Contains(b, c) ==> Contains(a, c)
  {
  }

  /** `AABB::touches`: the open intervals overlap on every axis. */
  predicate Touches(a: AABB, b: AABB)
  {
    a.min.x < b.max.x && a.max.x > b.min.x &&
    a.min.y < b.max.y && a.max.y > b.min.y &&
    a.min.z < b.max.z && a.max.z > b.min.z
  }

  /** A point strictly inside a box (the box's interior, as a real region). */
  predicate InInterior(p: Vec3, b: AABB)
  {
    b.min.x as real < p.x < b.max.x as real &&
    b.min.y as real < p.y < b.max.y as real &&
    b.min.z as real < p.z < b.max.z as real
  }

  function Midpoint(lo: int, hi: int): (p: real)
    requires lo < hi
    ensures lo as real < p < hi as real
  {
    (lo as real + hi as real) / 2.0
  }

  /** A box with a non-empty interior: min below max on every axis. */
  predicate Proper(b: AABB)
  {
    b.min.x < b.max.x && b.min.y < b.max.y && b.min.z < b.max.z
  }

  /** Two proper boxes touch exactly when their interiors share a point. */
  lemma TouchesIffInteriorsMeet(a: AABB, b: AABB)
    requires Proper(a) && Proper(b)
    ensures Touches(a, b) <==> exists p :: InInterior(p, a) && InInterior(p, b)
  {
    if Touches(a, b) {
      var p := Vec3(Midpoint(Max(a.min.x, b.min.x), Min(a.max.x, b.max.x)),
                    Midpoint(Max(a.min.y, b.min.y), Min(a.max.y, b.max.y)),
                    Midpoint(Max(a.min.z, b.min.z), Min(a.max.z, b.max.z)));
      assert InInterior(p, a) && InInterior(p, b);
    }
  }

  /** Touching is symmetric, boxes that only share a face do not touch, and
      a box enclosing one that touches `b` touches `b` too. */
  lemma TouchesProperties(a: AABB, b: AABB, c: AABB)
    ensures Touches(a, b) <==> Touches(b, a)
    ensures (a.max.x == b.min.x || a.max.y == b.min.y || a.max.z == b.min.z) ==> !Touches(a, b)
    ensures Touches(a, b) && Encloses(c, a) ==> Touches(c, b)
  {
  }

  // ---------------------------------------------------------------------
  // The tree
  // ---------------------------------------------------------------------

  /** Shape of one node: parallel object lists, no children or all eight,
      children stored after their parent. */
  predicate NodeOk(t: Tree, i: nat)
    requires i < |t.nodes|
  {
    var n := t.nodes[i];
    |n.objects| == |n.objectBoxes| &&
    (|n.children| == 0 || |n.children| == 8) &&
    forall k :: 0 <= k < |n.children| ==> i < n.children[k] < |t.nodes|
  }

  predicate WellFormed(t: Tree)
  {
    forall i :: 0 <= i < |t.nodes| ==> NodeOk(t, i)
  }

  /** j lies in the subtree rooted at i. */
  ghost predicate Below(t: Tree, i: nat, j: nat)
    decreases |t.nodes| - i
  {
    i == j ||
    (i < |t.nodes| &&
     exists k :: 0 <= k < |t.nodes[i].children| && i < t.nodes[i].children[k] < |t.nodes| &&
       Below(t, t.nodes[i].children[k], j))
  }

  /** `SpatialAccelerationStructure::new`. */
  function New(): (t: Tree)
    ensures WellFormed(t)
    ensures forall b :: QueryAabb(t, b) == []
  {
    Tree([], map[])
  }

  /** The octant a box goes to: bit x (value 4) is 0 iff the node centre is
      strictly greater on x, likewise y (value 2) and z (value 1). */
  function Octant(nodeCenter: IVec3, boxCenter: IVec3): (o: nat)
    ensures o < 8
    ensures o / 4 == 0 <==> nodeCenter.x > boxCenter.x
    ensures (o / 2) % 2 == 0 <==> nodeCenter.y > boxCenter.y
    ensures o % 2 == 0 <==> nodeCenter.z > boxCenter.z
  {
    var x := if nodeCenter.x > boxCenter.x then 0 else 1;
    var y := if nodeCenter.y > boxCenter.y then 0 else 1;
    var z := if nodeCenter.z > boxCenter.z then 0 else 1;
    x * 4 + y * 2 + z
  }

  /** The nodes `insert` pushes while descending from i: each child it moves
      to, then the leaf it stops at (so a leaf reached from above is pushed
      twice, and an internal start node is never pushed). */
  function Backtrace(t: Tree, i: nat, box: AABB): (bt: seq<nat>)
    requires WellFormed(t) && i < |t.nodes|
    ensures |bt| >= 1
    ensures forall k :: 0 <= k < |bt| ==> i <= bt[k] < |t.nodes|
    ensures t.nodes[i].children == [] ==> bt == [i]
    ensures t.nodes[i].children != [] ==> forall k :: 0 <= k < |bt| ==> i < bt[k]
    ensures t.nodes[i].children != [] ==> bt[0] == t.nodes[i].children[Octant(t.nodes[i].aabb.center, box.center)]
    ensures t.nodes[bt[|bt| - 1]].children == []
    ensures Below(t, i, bt[|bt| - 1])
    decreases |t.nodes| - i
  {
    if t.nodes[i].children == [] then [i]
    else
      assert NodeOk(t, i);
      var o := Octant(t.nodes[i].aabb.center, box.center);
      var c := t.nodes[i].children[o];
      var rest := Backtrace(t, c, box);
      assert Below(t, c, rest[|rest| - 1]);
      [c] + rest
  }

  /** One step of the descent: from an internal node to the child of the
      box's octant, and from a leaf to itself (the leaf pushed a second
      time). */
  predicate OctantStep(t: Tree, a: nat, b: nat, box: AABB)
    requires WellFormed(t) && a < |t.nodes|
  {
    assert NodeOk(t, a);
    if t.nodes[a].children == [] then b == a
    else b == t.nodes[a].children[Octant(t.nodes[a].aabb.center, box.center)]
  }

  /** Every entry of `bt` is the octant step of the one before. */
  predicate OctantChain(t: Tree, bt: seq<nat>, box: AABB)
    requires WellFormed(t) && forall k :: 0 <= k < |bt| ==> bt[k] < |t.nodes|
  {
    forall k :: 0 <= k < |bt| - 1 ==> OctantStep(t, bt[k], bt[k + 1], box)
  }

  /** The descent path is a chain of octant steps: each entry is the octant
      child of the one before, until the leaf is reached. */
  lemma {:induction false} BacktraceFollowsOctants(t: Tree, i: nat, box: AABB)
    requires WellFormed(t) && i < |t.nodes|
    ensures OctantChain(t, Backtrace(t, i, box), box)
    decreases |t.nodes| - i
  {
    var bt := Backtrace(t, i, box);
    if t.nodes[i].children != [] {
      assert NodeOk(t, i);
      var c := bt[0];
      var rest := Backtrace(t, c, box);
      assert bt == [c] + rest;
      BacktraceFollowsOctants(t, c, box);
      assert OctantStep(t, bt[0], bt[1], box);
      forall k | 1 <= k < |bt| - 1
        ensures OctantStep(t, bt[k], bt[k + 1], box)
      {
        assert bt[k] == rest[k - 1] && bt[k + 1] == rest[(k - 1) + 1];
      }
    }
  }

  /** The leaf that `insert` puts a box with this centre into. */
  function InsertLeaf(t: Tree, box: AABB): (leaf: nat)
    requires WellFormed(t) && |t.nodes| > 0
    ensures leaf < |t.nodes| && t.nodes[leaf].children == []
    ensures leaf in Backtrace(t, 0, box)
  {
    var bt := Backtrace(t, 0, box);
    bt[|bt| - 1]
  }

  /** Fits every node named in `bt` to `box`, in order. */
  function FitAll(nodes: seq<Node>, bt: seq<nat>, box: AABB): (r: seq<Node>)
    requires forall k :: 0 <= k < |bt| ==> bt[k] < |nodes|
    ensures |r| == |nodes|
    ensures forall j :: 0 <= j < |nodes| ==>
      r[j] == nodes[j].(aabb := if j in bt then Fit(nodes[j].aabb, box) else nodes[j].aabb)
    decreases |bt|
  {
    if |bt| == 0 then nodes
    else
      var j := bt[0];
      var fitted := nodes[j := nodes[j].(aabb := Fit(nodes[j].aabb, box))];
      var r := FitAll(fitted, bt[1..], box);
      assert forall q :: 0 <= q < |nodes| ==> (q in bt <==> q == j || q in bt[1..]);
      FitIdempotent(nodes[j].aabb, box);
      r
  }

  /** `insert`: into an empty tree, a single root leaf holding the object;
      otherwise the object is appended to the leaf reached by octants and
      every node on the backtrace is fitted to its box. */
  function Insert(t: Tree, h: Handle, tr: Transform): (r: Tree)
    requires WellFormed(t)
    ensures WellFormed(r)
    ensures |r.nodes| == (if |t.nodes| == 0 then 1 else |t.nodes|)
    ensures forall j :: 0 <= j < |t.nodes| ==>
      r.nodes[j].children == t.nodes[j].children && r.nodes[j].aabb.center == t.nodes[j].aabb.center
  {
    var box := NewAABB(tr);
    if |t.nodes| == 0 then
      Tree([Node(box, None, [], [h], [box], false)], t.locations)
    else
      var bt := Backtrace(t, 0, box);
      var leaf := InsertLeaf(t, box);
      var n := t.nodes[leaf];
      var appended := t.nodes[leaf := n.(objects := n.objects + [h],
                                         objectBoxes := n.objectBoxes + [box],
                                         cannotSplit := false)];
      var r := Tree(FitAll(appended, bt, box), t.locations[h := leaf]);
      SameShapeUpdate(t.nodes, leaf, appended[leaf]);
      SameShapeFitAll(appended, bt, box);
      SameShapeWellFormed(t, appended, r);
      r
  }

  /** `b` has `a`'s children everywhere and keeps its object lists parallel. */
  predicate SameShape(a: seq<Node>, b: seq<Node>)
  {
    |a| == |b| &&
    forall j :: 0 <= j < |a| ==> (b[j].children == a[j].children &&
      (|a[j].objects| == |a[j].objectBoxes| ==> |b[j].objects| == |b[j].objectBoxes|))
  }

  lemma SameShapeUpdate(a: seq<Node>, i: nat, n: Node)
    requires i < |a| && n.children == a[i].children && |n.objects| - |a[i].objects| == |n.objectBoxes| - |a[i].objectBoxes|
    ensures SameShape(a, a[i := n])
  {
  }

  lemma SameShapeFitAll(nodes: seq<Node>, bt: seq<nat>, box: AABB)
    requires forall k :: 0 <= k < |bt| ==> bt[k] < |nodes|
    ensures SameShape(nodes, FitAll(nodes, bt, box))
  {
  }

  lemma SameShapeWellFormed(t: Tree, mid: seq<Node>, r: Tree)
    requires WellFormed(t) && SameShape(t.nodes, mid) && SameShape(mid, r.nodes)
    ensures WellFormed(r)
  {
    forall i | 0 <= i < |r.nodes|
      ensures NodeOk(r, i)
    {
      assert NodeOk(t, i);
    }
  }

  /** Inserting into an empty tree creates one root leaf whose box is the
      object's box and whose lists hold only that object; the location map is
      left as it was, so the first object is never recorded there. */
  lemma InsertIntoEmpty(t: Tree, h: Handle, tr: Transform)
    requires WellFormed(t) && |t.nodes| == 0
    ensures var r := Insert(t, h, tr);
      |r.nodes| == 1 && r.nodes[0].children == [] && r.nodes[0].aabb == NewAABB(tr) &&
      r.nodes[0].objects == [h] && r.nodes[0].objectBoxes == [NewAABB(tr)] &&
      r.locations == t.locations
  {
  }

  /** Inserting into a non-empty tree appends the object and its box to
      exactly one leaf, clears that leaf's `cannotSplit`, records the leaf as
      the object's location, and leaves every other node's lists alone. */
  lemma InsertAppendsToLeaf(t: Tree, h: Handle, tr: Transform)
    requires WellFormed(t) && |t.nodes| > 0
    ensures var r := Insert(t, h, tr);
      var leaf := InsertLeaf(t, NewAABB(tr));
      r.nodes[leaf].objects == t.nodes[leaf].objects + [h] &&
      r.nodes[leaf].objectBoxes == t.nodes[leaf].objectBoxes + [NewAABB(tr)] &&
      !r.nodes[leaf].cannotSplit &&
      r.locations == t.locations[h := leaf] &&
      forall j :: 0 <= j < |t.nodes| && j != leaf ==>
        r.nodes[j].objects == t.nodes[j].objects &&
        r.nodes[j].objectBoxes == t.nodes[j].objectBoxes &&
        r.nodes[j].cannotSplit == t.nodes[j].cannotSplit
  {
  }

  /** Exactly the nodes on the backtrace are fitted to the new box; all
      other boxes are unchanged. */
  lemma InsertFitsBacktrace(t: Tree, h: Handle, tr: Transform)
    requires WellFormed(t) && |t.nodes| > 0
    ensures var r := Insert(t, h, tr);
      var bt := Backtrace(t, 0, NewAABB(tr));
      forall j :: 0 <= j < |t.nodes| ==>
        r.nodes[j].aabb == if j in bt then Fit(t.nodes[j].aabb, NewAABB(tr)) else t.nodes[j].aabb
  {
    var box := NewAABB(tr);
    var bt := Backtrace(t, 0, box);
    var leaf := InsertLeaf(t, box);
    var n := t.nodes[leaf];
    var appended := t.nodes[leaf := n.(objects := n.objects + [h],
                                       objectBoxes := n.objectBoxes + [box],
                                       cannotSplit := false)];
    assert Insert(t, h, tr).nodes == FitAll(appended, bt, box);
    assert forall j :: 0 <= j < |t.nodes| ==> appended[j].aabb == t.nodes[j].aabb;
  }

  /** When the root is a leaf its box afterwards encloses the new object's box;
      when it has children its box is never fitted. */
  lemma InsertRoot(t: Tree, h: Handle, tr: Transform)
    requires WellFormed(t) && |t.nodes| > 0
    ensures t.nodes[0].children == [] ==> Encloses(Insert(t, h, tr).nodes[0].aabb, NewAABB(tr))
    ensures t.nodes[0].children != [] ==> Insert(t, h, tr).nodes[0].aabb == t.nodes[0].aabb
  {
    InsertFitsBacktrace(t, h, tr);
  }

  /** Every node's box encloses the boxes of the objects it holds. */
  predicate OwnBoxesEnclosed(t: Tree)
  {
    forall i, m :: 0 <= i < |t.nodes| && 0 <= m < |t.nodes[i].objectBoxes| ==>
      Encloses(t.nodes[i].aabb, t.nodes[i].objectBoxes[m])
  }

  lemma {:induction false} InsertPreservesOwnBoxesEnclosed(t: Tree, h: Handle, tr: Transform)
    requires WellFormed(t) && OwnBoxesEnclosed(t)
    ensures OwnBoxesEnclosed(Insert(t, h, tr))
  {
    if |t.nodes| > 0 {
      var r := Insert(t, h, tr);
      var box := NewAABB(tr);
      var leaf := InsertLeaf(t, box);
      InsertAppendsToLeaf(t, h, tr);
      InsertFitsBacktrace(t, h, tr);
      forall i, m | 0 <= i < |r.nodes| && 0 <= m < |r.nodes[i].objectBoxes|
        ensures Encloses(r.nodes[i].aabb, r.nodes[i].objectBoxes[m])
      {
        assert Encloses(r.nodes[i].aabb, t.nodes[i].aabb);
        if i == leaf && m == |t.nodes[i].objectBoxes| {
          assert r.nodes[i].objectBoxes[m] == box;
        } else {
          assert r.nodes[i].objectBoxes[m] == t.nodes[i].objectBoxes[m];
          EnclosesTransitive(r.nodes[i].aabb, t.nodes[i].aabb, t.nodes[i].objectBoxes[m]);
        }
      }
    }
  }

  /** Every recorded location names a node that holds the object. */
  predicate LocationsAccurate(t: Tree)
  {
    forall h :: h in t.locations ==> t.locations[h] < |t.nodes| && h in t.nodes[t.locations[h]].objects
  }

  lemma InsertPreservesLocationsAccurate(t: Tree, h: Handle, tr: Transform)
    requires WellFormed(t) && LocationsAccurate(t)
    ensures LocationsAccurate(Insert(t, h, tr))
  {
    if |t.nodes| > 0 {
      InsertAppendsToLeaf(t, h, tr);
    }
  }

  /** The trees `insert` builds from an empty one: at most a single leaf. */
  predicate SingleLeaf(t: Tree)
  {
    |t.nodes| <= 1 && forall i :: 0 <= i < |t.nodes| ==> t.nodes[i].children == []
  }

  /** Nothing ever splits a leaf, so insertion keeps the tree a single leaf. */
  lemma InsertKeepsSingleLeaf(t: Tree, h: Handle, tr: Transform)
    requires WellFormed(t) && SingleLeaf(t)
    ensures SingleLeaf(Insert(t, h, tr)) && |Insert(t, h, tr).nodes| == 1
  {
  }

  /** `remove` has an empty body. */
  function Remove(t: Tree, h: Handle): (r: Tree)
    ensures r == t
  {
    t
  }

  // ---------------------------------------------------------------------
  // Queries
  // ---------------------------------------------------------------------

  /** The q-th child of node i strictly contains `box`. */
  predicate ChildContains(t: Tree, i: nat, q: nat, box: AABB)
    requires i < |t.nodes| && q < |t.nodes[i].children|
  {
    var c := t.nodes[i].children[q];
    c < |t.nodes| && Contains(t.nodes[c].aabb, box)
  }

  /** The first child of node i, from position k on, whose box strictly
      contains `box`. */
  function FirstContaining(t: Tree, i: nat, box: AABB, k: nat): (c: Option<nat>)
    requires WellFormed(t) && i < |t.nodes| && k <= |t.nodes[i].children|
    ensures c.None? <==> forall q :: k <= q < |t.nodes[i].children| ==> !ChildContains(t, i, q, box)
    ensures c.Some? ==>
      (exists q :: k <= q < |t.nodes[i].children| && c.value == t.nodes[i].children[q] && ChildContains(t, i, q, box))
    ensures c.Some? ==> i < c.value < |t.nodes| && Contains(t.nodes[c.value].aabb, box)
    decreases |t.nodes[i].children| - k
  {
    assert NodeOk(t, i);
    if k == |t.nodes[i].children| then None
    else
      var c := t.nodes[i].children[k];
      if Contains(t.nodes[c].aabb, box) then
        assert ChildContains(t, i, k, box);
        Some(c)
      else FirstContaining(t, i, box, k + 1)
  }

  /** The descent of `query_aabb`: move to the first child that strictly
      contains the box until none does. The result lies below the start, no
      child of it contains the box, and it is the start or contains the box. */
  function Descend(t: Tree, i: nat, box: AABB): (d: nat)
    requires WellFormed(t) && i < |t.nodes|
    ensures i <= d < |t.nodes| && Below(t, i, d)
    ensures d == i || Contains(t.nodes[d].aabb, box)
    ensures forall q :: 0 <= q < |t.nodes[d].children| ==> !ChildContains(t, d, q, box)
    decreases |t.nodes| - i
  {
    assert NodeOk(t, i);
    match FirstContaining(t, i, box, 0)
    case None => i
    case Some(c) =>
      var d := Descend(t, c, box);
      assert Below(t, i, d);
      d
  }

  /** The objects of one node whose stored box touches `box`, in order. */
  function OwnTouching(objects: seq<Handle>, boxes: seq<AABB>, box: AABB): (r: seq<Handle>)
    requires |objects| == |boxes|
    ensures |r| <= |objects|
    ensures forall h :: h in r <==> exists m :: 0 <= m < |objects| && objects[m] == h && Touches(boxes[m], box)
  {
    if |objects| == 0 then []
    else
      var rest := OwnTouching(objects[1..], boxes[1..], box);
      assert forall m :: 0 <= m < |objects| - 1 ==> objects[1..][m] == objects[m + 1] && boxes[1..][m] == boxes[m + 1];
      (if Touches(boxes[0], box) then [objects[0]] else []) + rest
  }

  /** `get_touching`: the children's results first, each in child order,
      then the node's own touching objects in insertion order. */
  function GetTouching(t: Tree, i: nat, box: AABB): (r: seq<Handle>)
    requires WellFormed(t) && i < |t.nodes|
    decreases |t.nodes| - i, 1, 0
  {
    assert NodeOk(t, i);
    ChildrenTouching(t, i, box, 0) + OwnTouching(t.nodes[i].objects, t.nodes[i].objectBoxes, box)
  }

  function ChildrenTouching(t: Tree, i: nat, box: AABB, k: nat): (r: seq<Handle>)
    requires WellFormed(t) && i < |t.nodes| && k <= |t.nodes[i].children|
    decreases |t.nodes| - i, 0, |t.nodes[i].children| - k
  {
    assert NodeOk(t, i);
    if k == |t.nodes[i].children| then []
    else GetTouching(t, t.nodes[i].children[k], box) + ChildrenTouching(t, i, box, k + 1)
  }

  /** Object h sits at position m of node j with a stored box touching `box`. */
  ghost predicate HitAt(t: Tree, j: nat, m: nat, box: AABB, h: Handle)
  {
    j < |t.nodes| && m < |t.nodes[j].objects| && m < |t.nodes[j].objectBoxes| &&
    t.nodes[j].objects[m] == h && Touches(t.nodes[j].objectBoxes[m], box)
  }

  /** `get_touching` returns exactly the objects of the subtree whose stored
      box touches the query box. */
  lemma {:induction false} GetTouchingMembership(t: Tree, i: nat, box: AABB, h: Handle)
    requires WellFormed(t) && i < |t.nodes|
    ensures h in GetTouching(t, i, box) <==> exists j, m :: Below(t, i, j) && HitAt(t, j, m, box, h)
    decreases |t.nodes| - i, 1, 0
  {
    assert NodeOk(t, i);
    var n := t.nodes[i];
    ChildrenTouchingMembership(t, i, box, 0, h);
    if h in GetTouching(t, i, box) {
      if h in ChildrenTouching(t, i, box, 0) {
        var c, j, m :| 0 <= c < |n.children| && Below(t, n.children[c], j) && HitAt(t, j, m, box, h);
        assert Below(t, i, j);
      } else {
        assert h in OwnTouching(n.objects, n.objectBoxes, box);
        var m :| 0 <= m < |n.objects| && n.objects[m] == h && Touches(n.objectBoxes[m], box);
        assert Below(t, i, i) && HitAt(t, i, m, box, h);
      }
    }
    if exists j, m :: Below(t, i, j) && HitAt(t, j, m, box, h) {
      var j, m :| Below(t, i, j) && HitAt(t, j, m, box, h);
      if j == i {
        assert h in OwnTouching(n.objects, n.objectBoxes, box);
      } else {
        var c :| 0 <= c < |n.children| && i < n.children[c] < |t.nodes| && Below(t, n.children[c], j);
        assert h in ChildrenTouching(t, i, box, 0);
      }
    }
  }

  lemma {:induction false} ChildrenTouchingMembership(t: Tree, i: nat, box: AABB, k: nat, h: Handle)
    requires WellFormed(t) && i < |t.nodes| && k <= |t.nodes[i].children|
    ensures h in ChildrenTouching(t, i, box, k) <==>
      exists c, j, m :: k <= c < |t.nodes[i].children| && Below(t, t.nodes[i].children[c], j) && HitAt(t, j, m, box, h)
    decreases |t.nodes| - i, 0, |t.nodes[i].children| - k
  {
    assert NodeOk(t, i);
    var n := t.nodes[i];
    if k < |n.children| {
      GetTouchingMembership(t, n.children[k], box, h);
      ChildrenTouchingMembership(t, i, box, k + 1, h);
      if exists c, j, m :: k <= c < |n.children| && Below(t, n.children[c], j) && HitAt(t, j, m, box, h) {
        var c, j, m :| k <= c < |n.children| && Below(t, n.children[c], j) && HitAt(t, j, m, box, h);
        if c == k {
          assert h in GetTouching(t, n.children[k], box);
        } else {
          assert h in ChildrenTouching(t, i, box, k + 1);
        }
      }
    }
  }

  /** `query_aabb`: nothing on an empty tree; otherwise the touching objects
      of the subtree of the descent node. */
  function QueryAabb(t: Tree, box: AABB): (r: seq<Handle>)
    requires WellFormed(t)
    ensures |t.nodes| == 0 ==> r == []
  {
    if |t.nodes| == 0 then [] else GetTouching(t, Descend(t, 0, box), box)
  }

  /** Query completeness within the start node: an object is returned iff it
      is stored in the descent node's subtree with a box touching the query. */
  lemma QueryMembership(t: Tree, box: AABB, h: Handle)
    requires WellFormed(t) && |t.nodes| > 0
    ensures h in QueryAabb(t, box) <==>
      exists j, m :: Below(t, Descend(t, 0, box), j) && HitAt(t, j, m, box, h)
  {
    GetTouchingMembership(t, Descend(t, 0, box), box, h);
  }

  /** On the single-leaf trees insertion builds, a query returns exactly the
      stored objects whose box touches the query box. */
  lemma QuerySingleLeaf(t: Tree, box: AABB, h: Handle)
    requires WellFormed(t) && SingleLeaf(t) && |t.nodes| == 1
    ensures h in QueryAabb(t, box) <==>
      exists m :: HitAt(t, 0, m, box, h)
  {
    assert NodeOk(t, 0);
    assert Descend(t, 0, box) == 0;
    assert ChildrenTouching(t, 0, box, 0) == [];
    var n := t.nodes[0];
    if h in QueryAabb(t, box) {
      var m :| 0 <= m < |n.objects| && n.objects[m] == h && Touches(n.objectBoxes[m], box);
      assert HitAt(t, 0, m, box, h);
    }
    assert QueryAabb(t, box) == OwnTouching(t.nodes[0].objects, t.nodes[0].objectBoxes, box);
  }

  /** The split check tests the number of children, which is 0 or 8 and so
      never above the threshold: no query ever asks for a split. */
  lemma SplitNeverRequested(t: Tree, i: nat)
    requires WellFormed(t) && i < |t.nodes|
    ensures !(|t.nodes[i].children| > SPLIT_THRESHOLD)
  {
    assert NodeOk(t, i);
  }
}

=== FILE: vectors.dfy ===
/** The vector types the physics core works with and the part of the
    transform that it reads: an integer micrometre position and a float scale.
    Rotation is float matrix work and enters the other modules only through
    function-typed parameters. */
module Vectors {
  import opened Base

  /** `I64Vec3`: a position or velocity in micrometres (per tick). */
  datatype IVec3 = IVec3(x: int, y: int, z: int)

  /** `Vec3` (f32 components), modelled as exact reals. */
  datatype Vec3 = Vec3(x: real, y: real, z: real)

  /** The fields of `Transform` the physics core reads and writes. */
  datatype Transform = Transform(pos: IVec3, scl: Vec3)

  const ZERO: Vec3 := Vec3(0.0, 0.0, 0.0)
  const IZERO: IVec3 := IVec3(0, 0, 0)

  function IAdd(a: IVec3, b: IVec3): IVec3 { IVec3(a.x + b.x, a.y + b.y, a.z + b.z) }
  function ISub(a: IVec3, b: IVec3): IVec3 { IVec3(a.x - b.x, a.y - b.y, a.z - b.z) }
  function INeg(a: IVec3): IVec3 { IVec3(-a.x, -a.y, -a.z) }
  function IScale(a: IVec3, k: int): IVec3 { IVec3(a.x * k, a.y * k, a.z * k) }
  function IDot(a: IVec3, b: IVec3): int { a.x * b.x + a.y * b.y + a.z * b.z }

  /** `I64Vec3 / i64`: each component divided with Rust's truncating `/`. */
  function IDiv(a: IVec3, k: int): IVec3
    requires k != 0
  {
    IVec3(RustDiv(a.x, k), RustDiv(a.y, k), RustDiv(a.z, k))
  }

  lemma IDotSelfNonNegative(v: IVec3)
    ensures IDot(v, v) >= 0
  {
    assert v.x * v.x >= 0 && v.y * v.y >= 0 && v.z * v.z >= 0;
  }

  function Add(a: Vec3, b: Vec3): Vec3 { Vec3(a.x + b.x, a.y + b.y, a.z + b.z) }
  function Sub(a: Vec3, b: Vec3): Vec3 { Vec3(a.x - b.x, a.y - b.y, a.z - b.z) }
  function Neg(a: Vec3): Vec3 { Vec3(-a.x, -a.y, -a.z) }
  function Scale(a: Vec3, k: real): Vec3 { Vec3(a.x * k, a.y * k, a.z * k) }
  function Dot(a: Vec3, b: Vec3): real { a.x * b.x + a.y * b.y + a.z * b.z }

  function Cross(a: Vec3, b: Vec3): Vec3
  {
    Vec3(a.y * b.z - a.z * b.y, a.z * b.x - a.x * b.z, a.x * b.y - a.y * b.x)
  }

  /** `component_div`: each component of a divided by the same component of b. */
  function CompDiv(a: Vec3, b: Vec3): Vec3
    requires b.x != 0.0 && b.y != 0.0 && b.z != 0.0
  {
    Vec3(a.x / b.x, a.y / b.y, a.z / b.z)
  }

  /** `i64vec3_from_vec3`: metres to micrometres, each component cast with
      `as i64` (truncation toward zero). */
  function FromMeters(v: Vec3): IVec3
  {
    IVec3(TruncReal(v.x * UNITS_PER_METER as real),
          TruncReal(v.y * UNITS_PER_METER as real),
          TruncReal(v.z * UNITS_PER_METER as real))
  }

  /** `vec3_from_i64vec3`: micrometres to metres. */
  function ToMeters(v: IVec3): Vec3
  {
    Vec3(v.x as real / UNITS_PER_METER as real,
         v.y as real / UNITS_PER_METER as real,
         v.z as real / UNITS_PER_METER as real)
  }

  /** `Transform::volume`: the product of the scale components, in m^3. */
  function Volume(t: Transform): real
  {
    t.scl.x * t.scl.y * t.scl.z
  }

  /** Converting an integer position to metres and back is lossless in exact
      arithmetic (the f32 rounding in between is not modelled). */
  lemma MetersRoundTrip(v: IVec3)
    ensures FromMeters(ToMeters(v)) == v
  {
    var u := UNITS_PER_METER as real;
    assert v.x as real / u * u == v.x as real;
    assert v.y as real / u * u == v.y as real;
    assert v.z as real / u * u == v.z as real;
    TruncRealOfInt(v.x);
    TruncRealOfInt(v.y);
    TruncRealOfInt(v.z);
  }

  /** The other direction loses everything below one micrometre, and never
      more: the error per component is under 10^-6 m. */
  lemma MicrometreRoundTrip(v: Vec3)
    ensures RealAbs(ToMeters(FromMeters(v)).x - v.x) < 1.0 / UNITS_PER_METER as real
    ensures RealAbs(ToMeters(FromMeters(v)).y - v.y) < 1.0 / UNITS_PER_METER as real
    ensures RealAbs(ToMeters(FromMeters(v)).z - v.z) < 1.0 / UNITS_PER_METER as real
  {
    var u := UNITS_PER_METER as real;
    var w := FromMeters(v);
    assert w.x as real - 1.0 < v.x * u < w.x as real + 1.0;
    assert w.y as real - 1.0 < v.y * u < w.y as real + 1.0;
    assert w.z as real - 1.0 < v.z * u < w.z as real + 1.0;
  }
}
